=== FILE: README.md ===
# speck, modelled in Dafny

speck is a command-line tool that plans task specifications for a Rust
codebase, keeps them linked to the code's module structure and to an issue
tracker, and records and replays its conversations with the outside world
on "cassettes". This project models speck's deterministic core as pure
Dafny functions over immutable datatypes and proves what each piece
promises:

- **codebase maps** (`CodeMap`, `Generator`, `Diff`): module summaries
  produced by reading module roots, public items and `use crate::` lines,
  and the difference between two maps (added, removed and changed modules);
- **linkage and drift** (`Linkage`, `Drift`): resolving the abstract module
  names a task spec mentions against a map with a three-tier, first-match
  rule, and reporting which specs reference modules that changed or
  disappeared between two maps;
- **planning decisions** (`Beads`, `Reconcile`, `Feedback`, `Validate`,
  `Conversation`, `Signal`): the Create/Update/Unchanged sync plan against
  the tracker and the calls it turns into, cycle detection among task
  dependencies by a coloured depth-first search, the classification of
  failed checks into implementation failures and spec flaws, validation of
  a spec's checks with drift warnings and the report, the parser for what
  the user types at the planning prompt, and the reading of a signal
  classification out of a parsed JSON response;
- **cassettes** (`Cassette`, `Recorder`, `Replayer`, `CassetteSplit`,
  `Recording`, `Replaying`, `ReplayShell`, `ReplayFs`): the recorder's
  sequence numbers, the replayer's per-(port, method) queues with cursors,
  splitting a session into per-port cassettes, and the Ok/Err JSON
  convention by which recording adapters store results and replaying
  adapters read them back.

Shared pieces: `Base` (the `Option`/`Result` wrappers and order-preserving
filtering), `Text` (the `str` methods the code uses, with ASCII case and
whitespace), `Order` (Rust's `String` ordering and `sort(); dedup();`),
`Json` (the part of `serde_json::Value` the code inspects), `Spec` (task
specifications) and `Ports` (values exchanged through the ports).

Modelling choices:

- A Rust panic (an exhausted cassette, a port with no replayer, an unknown
  spec in `execute_sync`, a non-boolean `exists` output) is an `Err`
  carrying the panic's subject; a `Result` whose error is only displayed
  is a `Result` carrying the message.
- The validation `CheckResult` has the shape `src/plan/feedback.rs` uses
  (category, expected and actual values), which the declaration in
  `src/validate/mod.rs` lacks; `Validate` fills the extra fields.
- `src/plan/signal.rs` has its own `SignalType` (clear, fuzzy but
  constrainable, internal logic), distinct from the one task specs carry;
  `Signal.SignalType` models the former and `Spec.SignalType` the latter.
- The shell, the clock, git queries and file contents are parameters:
  a function from a command to its outcome, a map from paths to contents,
  and so on.
- Where the design description and the code differ, the model follows the
  code. In particular, drift compares a module's item and dependency lists
  order-sensitively (Rust `Vec` inequality) while the map diff compares
  them as sets; `Drift.ReorderIsDriftButNoDiff` states the consequence.
- The recording adapters store results under the keys "Ok" and "Err", but
  the replaying shell and filesystem adapters look only for "ok" and
  "err". The adapters are modelled twice: as written (the `...AsWritten`
  members, with lemmas exhibiting what goes wrong) and corrected (reading
  both spellings, as `replay_result` does), with round-trip lemmas; the
  replayed calls use the corrected readings. See "## Findings".

## Model

| member | source | states |
|---|---|---|
| Diff.Missing | src/map/diff.rs:37-47 | the one-sided list difference: exactly the elements of the first list that the second lacks, empty iff every element occurs in the second list |
| Diff.DiffModule | src/map/diff.rs:62-87 | no change iff items and dependencies hold the same elements in both summaries; a change carries the new module's path and the four one-sided differences (added/removed items, added/removed dependencies), each the first list's elements the second lacks, in the first list's order with repeats kept |
| Diff.DiffModuleSwap | src/map/diff.rs:62-78 | comparing the other way round finds a change exactly when this way does, with additions and removals exchanged |
| Diff.FirstWithPath | src/map/diff.rs:51 | `find` by path: absent iff no module has that path, otherwise a module of the list with that path |
| Diff.ChangeOf | src/map/diff.rs:50-55 | a new module's change is reported only when its path is in the old map, and carries that path |
| Diff.ChangedModules | src/map/diff.rs:49-56 | every reported change is the change of some new module, every new module's change is reported, and the list is empty iff no new module changed |
| Diff.DiffMaps | src/map/diff.rs:33-59 | added modules are exactly the new paths absent from the old map, in the new map's order; removed modules exactly the old paths absent from the new map, in the old map's order; changed modules exactly the changes of new modules that have an old namesake |
| Diff.MissingInOrder | src/map/diff.rs:37-47 | the difference of a concatenation is the concatenation of the differences, and a single element is kept iff the other list lacks it, so kept elements stay in their original order |
| Diff.DiffChangedPaths | src/map/diff.rs:49-56 | a changed module's path is present in both maps |
| Diff.DiffReconstructsPaths | src/map/diff.rs:37-47 | the new map's paths are exactly the old paths minus the removed ones plus the added ones |
| Diff.DiffSelfEmpty | src/map/diff.rs:197-204 | a map whose module paths are distinct shows no difference to itself |
| Diff.DiffSelfRepeatedPath | src/map/diff.rs:49-56 | with a repeated module path a map does show a difference to itself, so the distinctness condition above is needed |
| Diff.ChangesLines | src/map/diff.rs:112-127 | every changed module gets its "Changed: path" heading |
| Diff.FormatDiff | src/map/diff.rs:91-130 | the text is "No changes since last map." iff the diff is empty; otherwise every added module appears as "  + path", every removed one as "  - path" and every changed one as a heading |
| Diff.FormatFirstLine | src/map/diff.rs:92-97 | a non-empty diff never renders as the all-clear sentence |
| Diff.FormatListsLines | src/map/diff.rs:99-110 | each added and each removed module has its line in the rendered report |
| Diff.FormatChangedLines | src/map/diff.rs:112-113 | each changed module has its heading in the rendered report |
| Linkage.Unresolved | src/linkage/resolve.rs:33-39 | exactly the references whose link has no path, no more of them than links |
| Linkage.UnresolvedInOrder | src/linkage/resolve.rs:33-39 | the unresolved references of two runs of links are listed run after run, a single link listed iff it has no path, so references come in link order |
| Linkage.FullyResolvedIffNoneUnresolved | src/linkage/resolve.rs:27-39 | a result is fully resolved iff its unresolved list is empty |
| Linkage.ExactImpliesItemHas | src/linkage/resolve.rs:72-91 | an exact item match is also an item-substring match, so tier 1 never finds a module tier 3 would miss |
| Linkage.FindMatchingModule | src/linkage/resolve.rs:69-94 | the result is a path of the map; it is absent iff no path and no public item contains the lower-cased reference; when some module has an exactly matching item the first such module wins, else the first module whose path contains the reference, else the first whose item contains it |
| Linkage.FindMatchingIgnoresCase | src/linkage/resolve.rs:70 | matching a lower-cased reference gives the same module as the reference itself |
| Linkage.Resolve | src/linkage/resolve.rs:49-61 | one link per module reference of the spec, same order, reference unchanged, spec id copied, path the best match, and any path found is a path of the map |
| Linkage.ResolveWithoutContext | src/linkage/resolve.rs:50 | a spec without context yields no links and is fully resolved |
| Linkage.ResolveAgainstEmptyMap | src/linkage/resolve.rs:49-94 | against a map without modules every reference is unresolved |
| Drift.ResolvedPaths | src/linkage/drift.rs:83-86 | exactly the paths some link resolved to; unresolved links contribute nothing |
| Drift.ResolvedPathsInOrder | src/linkage/drift.rs:83-86 | one path per resolved link, in link order: paths of two runs of links come run after run, a single link giving its path iff it has one |
| Drift.CheckSpecDrift | src/linkage/drift.rs:75-117 | no entry iff no resolved path is changed or removed; otherwise the spec's id, the changed list holding one entry per link resolving to a module present in both maps with differing item or dependency sequences, the removed list one entry per link resolving to a module in the old map only, both in link order with repeats kept, and re-planning advised iff something was removed or more than one entry changed |
| Drift.TwoLinksToOneChangedModule | src/linkage/drift.rs:83-108 | two links resolving to the same changed module list it twice, so re-planning is advised although one module changed |
| Drift.DetectDrift | src/linkage/drift.rs:54-72 | the report carries both commits, has at most one entry per spec, every entry is some spec's drift and every drifted spec has its entry |
| Drift.DetectDriftCleanIff | src/linkage/drift.rs:36-65 | the report is clean iff no spec drifted |
| Drift.DetectDriftConcat | src/linkage/drift.rs:59-65 | entries follow spec order: checking two groups gives the first group's entries then the second's |
| Drift.DetectDriftOne | src/linkage/drift.rs:59-65 | one spec yields exactly its own entry, if any |
| Drift.UnchangedModulesNoSpecDrift | src/linkage/drift.rs:88-106 | against an unchanged module list no linkage drifts |
| Drift.UnchangedModulesNoDrift | src/linkage/drift.rs:54-72 | a codebase whose module list did not change yields a clean report |
| Drift.DriftRemovedInDiff | src/linkage/drift.rs:91-94 | every module drift calls removed is removed in the map diff too |
| Drift.DriftPathsFromOldMap | src/linkage/drift.rs:62 | links are resolved against the old map, so every drifted path names an old module |
| Drift.DiffChangeIsDrift | src/linkage/drift.rs:95-99 | a module the map diff reports as changed is drifted |
| Drift.ReorderIsDriftButNoDiff | src/linkage/drift.rs:97 | the converse fails: reordering a module's items is drift (order-sensitive comparison) yet no map-diff change (membership comparison) |
| Drift.EntriesLines | src/linkage/drift.rs:132-145 | every entry has its "  Spec: id" line |
| Drift.FormatDriftReport | src/linkage/drift.rs:120-150 | a clean report is the one-sentence all-clear naming both commits; otherwise the text opens with the commits heading, names every drifted spec and closes with the affected count; it starts with "No drift" iff clean |
| Drift.FormatEntriesPresent | src/linkage/drift.rs:132-133 | each entry's spec line appears in the rendered report |
| Drift.SummaryLineSingular | src/linkage/drift.rs:147 | the closing line says "1 spec" for exactly one affected spec and "specs" otherwise |
| Beads.IssueTitle | src/sync/beads.rs:41-43 | the title starts with the `[id]` marker, followed by a single space, ends with the spec's title and has exactly three characters more than the two |
| Beads.MatchesOwner | src/sync/beads.rs:70-72 | an issue matched by a `]`-free spec id is marked with exactly that id |
| Beads.PrefixIdentifies | src/sync/beads.rs:70-72 | a title carries the marker of at most one `]`-free id, so issues of different specs are never confused |
| Beads.BulletsContain | src/sync/beads.rs:51-53 | every listed element has its "- item" line |
| Beads.DependenciesSection | src/sync/beads.rs:55-62 | the dependency section is present iff the spec has a context with dependencies, and then opens with the "## Dependencies" heading |
| Beads.IssueBodyListsCriteria | src/sync/beads.rs:47-53 | the body opens with the acceptance-criteria heading and lists every criterion |
| Beads.IssueBodyListsDependencies | src/sync/beads.rs:55-62 | with dependencies the body holds the heading and every dependency |
| Beads.IssueBodyWithoutDependencies | src/sync/beads.rs:55-62 | without dependencies the body is the criteria alone, as for a spec without context |
| Beads.MatchIndex | src/sync/beads.rs:70-72 | the position of the first issue whose title starts with `[id]`; absent iff none does |
| Beads.FindMatchingIssue | src/sync/beads.rs:67-73 | the first issue whose title starts with `[id]`; absent iff no title does |
| Beads.PlanAction | src/sync/beads.rs:79-98 | the action carries the spec's id; Create iff no issue matches, with the generated title; otherwise it names the first match, and is Unchanged iff that issue's title and body both equal the generated ones, else Update with the generated title |
| Beads.PlanSync | src/sync/beads.rs:76-101 | exactly one action per spec, in spec order, each the spec's own action |
| Beads.PlanAgainstNoIssues | src/sync/beads.rs:97 | against an empty tracker every spec is created |
| Beads.SpecByIdDistinct | src/sync/beads.rs:121-125 | with distinct spec ids the lookup by id finds the spec itself |
| Beads.CallFor | src/sync/beads.rs:120-143 | a Create action makes a create call and an Update action an update call of its issue, both with the spec's current title and body |
| Beads.FailureMessage | src/sync/beads.rs:131-142 | the error names the failed action and spec, and ends with the tracker's message |
| Beads.ExecuteSync | src/sync/beads.rs:115-148 | at most one call per action; a run without error had every call accepted |
| Beads.ExecuteSyncStep | src/sync/beads.rs:119-143 | in a successful run a Create or Update action makes its call, then the run continues with the remaining actions |
| Beads.ExecuteSyncCounts | src/sync/beads.rs:119-146 | a successful run makes exactly one create call per Create action and one update call per Update action, and none for Unchanged |
| Beads.ExecuteUnchangedOnly | src/sync/beads.rs:144 | a plan of Unchanged actions makes no call and cannot fail |
| Beads.ExecutePlanSucceeds | src/sync/beads.rs:104-148 | a plan made from the same (distinct-id) specs never names an unknown spec, so the run succeeds when the tracker accepts every call |
| Beads.ApplyCall | src/ports/issues.rs:23-45 | no call removes an issue or changes an issue's id or status; a create keeps every existing issue and adds one open issue carrying the call's title and body under a fresh id; an update gives the call's title and body to the issues with its id and leaves every other issue as it was; ids stay unique when the new id is unused |
| Beads.ApplyCallsLength | src/sync/beads.rs:3-4 | creates add one issue each and updates none |
| Beads.UpdateOne | src/sync/beads.rs:135-142 | with unique issue ids an update changes that issue alone |
| Beads.MatchIndexPointwise | src/sync/beads.rs:70-72 | the first match depends only on which positions match |
| Beads.MatchIndexAppend | src/sync/beads.rs:70-72 | appending an issue keeps an earlier first match; otherwise the appended issue is the first match iff it matches |
| Beads.SyncedIds | src/sync/beads.rs:3-4 | along the sync the tracker's issue ids stay unique |
| Beads.AppendKeepsMatch | src/sync/beads.rs:70-72 | creating an issue for another spec leaves a spec's first match in place |
| Beads.ReplaceKeepsMatch | src/sync/beads.rs:70-72 | updating another spec's issue (keeping its marker) leaves a spec's first match in place |
| Beads.ReplaceKeepsFirst | src/sync/beads.rs:70-72 | rewriting the first match with a still-matching issue keeps it the first match |
| Beads.StepUnchanged | src/sync/beads.rs:144 | an Unchanged action extends the synced prefix without touching the tracker |
| Beads.StepCreate | src/sync/beads.rs:120-131 | the create call of a spec without issue makes that spec current and keeps the earlier specs current |
| Beads.StepUpdate | src/sync/beads.rs:132-142 | the update call of a spec's first match makes that spec current and keeps the earlier specs current |
| Beads.SyncFrom | src/sync/beads.rs:115-148 | running the rest of the plan from a state synced up to spec n leaves every spec current |
| Beads.SyncIdempotent | src/sync/beads.rs:3-4 | idempotence: after a successful sync, planning again gives only Unchanged actions, executing that plan makes no call, and the tracker grew by exactly the number of Create actions |
| Beads.CreateLine | src/sync/beads.rs:160-161 | a Create line starts "  CREATE id" and not with another kind |
| Beads.UpdateLine | src/sync/beads.rs:163-164 | an Update line starts "  UPDATE id" and not with another kind |
| Beads.UnchangedLine | src/sync/beads.rs:166-167 | an Unchanged line starts "  UNCHANGED id" and not with another kind |
| Beads.ActionLineNames | src/sync/beads.rs:158-169 | a line's leading tag identifies its action's kind (each direction), followed by the spec id |
| Beads.ActionLines | src/sync/beads.rs:157-170 | one line per action, in order |
| Beads.FormatActions | src/sync/beads.rs:152-172 | the report is "No specs to sync." iff there are no actions; otherwise it starts with the first action's line and ends with the last one's |
| Beads.FormatActionsConcat | src/sync/beads.rs:157-171 | a single action's report is its line, and the report of two runs of actions is their reports one line break apart: one line per action, in order |
| Beads.FormatActionsLists | src/sync/beads.rs:157-171 | every action's line appears in the report |
| Reconcile.KnownDeps | src/plan/reconcile.rs:97-103 | only dependencies naming a spec id are kept, and every such dependency is kept |
| Reconcile.Entries | src/plan/reconcile.rs:96-104 | one (id, known dependencies) entry per spec, in order |
| Reconcile.InsertKeys | src/plan/reconcile.rs:104 | inserting entries gives one key per inserted id |
| Reconcile.InsertValues | src/plan/reconcile.rs:104 | every stored value is the value of some inserted entry |
| Reconcile.InsertLast | src/plan/reconcile.rs:104 | the last insertion of a key decides its value |
| Reconcile.BuildGraph | src/plan/reconcile.rs:92-105 | the graph's nodes are exactly the spec ids, every successor is a node, and a spec's successors are its known dependencies (the last spec of a repeated id wins, as with `HashMap::insert`) |
| Reconcile.IndexOf | src/plan/reconcile.rs:139 | the position of the first occurrence, as `position` finds it |
| Reconcile.DfsNode | src/plan/reconcile.rs:123-151 | entering an unvisited node and searching its successors keeps the search invariant, restores the stack and on-stack set, visits the node and finishes it |
| Reconcile.Push | src/plan/reconcile.rs:131-133 | entering a node marks it visited and pushes it on the stack and the on-stack set |
| Reconcile.Pop | src/plan/reconcile.rs:149-150 | leaving a node restores the stack and on-stack set to what they were before it was entered, and finishes the node |
| Reconcile.FinishNode | src/plan/reconcile.rs:149-150 | finishing a node after all its successors keeps the finished nodes in topological order |
| Reconcile.DfsSuccessors | src/plan/reconcile.rs:135-147 | the loop over a node's successors keeps the invariant and the stack, and, while no cycle is reported, finishes every successor |
| Reconcile.Visit | src/plan/reconcile.rs:136-145 | an unvisited successor is searched, an on-stack one reports a cycle, a finished one is skipped; without a reported cycle the successor is finished afterwards |
| Reconcile.BackEdge | src/plan/reconcile.rs:138-144 | a back edge reports exactly one new cycle, the stack suffix starting at the edge's target, and changes nothing else |
| Reconcile.DfsRoots | src/plan/reconcile.rs:113-117 | the top-level loop leaves the stack and on-stack set empty and visits every root |
| Reconcile.Search | src/plan/reconcile.rs:107-117 | the search over the dependency graph ends with an empty stack and every root visited |
| Reconcile.DetectCycles | src/plan/reconcile.rs:91-120 | every reported cycle is a cycle of the dependency graph (consecutive members and last-to-first are dependency edges) made of spec ids |
| Reconcile.EdgeDescends | src/plan/reconcile.rs:135-137 | in a topological finishing order a dependency finishes before its dependent |
| Reconcile.WalkDescends | src/plan/reconcile.rs:135-137 | along a walk each step goes to an earlier-finished node |
| Reconcile.TopologicalNoCycle | src/plan/reconcile.rs:135-147 | nodes that all appear in a topological order form no cycle |
| Reconcile.ReportedWitnessesCycle | src/plan/reconcile.rs:138-144 | a reported cycle proves the dependency graph cyclic |
| Reconcile.TopologicalAcyclic | src/plan/reconcile.rs:135-147 | a graph whose nodes all appear in a topological order has no cycle |
| Reconcile.SearchTopological | src/plan/reconcile.rs:123-151 | when no cycle was reported the search finished the nodes in topological order |
| Reconcile.NoneReportedAcyclic | src/plan/reconcile.rs:290-299 | when every spec id is a root and no cycle was reported, the graph has no cycle |
| Reconcile.NoCyclesIffAcyclic | src/plan/reconcile.rs:91-120 | with every spec id a root, no cycle is reported iff the dependency graph is acyclic (both directions) |
| Reconcile.SearchVisitsEachOnce | src/plan/reconcile.rs:113-150 | each spec id is finished exactly once and the stack and on-stack set end empty |
| Reconcile.ExternalDependencyIgnored | src/plan/reconcile.rs:97-103 | adding a dependency on an id outside the spec set leaves the graph unchanged |
| Reconcile.ParseReconciliation | src/plan/reconcile.rs:214-237 | a reply that deserialises gives its suggestions with the detected cycles passed through untouched; one that does not is an error naming the parse failure |
| Feedback.ImplementationFailures | src/plan/feedback.rs:66-73 | exactly the implementation failures of the classification (order: Feedback.FiltersInOrder) |
| Feedback.SpecFlaws | src/plan/feedback.rs:75-82 | exactly the spec flaws of the classification (order: Feedback.FiltersInOrder) |
| Feedback.FiltersPartition | src/plan/feedback.rs:66-82 | the two filters split the failures: together they hold every failure once |
| Feedback.FiltersInOrder | src/plan/feedback.rs:66-82 | both filters keep the classification's order: a single failure is kept by exactly the filter of its kind, and two runs of failures are kept run after run |
| Feedback.HasSpecFlawsIff | src/plan/feedback.rs:60-82 | `has_spec_flaws` holds iff the spec-flaw list is non-empty |
| Feedback.AllImplementationIff | src/plan/feedback.rs:50-58 | every failure is an implementation failure iff there are failures and no spec flaw, false on none |
| Feedback.ImplementationHint | src/plan/feedback.rs:101-104 | the fix hint opens by naming the check, reports the expected value after "failed: expected" and the actual one after "got", and ends with the advice to fix the implementation |
| Feedback.DriftHint | src/plan/feedback.rs:107-110 | the revision hint of a drift warning names the check and mentions drift |
| Feedback.ManualHint | src/plan/feedback.rs:113-116 | the revision hint of a manual check names the check and says it needs manual review |
| Feedback.Classify | src/plan/feedback.rs:98-127 | name, detail, expected and actual are copied; the failure is an implementation failure iff the check is executable, and drift and manual-review checks give spec flaws with their hints |
| Feedback.ClassifyFailures | src/plan/feedback.rs:93-129 | one classified failure per failed check, in order, with the spec id copied |
| Feedback.ClassifyEmptyIffPassed | src/plan/feedback.rs:219-224 | nothing is classified iff every check passed |
| Feedback.ClassifyAllImplementationIff | src/plan/feedback.rs:50-104 | all failures are implementation failures iff some check failed and every failed check was executable |
| Feedback.ClassifyHasSpecFlawsIff | src/plan/feedback.rs:60-116 | a spec flaw is found iff some failed check was not executable |
| Feedback.SpecFlawOfCheck | src/plan/feedback.rs:105-116 | a failed non-executable check yields a spec flaw |
| Feedback.SpecFlawFromCheck | src/plan/feedback.rs:105-116 | every spec flaw comes from a failed non-executable check |
| Feedback.ProposeRevisions | src/plan/feedback.rs:137-153 | one revision per spec flaw, in order, with the classification's spec id, the flaw's check name and its hint as the action |
| Feedback.ProposeRevisionsIff | src/plan/feedback.rs:137-153 | revisions are proposed iff there is a spec flaw, never when every failure is an implementation failure |
| Feedback.RevisionsExplainThemselves | src/plan/feedback.rs:105-153 | every revision proposed for a validation result names a failed non-executable check and carries its hint |
| Validate.FailedChecks | src/validate/mod.rs:34-36 | exactly the failing checks (order and repeats: Validate.FailedChecksInOrder) |
| Validate.FailedChecksInOrder | src/validate/mod.rs:34-36 | the failing checks keep the checks' order and repeats: a single check is kept iff it failed, and two runs of checks are kept run after run |
| Validate.PassedIffNoFailures | src/validate/mod.rs:34-36 | a result passes iff no check failed, so vacuously when there are no checks |
| Validate.ExitReport | src/validate/mod.rs:99-103 | the detail opens with "exit code" |
| Validate.ExitDetail | src/validate/mod.rs:99-103 | the detail reports the exit code, then what was expected |
| Validate.RunShellCheck | src/validate/mod.rs:94-113 | the check passes iff the command ran and exited with 0; a failing run's detail ends with its stderr; a spawn error fails with "failed to run command" and the error |
| Validate.ManualResult | src/validate/mod.rs:76-90 | a failing manual-review result with the given name and detail |
| Validate.RunCheck | src/validate/mod.rs:68-92 | test suites and command checks run in the shell; SQL assertions, migration rollbacks and custom checks fail without running, SQL ones reporting "not yet supported" with the expected value |
| Validate.NonExecutingIgnoresShell | src/validate/mod.rs:76-90 | a check that runs nothing gives the same result whatever the shell does |
| Validate.RunChecks | src/validate/mod.rs:46-48 | one result per check, in order |
| Validate.Validate | src/validate/mod.rs:44-66 | the spec id is copied; a direct assertion yields one result per check in order; refactor-to-expose and trace assertions yield exactly one failing result |
| Validate.ValidatePassedIff | src/validate/mod.rs:34-66 | a spec validates iff it asserts directly and every check is a command that runs and exits with 0 |
| Validate.DriftWarning | src/validate/mod.rs:136-150 | a failing drift-category result named "drift-warning: ..." |
| Validate.ModuleWarnings | src/validate/mod.rs:133-152 | one failing drift warning per module, in order, named after the module |
| Validate.EntryWarnings | src/validate/mod.rs:132-164 | a drift entry is worth one warning per changed module, then one per removed module, then one when re-planning is advised |
| Validate.Warnings | src/validate/mod.rs:132-164 | all warnings of a report, each failing and of the drift category |
| Validate.InsertEachAtFront | src/validate/mod.rs:134-154 | inserting each warning at position 0 in turn puts them in reverse order in front of the original checks, which are kept unchanged |
| Validate.ValidateWithDrift | src/validate/mod.rs:121-169 | equal to the plain validation unless both maps are given; otherwise the plain checks, unchanged, are preceded by the report's drift warnings in reverse insertion order (the last inserted comes first), all failing |
| Validate.WarningsConcat | src/validate/mod.rs:132-164 | the warnings of a report are those of its entries, one entry after the other, and a one-entry report warns as that entry does |
| Validate.DriftWarningsOfSpec | src/validate/mod.rs:121-169 | for a drifted spec the inserted warnings are its entry's own (one per changed module, one per removed module, one for re-planning), the first check being the last inserted warning |
| Validate.DriftWarningCount | src/validate/mod.rs:132-164 | the warnings added number the changed plus the removed modules, plus one when re-planning is advised |
| Validate.PassingSuffix | src/validate/mod.rs:34-36 | the checks at the end of a passing list pass |
| Validate.DriftNeverPasses | src/validate/mod.rs:121-169 | a drifted spec never passes validation with drift, and passing with drift implies passing without it |
| Validate.CheckBlock | src/validate/mod.rs:177-184 | a passed check is one "[PASS] name" line; a failed one a "[FAIL] name" line followed by its detail lines, indented |
| Validate.ReportLines | src/validate/mod.rs:174-188 | the report opens with the spec line and ends with the overall result of `passed()` |
| Validate.FormatReport | src/validate/mod.rs:172-190 | the text opens with "Spec: id" and ends with "Result: PASSED" iff the result passed, "Result: FAILED" iff not |
| Validate.FormatReportListsChecks | src/validate/mod.rs:177-179 | every check's status line appears in the report |
| Generator.FileNameOf | src/map/generator.rs:58 | the name of `dir/name` is `name` (the last `/`-separated component) |
| Generator.TestFileByName | src/map/generator.rs:57-61 | a file named `test_*`, `*_test.rs` or `*_tests.rs` is a test file wherever it lives |
| Generator.NotTestFileWithoutT | src/map/generator.rs:57-65 | every marker contains a `t`, so a path without one is never a test file |
| Generator.IsTestFileExamples | src/map/generator.rs:278-282 | the paths the source's own test lists as test files are test files |
| Generator.IsTestFileCounterExamples | src/map/generator.rs:283-284 | "src/main.rs" and "src/map/mod.rs" are not test files |
| Generator.ModuleRootOf | src/map/generator.rs:71-73 | a file marks a module root iff its name is mod.rs or lib.rs and it contains a `/`, and the root is the part before the last `/` |
| Generator.FindModuleRoots | src/map/generator.rs:68-82 | the roots are strictly sorted (sorted, no duplicates) and are exactly the directories of the listed mod.rs and lib.rs files |
| Generator.FindModuleRootsSameFiles | src/map/generator.rs:68-82 | the roots depend only on which files are listed, not on their order or repetition |
| Generator.ModuleRootOfSplit | src/map/generator.rs:71-73 | `dir/name` marks `dir` iff name is mod.rs or lib.rs |
| Generator.Extension | src/map/generator.rs:96 | a name has an extension iff it has a `.` after its first character (and is not ".."); the name then ends with `.` and the extension, and an extension never contains a `.` |
| Generator.LineItem | src/map/generator.rs:124-137 | a line declares an item iff its trimmed form starts with "pub fn ", "pub struct " or "pub trait ", and the item is named "fn ...", "struct ..." or "trait ..." |
| Generator.LineItemFn | src/map/generator.rs:125-128 | `pub fn name(...` declares `fn name` |
| Generator.LineItemStruct | src/map/generator.rs:129-132 | `pub struct Name` followed by a space, `{`, `(` or `<` declares `struct Name` |
| Generator.LineItemTrait | src/map/generator.rs:133-136 | `pub trait Name` followed by a space, `{`, `<` or `:` declares `trait Name` |
| Generator.LineDependency | src/map/generator.rs:144-149 | a line names a dependency iff its trimmed form starts with "use crate::", and the name never ends in `;` |
| Generator.LineDependencyPath | src/map/generator.rs:146 | `use crate::m::...` names module `m` |
| Generator.LineDependencyModule | src/map/generator.rs:147 | `use crate::m;` names module `m` |
| Generator.ScanItems | src/map/generator.rs:122-139 | existing entries are kept as a prefix, and exactly the items declared by some line are appended |
| Generator.ScannedItemKinds | src/map/generator.rs:125-136 | everything appended is a function, a struct or a trait |
| Generator.ScanDependencies | src/map/generator.rs:142-152 | existing entries are kept as a prefix, and exactly the dependencies named by some line are appended |
| Generator.ScanDependenciesCount | src/map/generator.rs:143-150 | exactly one dependency is appended per `use crate::` line |
| Generator.ModuleFiles | src/map/generator.rs:91-99 | exactly the listed `.rs` files (any case) directly inside the module directory |
| Generator.BuildModuleSummary | src/map/generator.rs:85-119 | the summary carries the module path, and its items and dependencies are strictly sorted and are exactly those found in the module's readable Rust files |
| Generator.BuildModuleSummarySameFiles | src/map/generator.rs:85-119 | a summary does not depend on the order the files are listed in |
| Generator.Summaries | src/map/generator.rs:38-41 | one summary per module root, in root order |
| Generator.AssembleMap | src/map/generator.rs:28-44 | the map carries the commit, the time and the listing; its module paths are the sorted distinct roots, the k-th module being the summary `build_module_summary` gives the k-th root; its test files are exactly the listed test files |
| Generator.Generate | src/map/generator.rs:20-54 | a failing commit query, listing or write is an error with the source's message, in that order of precedence; otherwise the map assembled from the commit, the clock reading and the listing |
| Recorder.New | src/cassette/recorder.rs:21-33 | a new recorder has no interactions, counts from 0, satisfies the numbering invariant and keeps path, name and commit |
| Recorder.Record | src/cassette/recorder.rs:36-52 | exactly one interaction is appended, numbered with the previous counter, with port, method, input and output unchanged; the counter moves on by one; the invariant `interactions[i].seq == i`, `next_seq == len` is preserved |
| Recorder.RecordAll | src/cassette/recorder.rs:36-52 | recording calls one after another advances the counter by their number and keeps the invariant |
| Recorder.RecordAllFromNew | src/cassette/recorder.rs:96-99 | a fresh recorder given a list of calls holds exactly those calls, in order, the i-th numbered i |
| Replayer.Queue | src/cassette/replayer.rs:28-34 | a key's queue holds only that key's interactions, and is non-empty iff the cassette has one |
| Replayer.Group | src/cassette/replayer.rs:27-34 | one queue per key that occurs, holding that key's interactions in cassette order |
| Replayer.KeysSnoc | src/cassette/replayer.rs:28-34 | one more interaction adds its key to the keys |
| Replayer.New | src/cassette/replayer.rs:26-37 | the queues are the cassette's per-(port, method) groups in cassette order, every cursor at 0 |
| Replayer.NextInteraction | src/cassette/replayer.rs:46-71 | an unknown pair fails with "no interactions recorded"; an exhausted queue fails with "all consumed"; otherwise the interaction under the pair's cursor is served and that cursor, and only that one, moves on by one |
| Replayer.ServeAll | src/cassette/replayer.rs:46-71 | a successful run of requests serves one interaction per request and keeps the queues |
| Replayer.ServeAllSpec | src/cassette/replayer.rs:90-132 | a run succeeds iff every request fits in its queue after the earlier requests for the same pair; then the i-th request is served the next entry of its own queue, whatever the interleaving with other pairs |
| Replayer.ServeStep | src/cassette/replayer.rs:59-70 | the inductive step of the above: one more request |
| Replayer.AllFitSnoc | src/cassette/replayer.rs:60-66 | a run fits iff its first part does and its last request fits after it |
| Replayer.ServedSnoc | src/cassette/replayer.rs:68-70 | serving one more fitting request extends what was served in order |
| Replayer.ServedSeqSnoc | src/cassette/replayer.rs:68-70 | the entry named by the last request extends the served list |
| Replayer.LastRequest | src/cassette/replayer.rs:59-70 | after earlier requests the cursor of each pair has moved by the number of its requests, so the last request is served iff it fits, with the entry at that position |
| Replayer.ReplayInCassetteOrder | src/cassette/replayer.rs:90-132 | replaying a whole cassette from the start, the k-th request for a pair gets that pair's k-th interaction in cassette order |
| Replayer.UnknownKeyFails | src/cassette/replayer.rs:49-57 | a request for a pair the cassette never recorded fails with "no interactions recorded" |
| Replayer.ExhaustedFails | src/cassette/replayer.rs:60-66 | asking for more interactions than a pair recorded aborts the run |
| CassetteSplit.PortsOf | src/bin/cassette_split.rs:32-35 | the i-th entry is the port of the i-th interaction, so the list has one entry per interaction |
| CassetteSplit.Ports | src/bin/cassette_split.rs:32-35 | the group keys are strictly increasing (each port once, in `BTreeMap` order) and a port is a key iff some interaction was made on it |
| CassetteSplit.OnPort | src/bin/cassette_split.rs:32-35 | a port's group holds only interactions on that port, and holds an interaction iff the session has it on that port |
| CassetteSplit.OnPortAppend | src/bin/cassette_split.rs:32-35 | grouping keeps recording order: the group of a concatenation is the group of the first part followed by that of the second |
| CassetteSplit.OnPortSingle | src/bin/cassette_split.rs:32-35 | a single interaction is its own port's group and nobody else's |
| CassetteSplit.Renumber | src/bin/cassette_split.rs:44-54 | the renumbered list is numbered 0, 1, 2, ... and differs from the input in nothing but the sequence numbers |
| CassetteSplit.SplitPorts | src/bin/cassette_split.rs:37-41 | at most one file per port, and no file is written with an empty interaction list |
| CassetteSplit.PortFile | src/bin/cassette_split.rs:56-68 | the per-port cassette is named `<session>-<port>`, points back at the session, keeps recording time and commit, holds the port's calls renumbered from zero, and is written to `<session>.yaml` |
| CassetteSplit.Split | src/bin/cassette_split.rs:22-78 | never more files than distinct ports |
| CassetteSplit.NoPortSkipped | src/bin/cassette_split.rs:37-41 | when every port has interactions, no port is skipped and the i-th file is the i-th port's |
| CassetteSplit.SplitShape | src/bin/cassette_split.rs:32-68 | a split writes exactly one file per distinct port, in port order, each the port's own cassette |
| CassetteSplit.GroupsPartition | src/bin/cassette_split.rs:32-35 | the groups of distinct ports covering every interaction have sizes adding up to the whole session |
| CassetteSplit.SplitKeepsEveryInteraction | src/bin/cassette_split.rs:139-182 | nothing is lost or duplicated: the per-port cassettes together hold exactly as many interactions as the session |
| Recording.EncodeResult | src/adapters/recording/mod.rs:60-66 | the stored output is an object with one field, keyed "Ok" exactly for a success; a success stores the encoded value and a failure its message as a string |
| Recording.RecordInteraction | src/adapters/recording/mod.rs:20-37 | exactly one interaction is appended, holding the output as it is, and the recorder's numbering invariant is kept |
| Recording.RecordResult | src/adapters/recording/mod.rs:46-70 | exactly one interaction is appended, with the given port, method and input, and the Ok/Err wrapping of the result as output |
| Recording.ShellOutputJson | src/ports/shell.rs:5-12 | a shell output is stored with its exit code, stdout and stderr under their field names |
| Json.StringsJson | src/adapters/recording/filesystem.rs:65-72 | a list of strings is stored as an array of the same strings in order |
| Replaying.NextOutput | src/adapters/replaying/mod.rs:21-34 | no replayer is the "not configured" failure; otherwise an output is served iff the pair has one left, it is the pair's next recorded output, and only that pair's cursor moves on |
| Replaying.MessageOr | src/adapters/replaying/mod.rs:45 | a string field gives its text, anything else the default |
| Replaying.EitherKey | src/adapters/replaying/mod.rs:44 | the capitalised key is looked up first and the lower-case one only when it is missing |
| Replaying.ReplayResult | src/adapters/replaying/mod.rs:41-54 | an "Err" (else "err") field is an error with its message or "replayed error"; otherwise the "Ok" (else "ok") field, or the whole output, is decoded |
| Replaying.ErrorTakesPrecedence | src/adapters/replaying/mod.rs:44-51 | an output with both an error and a success field replays as the error |
| Replaying.ReplayRoundTrip | src/adapters/recording/mod.rs:39-45 | what `record_result` stores, `replay_result` gives back, for any decoder that inverts the encoder |
| Replaying.ReplayCall | src/adapters/replaying/mod.rs:21-34 | one replayed call consumes the pair's next interaction and no other, decodes its output, and keeps the replayer's invariant |
| ReplayShell.ToI32 | src/adapters/replaying/shell.rs:38 | the exit code is kept when it fits in 32 bits and becomes 1 otherwise |
| ReplayShell.StrField | src/adapters/replaying/shell.rs:34-37 | a string field gives its text; missing or non-string gives "" |
| ReplayShell.ExitCodeOf | src/adapters/replaying/shell.rs:33 | the exit code read is the field's value when it is a signed 64-bit integer, and 0 when the field is missing or of another kind |
| ReplayShell.DecodeShellOutput | src/adapters/replaying/shell.rs:32-38 | the decoded output takes the exit code read when it fits 32 bits and 1 otherwise (0 when missing), and the stdout and stderr string fields ("" when missing or not strings) |
| ReplayShell.DecodeShellOutputInverse | src/adapters/replaying/shell.rs:32-38 | a shell output stored with its three fields decodes to itself |
| ReplayShell.RunAsWritten | src/adapters/replaying/shell.rs:22-39 | the adapter errs iff a lower-case "err" field is present, with its message or "unknown error"; otherwise it decodes the "ok" field when present and the bare output when not |
| ReplayShell.RecordedErrorReplaysAsSuccess | src/adapters/replaying/shell.rs:28-32 | a failed run, as the recording adapter stores it, replays as a success with exit code 0 and no output |
| ReplayShell.RecordedExitCodeLost | src/adapters/replaying/shell.rs:32-33 | a recorded run that exited 1 replays as one that exited 0 |
| ReplayShell.Run | src/adapters/replaying/shell.rs:22-39 | the corrected reading errs iff an "Err" or "err" field is present, with the message of the one `replay_result` prefers; otherwise it decodes the "Ok" or "ok" field when present and the bare output when not |
| ReplayShell.RunRoundTrip | src/adapters/recording/shell.rs:30-33 | every run result the recording adapter stores reads back as itself |
| ReplayShell.RunAgreesOnLowerCase | src/adapters/replaying/shell.rs:59-86 | on outputs written with lower-case keys, the corrected reading agrees with the adapter |
| ReplayShell.ReplayRun | src/adapters/replaying/shell.rs:22-27 | a replayed run is served iff a "shell"/"run" interaction is left, and consumes exactly that one |
| ReplayFs.DecodeString | src/adapters/replaying/filesystem.rs:34 | decoding as a string succeeds exactly on string values and gives their text |
| ReplayFs.DecodeStrings | src/adapters/replaying/filesystem.rs:34 | decoding as a list of strings succeeds exactly on arrays of strings and gives them in order |
| ReplayFs.DecodeStringInverse | src/adapters/replaying/filesystem.rs:34 | a stored string decodes to itself |
| ReplayFs.DecodeStringsInverse | src/adapters/replaying/filesystem.rs:34 | a stored list of strings decodes to itself |
| ReplayFs.InContext | src/adapters/replaying/filesystem.rs:34-35 | a success passes through; a decoding error is prefixed with the call and "failed to deserialize" and keeps its message |
| ReplayFs.ExtractResultAsWritten | src/adapters/replaying/filesystem.rs:25-36 | a lower-case "err" field is an error with its message or "unknown error"; otherwise the "ok" field, or the whole output, is decoded |
| ReplayFs.WriteAsWritten | src/adapters/replaying/filesystem.rs:51-66 | a write errs iff a lower-case "err" field is present |
| ReplayFs.Exists | src/adapters/replaying/filesystem.rs:68-75 | the answer is the recorded boolean, and any other output is the "expected boolean output" failure |
| ReplayFs.ExistsRoundTrip | src/adapters/recording/filesystem.rs:58-61 | an `exists` answer, recorded as a bare boolean, reads back as itself |
| ReplayFs.RecordedReadReplaysAsError | src/adapters/replaying/filesystem.rs:29-35 | a file the recording adapter read successfully replays as a deserialisation error |
| ReplayFs.RecordedWriteErrorReplaysAsSuccess | src/adapters/replaying/filesystem.rs:61-65 | a write the recording adapter saw fail replays as a success |
| ReplayFs.ExtractResult | src/adapters/replaying/filesystem.rs:25-36 | the corrected reading errs on an "Err" or "err" field, with its message or "unknown error"; otherwise it decodes the "Ok" or "ok" field when present and the bare output when not, a decoding error taking the context prefix |
| ReplayFs.ExtractRoundTrip | src/adapters/recording/mod.rs:46-70 | whatever `record_result` stored, the corrected reading gives back, for a decoder that inverts the encoder |
| ReplayFs.ExtractAgreesOnLowerCase | src/adapters/replaying/filesystem.rs:25-36 | on outputs written with lower-case keys, the corrected reading agrees with the adapter |
| ReplayFs.Write | src/adapters/replaying/filesystem.rs:51-66 | the corrected write errs iff an "Err" or "err" field is present |
| ReplayFs.FsRoundTrips | src/adapters/recording/filesystem.rs:37-72 | every read, list and write result the recording adapter stores reads back as itself |
| ReplayFs.WriteRoundTrip | src/adapters/recording/filesystem.rs:47-54 | a recorded write result reads back as itself |
| ReplayFs.ReplayRead | src/adapters/replaying/filesystem.rs:39-49 | a replayed read is served iff an "fs"/"read_to_string" interaction is left, and consumes exactly that one |
| ReplayFs.ReplayWrite | src/adapters/replaying/filesystem.rs:51-60 | a replayed write is served iff an "fs"/"write" interaction is left, and consumes exactly that one |
| ReplayFs.ReplayExists | src/adapters/replaying/filesystem.rs:68-74 | a replayed `exists` is served iff an "fs"/"exists" interaction is left, and consumes exactly that one |
| ReplayFs.ReplayListDir | src/adapters/replaying/filesystem.rs:77-87 | a replayed directory listing is served iff an "fs"/"list_dir" interaction is left, and consumes exactly that one |
| Conversation.ParseSignalType | src/plan/conversation.rs:374-381 | a name is recognised iff it is one of the three signal type names |
| Conversation.SignalTypeRoundTrip | src/plan/conversation.rs:374-381 | each type's name reads back as that type, and a string reads as a type only if it is that type's name |
| Conversation.Letter | src/plan/conversation.rs:391-398 | a text names an option iff it is one lower-case letter, and the option is its place in the alphabet from 1 |
| Conversation.LetterOption | src/plan/conversation.rs:391-398 | an option picked by letter is between 1 and 26 |
| Conversation.TitleOf | src/plan/conversation.rs:402-404 | a title exists iff the trimmed text is not blank, and is the trimmed text |
| Conversation.TaskTitle | src/plan/conversation.rs:401-406 | a task title is only read after "add task:", is not empty, and is the trimmed rest |
| Conversation.RawTitleIsLowerTitle | src/plan/conversation.rs:401-412 | whenever the raw input carries a task title, the lower-cased input carries the same title lower-cased, so the raw-input branch never decides |
| Conversation.TitleIsLower | src/plan/conversation.rs:401-406 | a title read from lower-case text is lower case |
| Conversation.ParseUserInput | src/plan/conversation.rs:384-418 | input that is no command word, option or task is passed on as feedback with its text unchanged (case and spacing kept) |
| Conversation.ParseUserInputCases | src/plan/conversation.rs:384-418 | the input is Accept iff its lower case is an accept word, Stop iff a stop word, an option iff it is neither and names a letter (an option from 1 to 26), a task iff none of those and it has a task title (then lower case, trimmed and non-empty), and feedback exactly when none of these applies |
| Conversation.PicksWhenLetter | src/plan/conversation.rs:391-398 | input that is no command word but names a letter picks that option |
| Conversation.NotAWord | src/plan/conversation.rs:387-388 | inputs shorter than 2 or longer than 6 characters are never command words |
| Conversation.BareLetter | src/plan/conversation.rs:391-398 | a single lower-case letter names the option at its place in the alphabet |
| Conversation.OptionWordIgnored | src/plan/conversation.rs:391 | "option " in front of a letter changes nothing |
| Conversation.SingleLetterPicks | src/plan/conversation.rs:387-398 | "a", "b", ... and "option a", "option b", ... are no command words and name options 1, 2, ... |
| Conversation.LetterPicks | src/plan/conversation.rs:563-569 | "a", "b", ... and "option a", "option b", ... pick options 1, 2, ... |
| Conversation.AddTaskLowerCases | src/plan/conversation.rs:571-577 | "add task:" with a non-blank rest adds a task titled with the trimmed, lower-cased rest |
| Conversation.NoLetterAfterTaskPrefix | src/plan/conversation.rs:391-406 | text after "add task:" is never read as a letter option |
| Signal.StrField | src/plan/signal.rs:128-131 | a field is read as a string iff it is present and a string |
| Signal.ArrayField | src/plan/signal.rs:135-138 | a field is read as an array iff it is present and an array |
| Signal.StringItems | src/plan/signal.rs:139-141 | every string element of the array is kept and nothing but string elements |
| Signal.ParseClassification | src/plan/signal.rs:123-189 | a missing or non-string "type" is an error; "clear" needs a "checks" array and keeps its strings; "fuzzy" needs "sub_assertions" and reads one sub-assertion per element; "internal" is trace iff the approach is "trace", else refactor; "pushback" takes the reason or its default; any other type is the "unknown signal type" error |
| Signal.ParsedIsCanonical | src/plan/signal.rs:142-185 | every successful reading pairs each signal type with the strategy it calls for |
| Signal.StringItemsOfStrings | src/plan/signal.rs:139-141 | an array of strings keeps every element in order |
| Signal.SubAssertionRoundTrip | src/plan/signal.rs:153-157 | a sub-assertion written with its two fields reads back as itself |
| Signal.ClassificationRoundTrip | src/plan/signal.rs:123-189 | every classification of the response format, written out, reads back as itself |

## Left out

- Beads.ApplyCall: the tracker is a model, not the `IssueTracker` trait, whose contract leaves these open: a created issue is appended last under the id `newId` gives it and is "open", and listing returns issues in a stable order across updates. `Beads.SyncIdempotent` rests on these assumptions.
- Beads.SyncIdempotent: assumes, besides distinct spec ids, that no spec id contains `]`. Without that premise the `[id]` prefix test is ambiguous: spec "A" matches an issue titled "[A]x] …" that belongs to spec "A]x", so a second sync can update the wrong issue.
- Floating-point JSON numbers: the JSON value carries integers only, so a recorded float (for instance an exit code of `0.0`, which `as_i64` reads as absent and hence 0) is not representable.
- Recording.ShellOutputJson: `ShellOutput` derives no serde encoding, so the object with `exit_code`, `stdout` and `stderr` is an assumed layout; its contract does not rule out other fields. `ReplayShell.RunRoundTrip` and the first Findings row rest on this layout.
- Replayer.NextInteraction: requires the replayer's invariant (a cursor for every queue, none past its end), which every replayer built by `Replayer.New` has and every step keeps; the source needs no such premise.
- CassetteSplit.Split: the per-file contents are stated by `CassetteSplit.SplitShape` and `CassetteSplit.PortFile`, not by `Split`'s own contract.
- The recorder's `u64` sequence counter and the splitter's `as u64` are unbounded naturals; wrap-around after 2^64 calls is not modelled.
- Panic messages are shortened to their subject (the "available pairs" listing of an exhausted replayer, the "configure a cassette" advice of `next_output`); `{:?}` debug formatting is not modelled.
- Timestamps: a cassette's `recorded_at` (a `DateTime<Utc>`) is an opaque integer, and a map's `generated_at` (a `DateTime<Utc>`) is carried as text and only copied; `chrono` dates are not modelled.
- The `Mutex`/`Arc` wrappers around recorders and replayers: a single sequential owner is modelled, so lock poisoning does not arise.
- `CassetteRecorder::finish`, `CassetteConfig` loading, `RecordingSession`, the spec store and all file writes, including the YAML of `split_cassette` and `generate` (whose serialisation error, src/map/generator.rs:47, cannot arise in the model).
- serde and YAML text parsing and serde's own error messages: JSON enters as an already-parsed value, and `ReplayFs.ExpectedString` / `ReplayFs.ExpectedSequence` stand for serde's "invalid type" messages.
- Unicode: `to_lowercase`, `trim` and `is_ascii_lowercase` are modelled on ASCII; byte length and character length coincide there.
- `Path::extension` on names such as "", "." and "..", which the model treats as having no extension.
- The iteration order of the `HashSet` of spec ids in cycle detection: it is the `roots` parameter of `Reconcile.DetectCycles`, and cycle properties are stated for every order.
- The `finished` list in the depth-first search state is bookkeeping of the model, used to state that no cycle is reported exactly when the graph has a topological order.
- The model-driven flows: the planning conversation loop, `reconcile()`, `classify()`, the broad survey and every prompt builder, which depend on remote model output.
- The live adapters (HTTP, `git` and `sh` subprocesses, UUIDs, the system clock), the replaying clock, id, model, git and issue adapters, and the copies of `extract_result` in the replaying git and issue adapters, which are identical to the filesystem one.
- The command-line interface and command dispatch (src/cli.rs, src/commands, src/main.rs).

## Findings

| source | as written | input that shows it | evidently intended | confidence | as-written member | corrected member |
|---|---|---|---|---|---|---|
| src/adapters/replaying/shell.rs:28-32 | looks only for lower-case "err" and "ok", while src/adapters/recording/mod.rs:60-66 writes "Err" and "Ok" | a run recorded as `{"Err": "boom"}`, or `{"Ok": {"exit_code": 1, ...}}` | the recorded result read back, as `replay_result` does with both spellings | not executed | ReplayShell.RunAsWritten, ReplayShell.RecordedErrorReplaysAsSuccess, ReplayShell.RecordedExitCodeLost | ReplayShell.Run, ReplayShell.RunRoundTrip |
| src/adapters/replaying/filesystem.rs:29-35 | `extract_result` looks only for "err" and "ok", so the "Ok" wrapper is decoded as the value | a file read recorded as `{"Ok": "text"}` replays as a "failed to deserialize" error | the recorded string | not executed | ReplayFs.ExtractResultAsWritten, ReplayFs.RecordedReadReplaysAsError | ReplayFs.ExtractResult, ReplayFs.ExtractRoundTrip, ReplayFs.FsRoundTrips |
| src/adapters/replaying/filesystem.rs:61-65 | `write` looks only for "err" | a write recorded as `{"Err": "denied"}` replays as `Ok(())` | the recorded failure | not executed | ReplayFs.WriteAsWritten, ReplayFs.RecordedWriteErrorReplaysAsSuccess | ReplayFs.Write, ReplayFs.WriteRoundTrip |

=== FILE: base.dfy ===
/** Failure-carrying wrappers and order-preserving sequence filtering shared by
    every other module. A Rust `Option<T>` becomes `Option<T>`; a Rust
    `Result<T, E>` whose error is only ever displayed becomes `Result<T>` with
    the error's message; a panic is modelled as `Err` with the panic message. */
module Base {

  datatype Option<+T> = None | Some(value: T) {
    /** The value, or `default` when absent (Rust's `unwrap_or`). */
    function GetOr(default: T): T {
      match this
      case Some(v) => v
      case None => default
    }
  }

  datatype Result<+T> = Ok(value: T) | Err(msg: string)

  /** `s` with only its `p`-elements kept, in their original order
      (Rust's `iter().filter(p).collect()`). */
  function Filter<T>(s: seq<T>, p: T -> bool): (r: seq<T>)
    ensures |r| <= |s|
    ensures forall k :: 0 <= k < |r| ==> r[k] in s && p(r[k])
    ensures forall k :: 0 <= k < |s| && p(s[k]) ==> s[k] in r
  {
    if |s| == 0 then []
    else (if p(s[0]) then [s[0]] else []) + Filter(s[1..], p)
  }

  /** Filtering distributes over concatenation: the kept elements of a
      concatenation are those of each part, in order. Together with the
      one-element case this pins `Filter` down as order preserving. */
  lemma {:induction false} FilterConcat<T>(a: seq<T>, b: seq<T>, p: T -> bool)
    ensures Filter(a + b, p) == Filter(a, p) + Filter(b, p)
  {
    if |a| == 0 {
      assert a + b == b;
    } else {
      assert (a + b)[1..] == a[1..] + b;
      FilterConcat(a[1..], b, p);
    }
  }

  /** Nothing is kept exactly when no element satisfies `p`. */
  lemma {:induction false} FilterEmpty<T>(s: seq<T>, p: T -> bool)
    ensures |Filter(s, p)| == 0 <==> forall k :: 0 <= k < |s| ==> !p(s[k])
  {
    if |s| > 0 {
      FilterEmpty(s[1..], p);
      assert forall k :: 1 <= k < |s| ==> s[k] == s[1..][k - 1];
    }
  }

  /** Keeping every element keeps the sequence. */
  lemma {:induction false} FilterAll<T>(s: seq<T>, p: T -> bool)
    requires forall k :: 0 <= k < |s| ==> p(s[k])
    ensures Filter(s, p) == s
  {
    if |s| > 0 {
      FilterAll(s[1..], p);
    }
  }

  /** Filtering a sequence with one more element appended at the end. */
  lemma FilterSnoc<T>(a: seq<T>, x: T, p: T -> bool)
    ensures Filter(a + [x], p) == Filter(a, p) + (if p(x) then [x] else [])
  {
    FilterConcat(a, [x], p);
  }

  /** The present results of `f` over `s`, in order (Rust's `filter_map`). */
  function FilterMap<A, B>(s: seq<A>, f: A -> Option<B>): (r: seq<B>)
    ensures |r| <= |s|
    ensures forall k :: 0 <= k < |r| ==> exists j :: 0 <= j < |s| && f(s[j]) == Some(r[k])
    ensures forall j :: 0 <= j < |s| && f(s[j]).Some? ==> f(s[j]).value in r
  {
    if |s| == 0 then []
    else
      var rest := FilterMap(s[1..], f);
      assert forall j :: 1 <= j < |s| ==> s[j] == s[1..][j - 1];
      assert forall k :: 0 <= k < |rest| ==> exists j :: 0 <= j < |s| && f(s[j]) == Some(rest[k]) by {
        forall k | 0 <= k < |rest| ensures exists j :: 0 <= j < |s| && f(s[j]) == Some(rest[k]) {
          var j :| 0 <= j < |s[1..]| && f(s[1..][j]) == Some(rest[k]);
          assert s[j + 1] == s[1..][j];
        }
      }
      match f(s[0])
      case None => rest
      case Some(b) => [b] + rest
  }

  /** `FilterMap` yields nothing exactly when `f` has no result on `s`. */
  lemma {:induction false} FilterMapEmpty<A, B>(s: seq<A>, f: A -> Option<B>)
    ensures |FilterMap(s, f)| == 0 <==> forall j :: 0 <= j < |s| ==> f(s[j]).None?
  {
    if |s| > 0 {
      FilterMapEmpty(s[1..], f);
      assert forall j :: 1 <= j < |s| ==> s[j] == s[1..][j - 1];
    }
  }

  /** `FilterMap` yields one result per element on which `f` has one. */
  lemma {:induction false} FilterMapCount<A, B>(s: seq<A>, f: A -> Option<B>, p: A -> bool)
    requires forall k :: 0 <= k < |s| ==> p(s[k]) == f(s[k]).Some?
    ensures |FilterMap(s, f)| == |Filter(s, p)|
  {
    if |s| > 0 {
      FilterMapCount(s[1..], f, p);
    }
  }

  /** `FilterMap` distributes over concatenation. */
  lemma {:induction false} FilterMapConcat<A, B>(a: seq<A>, b: seq<A>, f: A -> Option<B>)
    ensures FilterMap(a + b, f) == FilterMap(a, f) + FilterMap(b, f)
  {
    if |a| == 0 {
      assert a + b == b;
    } else {
      assert (a + b)[1..] == a[1..] + b;
      FilterMapConcat(a[1..], b, f);
    }
  }

  /** The concatenation, in order, of `f` applied to every element. */
  function FlatMap<A, B(==)>(s: seq<A>, f: A -> seq<B>): (r: seq<B>)
    ensures forall i :: 0 <= i < |r| ==> exists k :: 0 <= k < |s| && r[i] in f(s[k])
    ensures forall k, j :: 0 <= k < |s| && 0 <= j < |f(s[k])| ==> f(s[k])[j] in r
  {
    if |s| == 0 then []
    else
      var rest := FlatMap(s[1..], f);
      assert forall k :: 1 <= k < |s| ==> s[k] == s[1..][k - 1];
      assert forall i :: 0 <= i < |rest| ==> exists k :: 0 <= k < |s| && rest[i] in f(s[k]) by {
        forall i | 0 <= i < |rest| ensures exists k :: 0 <= k < |s| && rest[i] in f(s[k]) {
          var k :| 0 <= k < |s[1..]| && rest[i] in f(s[1..][k]);
          assert s[k + 1] == s[1..][k];
        }
      }
      var r := f(s[0]) + rest;
      assert forall i :: 0 <= i < |r| ==> r[i] in f(s[0]) || r[i] in rest;
      r
  }

  /** Membership in a `FlatMap`: exactly the members of the pieces. */
  lemma FlatMapIn<A, B>(s: seq<A>, f: A -> seq<B>, x: B)
    ensures x in FlatMap(s, f) <==> exists k :: 0 <= k < |s| && x in f(s[k])
  {
    var r := FlatMap(s, f);
    if x in r {
      var i :| 0 <= i < |r| && r[i] == x;
    }
    if exists k :: 0 <= k < |s| && x in f(s[k]) {
      var k :| 0 <= k < |s| && x in f(s[k]);
      var j :| 0 <= j < |f(s[k])| && f(s[k])[j] == x;
    }
  }

  /** Number of elements of `s` that satisfy `p`. */
  function Count<T>(s: seq<T>, p: T -> bool): nat
  {
    |Filter(s, p)|
  }

  /** Two predicates that are complementary split a sequence into two parts
      whose contents together are the original... */
  lemma {:induction false} FilterPartition<T>(s: seq<T>, p: T -> bool, q: T -> bool)
    requires forall k :: 0 <= k < |s| ==> q(s[k]) == !p(s[k])
    ensures multiset(Filter(s, p)) + multiset(Filter(s, q)) == multiset(s)
  {
    if |s| > 0 {
      var x, t := s[0], s[1..];
      forall k | 0 <= k < |t| ensures q(t[k]) == !p(t[k]) {
        assert t[k] == s[k + 1];
      }
      FilterPartition(t, p, q);
      assert s == [x] + t;
      FilterPartitionStep(x, t, p, q);
    }
  }

  lemma FilterPartitionStep<T>(x: T, t: seq<T>, p: T -> bool, q: T -> bool)
    requires q(x) == !p(x)
    requires multiset(Filter(t, p)) + multiset(Filter(t, q)) == multiset(t)
    ensures multiset(Filter([x] + t, p)) + multiset(Filter([x] + t, q)) == multiset([x] + t)
  {
    FilterCons(x, t, p);
    FilterCons(x, t, q);
    assert multiset([x] + t) == multiset{x} + multiset(t);
    if p(x) {
      assert multiset(Filter([x] + t, p)) == multiset{x} + multiset(Filter(t, p));
    } else {
      assert multiset(Filter([x] + t, q)) == multiset{x} + multiset(Filter(t, q));
    }
  }

  /** `Filter` of a sequence with a head: the head, if kept, then the rest. */
  lemma FilterCons<T>(x: T, t: seq<T>, p: T -> bool)
    ensures Filter([x] + t, p) == (if p(x) then [x] else []) + Filter(t, p)
  {
    assert ([x] + t)[1..] == t;
  }

  /** ...and whose sizes add up to the original's. */
  lemma FilterPartitionCount<T>(s: seq<T>, p: T -> bool, q: T -> bool)
    requires forall k :: 0 <= k < |s| ==> q(s[k]) == !p(s[k])
    ensures |Filter(s, p)| + |Filter(s, q)| == |s|
  {
    FilterPartition(s, p, q);
    assert |multiset(Filter(s, p)) + multiset(Filter(s, q))| == |multiset(s)|;
  }

  /** The index of the first element satisfying `p`, if any. */
  function FindIndex<T>(s: seq<T>, p: T -> bool): (r: Option<nat>)
    ensures r.None? <==> forall k :: 0 <= k < |s| ==> !p(s[k])
    ensures r.Some? ==> r.value < |s| && p(s[r.value]) && forall k :: 0 <= k < r.value ==> !p(s[k])
  {
    if |s| == 0 then None
    else if p(s[0]) then Some(0)
    else
      match FindIndex(s[1..], p)
      case None => None
      case Some(k) => Some(k + 1)
  }

  /** The first element of `s` that satisfies `p` (Rust's `iter().find(p)`). */
  function Find<T>(s: seq<T>, p: T -> bool): (r: Option<T>)
    ensures r.None? <==> forall k :: 0 <= k < |s| ==> !p(s[k])
    ensures r.Some? ==> exists k :: 0 <= k < |s| && s[k] == r.value && p(r.value)
                          && forall j :: 0 <= j < k ==> !p(s[j])
  {
    if |s| == 0 then None
    else if p(s[0]) then Some(s[0])
    else
      var t := Find(s[1..], p);
      assert t.Some? ==> exists k :: 1 <= k < |s| && s[k] == t.value && p(t.value)
                            && forall j :: 1 <= j < k ==> !p(s[j]);
      t
  }
}

=== FILE: beads.dfy ===
/** Syncing task specs to the Beads issue tracker (src/sync/beads.rs). An
    issue belongs to a spec when its title starts with `[<spec id>]`; the
    plan says, per spec, whether its issue must be created, updated or left
    alone, and executing the plan turns it into tracker calls. The tracker
    itself is modelled as a list of issues that the calls rewrite. */
module Beads {
  import opened Base
  import opened Text
  import opened Spec
  import opened Ports

  /** What the sync will do for one spec. */
  datatype SyncAction =
    | Create(specId: string, title: string)
    | Update(specId: string, issueId: string, title: string)
    | Unchanged(specId: string, issueId: string)

  // ----- titles and bodies -----

  /** The `[ID]` marker that ties an issue to a spec. */
  function IdPrefix(id: string): string {
    "[" + id + "]"
  }

  /** `issue_title`: the marker, a space and the spec's title. */
  function IssueTitle(spec: TaskSpec): (r: string)
    ensures StartsWith(r, IdPrefix(spec.id))
    ensures EndsWith(r, spec.title)
    ensures |r| == |spec.id| + |spec.title| + 3
    ensures r[|IdPrefix(spec.id)|] == ' '
  {
    var r := IdPrefix(spec.id) + " " + spec.title;
    assert r[|r| - |spec.title|..] == spec.title;
    r
  }

  /** The spec id a title is marked with: the text between the leading
      character and the first `]`. */
  function TitleSpecId(title: string): string {
    if |title| == 0 then "" else TakeUntilAny(title[1..], {']'})
  }

  /** An issue matching a `]`-free id is marked with exactly that id. */
  lemma MatchesOwner(id: string, issue: Issue)
    requires ']' !in id
    ensures Matches(id, issue) ==> TitleSpecId(issue.title) == id
  {
    if Matches(id, issue) {
      var t := issue.title;
      assert t[1..] == id + "]" + t[|id| + 2..];
      TakeUntilAnyOf(id, ']', t[|id| + 2..], {']'});
    }
  }

  /** A title starts with the marker of at most one `]`-free id, so issues of
      different specs are never confused. */
  lemma PrefixIdentifies(t: string, a: string, b: string)
    requires ']' !in a && ']' !in b
    requires StartsWith(t, IdPrefix(a)) && StartsWith(t, IdPrefix(b))
    ensures a == b
  {
    MatchesOwner(a, Issue("", t, "", ""));
    MatchesOwner(b, Issue("", t, "", ""));
  }

  /** One `- item` line per element. */
  function Bullets(xs: seq<string>): string {
    if |xs| == 0 then "" else "- " + xs[0] + "\n" + Bullets(xs[1..])
  }

  /** Every element has its line. */
  lemma {:induction false} BulletsContain(xs: seq<string>, k: int)
    requires 0 <= k < |xs|
    ensures Contains(Bullets(xs), "- " + xs[k] + "\n")
  {
    var line := "- " + xs[0] + "\n";
    if k == 0 {
      ContainsAfterPrefix("", line, Bullets(xs[1..]));
      assert "" + line + Bullets(xs[1..]) == Bullets(xs);
    } else {
      BulletsContain(xs[1..], k - 1);
      ContainsExtend(Bullets(xs[1..]), "- " + xs[k] + "\n", line, "");
      assert line + Bullets(xs[1..]) + "" == Bullets(xs);
    }
  }

  const CriteriaHeading: string := "## Acceptance Criteria\n"
  const DependenciesHeading: string := "## Dependencies"

  predicate HasDependencies(spec: TaskSpec) {
    spec.context.Some? && |spec.context.value.dependencies| > 0
  }

  /** The dependency section of a body: present only for a context with
      dependencies. */
  function DependenciesSection(spec: TaskSpec): (r: string)
    ensures r == "" <==> !HasDependencies(spec)
    ensures HasDependencies(spec) ==> StartsWith(r, "\n" + DependenciesHeading)
  {
    if HasDependencies(spec) then "\n" + DependenciesHeading + "\n" + Bullets(spec.context.value.dependencies) else ""
  }

  /** `issue_body`: the acceptance criteria as a list, then the dependency section. */
  function IssueBody(spec: TaskSpec): string {
    CriteriaHeading + Bullets(spec.acceptanceCriteria) + DependenciesSection(spec)
  }

  /** The body lists every acceptance criterion. */
  lemma IssueBodyListsCriteria(spec: TaskSpec, k: int)
    requires 0 <= k < |spec.acceptanceCriteria|
    ensures StartsWith(IssueBody(spec), CriteriaHeading)
    ensures Contains(IssueBody(spec), "- " + spec.acceptanceCriteria[k] + "\n")
  {
    BulletsContain(spec.acceptanceCriteria, k);
    ContainsExtend(Bullets(spec.acceptanceCriteria), "- " + spec.acceptanceCriteria[k] + "\n",
                   CriteriaHeading, DependenciesSection(spec));
  }

  /** With dependencies, the body has the dependency heading and lists every dependency. */
  lemma IssueBodyListsDependencies(spec: TaskSpec, k: int)
    requires HasDependencies(spec) && 0 <= k < |spec.context.value.dependencies|
    ensures Contains(IssueBody(spec), DependenciesHeading)
    ensures Contains(IssueBody(spec), "- " + spec.context.value.dependencies[k] + "\n")
  {
    var deps := spec.context.value.dependencies;
    var head := CriteriaHeading + Bullets(spec.acceptanceCriteria) + "\n";
    BodyWithDependencies(spec);
    ContainsAfterPrefix(head, DependenciesHeading, "\n" + Bullets(deps));
    BodyListsDependency(spec, k);
  }

  lemma BodyListsDependency(spec: TaskSpec, k: int)
    requires HasDependencies(spec) && 0 <= k < |spec.context.value.dependencies|
    ensures Contains(IssueBody(spec), "- " + spec.context.value.dependencies[k] + "\n")
  {
    var deps := spec.context.value.dependencies;
    var head := CriteriaHeading + Bullets(spec.acceptanceCriteria) + "\n";
    BodyWithDependencies(spec);
    BulletsContain(deps, k);
    ContainsExtend(Bullets(deps), "- " + deps[k] + "\n", head + DependenciesHeading + "\n", []);
    Regroup(head, DependenciesHeading, Bullets(deps));
  }

  /** Moving a line break between a heading and the text under it; stated
      on arbitrary strings, since on the body's literal headings the same
      step is far costlier to prove. */
  lemma Regroup(a: string, b: string, c: string)
    ensures a + b + "\n" + c + [] == a + b + ("\n" + c)
  {
  }

  /** The body of a spec with dependencies, split around the heading. */
  lemma BodyWithDependencies(spec: TaskSpec)
    requires HasDependencies(spec)
    ensures IssueBody(spec) == CriteriaHeading + Bullets(spec.acceptanceCriteria) + "\n" + DependenciesHeading
                               + ("\n" + Bullets(spec.context.value.dependencies))
  {
    var a := CriteriaHeading + Bullets(spec.acceptanceCriteria);
    var c := Bullets(spec.context.value.dependencies);
    assert a + ("\n" + DependenciesHeading + "\n" + c) == a + "\n" + DependenciesHeading + ("\n" + c);
  }

  /** Without dependencies the body is the one a spec without a context gets. */
  lemma IssueBodyWithoutDependencies(spec: TaskSpec)
    requires !HasDependencies(spec)
    ensures IssueBody(spec) == IssueBody(spec.(context := None))
    ensures IssueBody(spec) == CriteriaHeading + Bullets(spec.acceptanceCriteria)
  {
  }

  // ----- matching issues to specs -----

  /** The issue's title starts with the spec's marker. */
  predicate Matches(specId: string, issue: Issue) {
    StartsWith(issue.title, IdPrefix(specId))
  }

  /** The position of the first issue matching the spec. */
  function MatchIndex(specId: string, issues: seq<Issue>): (r: Option<nat>)
    ensures r.None? <==> forall i :: 0 <= i < |issues| ==> !Matches(specId, issues[i])
    ensures r.Some? ==> r.value < |issues| && Matches(specId, issues[r.value])
                        && forall j :: 0 <= j < r.value ==> !Matches(specId, issues[j])
  {
    FindIndex(issues, (issue: Issue) => Matches(specId, issue))
  }

  /** `find_matching_issue`: the first issue whose title starts with `[specId]`. */
  function FindMatchingIssue(specId: string, issues: seq<Issue>): (r: Option<Issue>)
    ensures r.None? <==> forall i :: 0 <= i < |issues| ==> !Matches(specId, issues[i])
    ensures r.Some? ==> exists i :: 0 <= i < |issues| && issues[i] == r.value && Matches(specId, r.value)
                                    && forall j :: 0 <= j < i ==> !Matches(specId, issues[j])
  {
    match MatchIndex(specId, issues)
    case None => None
    case Some(i) => Some(issues[i])
  }

  // ----- planning -----

  /** The action for one spec: create when no issue matches; otherwise
      leave the first match alone when its title and body are already the
      generated ones, and update it when not. */
  function PlanAction(spec: TaskSpec, issues: seq<Issue>): (r: SyncAction)
    ensures r.specId == spec.id
    ensures r.Create? <==> FindMatchingIssue(spec.id, issues).None?
    ensures r.Create? ==> r.title == IssueTitle(spec)
    ensures !r.Create? ==>
              var e := FindMatchingIssue(spec.id, issues).value;
              r.issueId == e.id
              && (r.Unchanged? <==> e.title == IssueTitle(spec) && e.body == IssueBody(spec))
              && (r.Update? ==> r.title == IssueTitle(spec))
  {
    match FindMatchingIssue(spec.id, issues)
    case None => Create(spec.id, IssueTitle(spec))
    case Some(existing) =>
      if existing.title == IssueTitle(spec) && existing.body == IssueBody(spec) then
        Unchanged(spec.id, existing.id)
      else
        Update(spec.id, existing.id, IssueTitle(spec))
  }

  /** `plan_sync`: one action per spec, in spec order. */
  function PlanSync(specs: seq<TaskSpec>, issues: seq<Issue>): (r: seq<SyncAction>)
    ensures |r| == |specs|
    ensures forall k :: 0 <= k < |specs| ==> r[k] == PlanAction(specs[k], issues) && r[k].specId == specs[k].id
  {
    seq(|specs|, k requires 0 <= k < |specs| => PlanAction(specs[k], issues))
  }

  /** Against an empty tracker every spec is created. */
  lemma PlanAgainstNoIssues(specs: seq<TaskSpec>)
    ensures forall k :: 0 <= k < |specs| ==> PlanSync(specs, [])[k] == Create(specs[k].id, IssueTitle(specs[k]))
  {
  }

  // ----- executing -----

  /** A request to the tracker. */
  datatype TrackerCall =
    | CreateIssue(title: string, body: string)
    | UpdateIssue(issueId: string, title: string, body: string)

  /** The calls made, in order, and the error that stopped the run, if any. */
  datatype SyncRun = SyncRun(calls: seq<TrackerCall>, error: Option<string>)

  /** The first spec with the given id. */
  function SpecById(specs: seq<TaskSpec>, id: string): Option<TaskSpec> {
    Find(specs, (s: TaskSpec) => s.id == id)
  }

  /** With distinct ids, looking a spec up by its id finds that spec. */
  lemma SpecByIdDistinct(specs: seq<TaskSpec>, k: int)
    requires 0 <= k < |specs|
    requires forall i, j :: 0 <= i < j < |specs| ==> specs[i].id != specs[j].id
    ensures SpecById(specs, specs[k].id) == Some(specs[k])
  {
  }

  /** The call a Create or Update action makes: the spec's current title and body. */
  function CallFor(a: SyncAction, spec: TaskSpec): (r: TrackerCall)
    requires !a.Unchanged?
    ensures r.CreateIssue? <==> a.Create?
    ensures r.title == IssueTitle(spec) && r.body == IssueBody(spec)
    ensures r.UpdateIssue? ==> r.issueId == a.issueId
  {
    if a.Create? then CreateIssue(IssueTitle(spec), IssueBody(spec))
    else UpdateIssue(a.issueId, IssueTitle(spec), IssueBody(spec))
  }

  /** The start of the error reported when the tracker rejects an action's call. */
  function FailurePrefix(a: SyncAction): string {
    (if a.Create? then "Failed to create issue for " else "Failed to update issue for ") + a.specId
  }

  /** The error reported when the tracker rejects an action's call: which
      action failed, for which spec, then the tracker's own message. */
  function FailureMessage(a: SyncAction, e: string): (r: string)
    ensures StartsWith(r, FailurePrefix(a))
    ensures EndsWith(r, e)
  {
    var p := FailurePrefix(a);
    var r := p + ": " + e;
    assert r == p + (": " + e);
    assert r[|r| - |e|..] == e;
    r
  }

  /** `execute_sync`: one call per Create or Update action, built from the
      spec the action names; nothing for Unchanged. `respond` is the
      tracker's answer to a call (an error message or nothing); the first
      failure stops the run. An action naming an unknown spec stops it too
      (the source panics there). */
  function ExecuteSync(specs: seq<TaskSpec>, actions: seq<SyncAction>,
                       respond: TrackerCall -> Option<string>): (r: SyncRun)
    ensures |r.calls| <= |actions|
    ensures r.error.None? ==> forall i :: 0 <= i < |r.calls| ==> respond(r.calls[i]).None?
  {
    if |actions| == 0 then SyncRun([], None)
    else if actions[0].Unchanged? then ExecuteSync(specs, actions[1..], respond)
    else
      match SpecById(specs, actions[0].specId)
      case None => SyncRun([], Some("action references unknown spec"))
      case Some(spec) =>
        var call := CallFor(actions[0], spec);
        match respond(call)
        case Some(e) => SyncRun([call], Some(FailureMessage(actions[0], e)))
        case None =>
          var rest := ExecuteSync(specs, actions[1..], respond);
          SyncRun([call] + rest.calls, rest.error)
  }

  /** One step of a successful run: a Create or Update action makes the call
      for its spec, then the run goes on with the remaining actions. */
  lemma ExecuteSyncStep(specs: seq<TaskSpec>, actions: seq<SyncAction>,
                        respond: TrackerCall -> Option<string>)
    requires |actions| > 0 && !actions[0].Unchanged?
    requires ExecuteSync(specs, actions, respond).error.None?
    ensures SpecById(specs, actions[0].specId).Some?
    ensures ExecuteSync(specs, actions[1..], respond).error.None?
    ensures ExecuteSync(specs, actions, respond).calls
            == [CallFor(actions[0], SpecById(specs, actions[0].specId).value)] + ExecuteSync(specs, actions[1..], respond).calls
  {
  }

  predicate IsCreateAction(a: SyncAction) { a.Create? }
  predicate IsUpdateAction(a: SyncAction) { a.Update? }
  predicate IsCreateCall(c: TrackerCall) { c.CreateIssue? }
  predicate IsUpdateCall(c: TrackerCall) { c.UpdateIssue? }

  /** A successful run makes exactly one create call per Create action and one
      update call per Update action, and none for Unchanged. */
  lemma {:induction false} ExecuteSyncCounts(specs: seq<TaskSpec>, actions: seq<SyncAction>,
                                             respond: TrackerCall -> Option<string>)
    requires ExecuteSync(specs, actions, respond).error.None?
    ensures |Filter(ExecuteSync(specs, actions, respond).calls, IsCreateCall)| == |Filter(actions, IsCreateAction)|
    ensures |Filter(ExecuteSync(specs, actions, respond).calls, IsUpdateCall)| == |Filter(actions, IsUpdateAction)|
  {
    if |actions| > 0 {
      if actions[0].Unchanged? {
        ExecuteSyncCounts(specs, actions[1..], respond);
      } else {
        ExecuteSyncStep(specs, actions, respond);
        ExecuteSyncCounts(specs, actions[1..], respond);
        var calls := ExecuteSync(specs, actions, respond).calls;
        assert calls[1..] == ExecuteSync(specs, actions[1..], respond).calls;
      }
    }
  }

  /** A plan with nothing to do makes no call and cannot fail. */
  lemma {:induction false} ExecuteUnchangedOnly(specs: seq<TaskSpec>, actions: seq<SyncAction>,
                                                respond: TrackerCall -> Option<string>)
    requires forall k :: 0 <= k < |actions| ==> actions[k].Unchanged?
    ensures ExecuteSync(specs, actions, respond) == SyncRun([], None)
  {
    if |actions| > 0 {
      ExecuteUnchangedOnly(specs, actions[1..], respond);
    }
  }

  /** Executing a plan made from the same specs never hits an unknown spec:
      the run succeeds when the tracker accepts every call. */
  lemma {:induction false} ExecutePlanSucceeds(specs: seq<TaskSpec>, issues: seq<Issue>, n: nat)
    requires n <= |specs|
    requires forall i, j :: 0 <= i < j < |specs| ==> specs[i].id != specs[j].id
    ensures ExecuteSync(specs, PlanSync(specs, issues)[n..], _ => None).error.None?
    decreases |specs| - n
  {
    if n < |specs| {
      var plan := PlanSync(specs, issues);
      var actions := plan[n..];
      assert actions[0] == plan[n] && actions[0].specId == specs[n].id;
      assert actions[1..] == plan[n + 1..];
      SpecByIdDistinct(specs, n);
      ExecutePlanSucceeds(specs, issues, n + 1);
    }
  }

  // ----- the tracker -----

  /** The tracker's issues after a call. A created issue is appended, open,
      under the id `newId` gives the tracker's issue count; an update
      rewrites the title and body of the issue with that id. */
  function ApplyCall(issues: seq<Issue>, call: TrackerCall, newId: nat -> string): (r: seq<Issue>)
    // no call removes an issue or touches another's id or status
    ensures |r| == |issues| + (if call.CreateIssue? then 1 else 0)
    ensures forall i :: 0 <= i < |issues| ==> r[i].id == issues[i].id && r[i].status == issues[i].status
    // a create leaves every existing issue as it was and adds one open issue with the call's text
    ensures call.CreateIssue? ==> r[..|issues|] == issues
    ensures call.CreateIssue? ==> r[|issues|].id == newId(|issues|) && r[|issues|].status == "open"
                                  && r[|issues|].title == call.title && r[|issues|].body == call.body
    // an update gives the call's text to the issues with its id, and to no other
    ensures call.UpdateIssue? ==> forall i :: 0 <= i < |issues| && issues[i].id == call.issueId ==>
              r[i].title == call.title && r[i].body == call.body
    ensures call.UpdateIssue? ==> forall i :: 0 <= i < |issues| && issues[i].id != call.issueId ==> r[i] == issues[i]
    // ids stay unique as long as a created issue gets an id not yet in use
    ensures UniqueIds(issues) && (call.CreateIssue? ==> forall i :: 0 <= i < |issues| ==> issues[i].id != newId(|issues|))
            ==> UniqueIds(r)
  {
    match call
    case CreateIssue(title, body) => issues + [Issue(newId(|issues|), title, body, "open")]
    case UpdateIssue(id, title, body) =>
      seq(|issues|, i requires 0 <= i < |issues| =>
        if issues[i].id == id then issues[i].(title := title, body := body) else issues[i])
  }

  function ApplyCalls(issues: seq<Issue>, calls: seq<TrackerCall>, newId: nat -> string): seq<Issue>
    decreases |calls|
  {
    if |calls| == 0 then issues else ApplyCalls(ApplyCall(issues, calls[0], newId), calls[1..], newId)
  }

  /** Creates add one issue each; updates add none. */
  lemma {:induction false} ApplyCallsLength(issues: seq<Issue>, calls: seq<TrackerCall>, newId: nat -> string)
    ensures |ApplyCalls(issues, calls, newId)| == |issues| + |Filter(calls, IsCreateCall)|
    decreases |calls|
  {
    if |calls| > 0 {
      ApplyCallsLength(ApplyCall(issues, calls[0], newId), calls[1..], newId);
      CreatesOf(calls);
    }
  }

  lemma CreatesOf(calls: seq<TrackerCall>)
    requires |calls| > 0
    ensures |Filter(calls, IsCreateCall)| == (if calls[0].CreateIssue? then 1 else 0) + |Filter(calls[1..], IsCreateCall)|
  {
  }

  predicate UniqueIds(issues: seq<Issue>) {
    forall i, j :: 0 <= i < j < |issues| ==> issues[i].id != issues[j].id
  }

  /** An update of an issue whose id is unique changes that issue alone. */
  lemma UpdateOne(issues: seq<Issue>, j: int, title: string, body: string, newId: nat -> string)
    requires 0 <= j < |issues| && UniqueIds(issues)
    ensures ApplyCall(issues, UpdateIssue(issues[j].id, title, body), newId)
            == issues[j := issues[j].(title := title, body := body)]
  {
    var r := ApplyCall(issues, UpdateIssue(issues[j].id, title, body), newId);
    forall i | 0 <= i < |issues| && i != j ensures r[i] == issues[i] {
      assert issues[i].id != issues[j].id by {
        if i < j { } else { }
      }
    }
  }

  /** The first match is decided by which positions match alone. */
  lemma MatchIndexPointwise(id: string, a: seq<Issue>, b: seq<Issue>)
    requires |a| == |b|
    requires forall i :: 0 <= i < |a| ==> (Matches(id, a[i]) <==> Matches(id, b[i]))
    ensures MatchIndex(id, a) == MatchIndex(id, b)
  {
    if MatchIndex(id, a).Some? {
      assert MatchIndex(id, b).Some?;
    }
  }

  /** Appending an issue keeps an earlier first match; otherwise the new
      issue is the first match exactly when it matches. */
  lemma MatchIndexAppend(id: string, a: seq<Issue>, x: Issue)
    ensures MatchIndex(id, a + [x]) ==
              if MatchIndex(id, a).Some? then MatchIndex(id, a)
              else if Matches(id, x) then Some(|a|) else None
  {
    var b := a + [x];
    assert forall i :: 0 <= i < |a| ==> b[i] == a[i];
    if MatchIndex(id, a).Some? {
      assert MatchIndex(id, b).Some?;
    } else if Matches(id, x) {
      assert Matches(id, b[|a|]);
    }
  }

  // ----- idempotence -----

  /** The assumptions the sync relies on: spec ids are distinct and free of
      `]`, the tracker's issue ids are unique, and the ids it hands out are
      new and never repeat. */
  ghost predicate SyncSetup(specs: seq<TaskSpec>, issues: seq<Issue>, newId: nat -> string) {
    (forall i, j :: 0 <= i < j < |specs| ==> specs[i].id != specs[j].id)
    && (forall k :: 0 <= k < |specs| ==> ']' !in specs[k].id)
    && UniqueIds(issues)
    && (forall m: nat, i :: 0 <= i < |issues| ==> newId(m) != issues[i].id)
    && (forall m: nat, p: nat :: m != p ==> newId(m) != newId(p))
  }

  /** The first issue matching the spec already has its generated title and body. */
  predicate Current(spec: TaskSpec, issues: seq<Issue>) {
    var m := MatchIndex(spec.id, issues);
    m.Some? && issues[m.value].title == IssueTitle(spec) && issues[m.value].body == IssueBody(spec)
  }

  /** The tracker state after the actions of the first `n` specs: original
      issues keep their ids, created ones carry fresh ids, the first `n`
      specs are current and the others still see their original match. */
  predicate SyncedUpTo(specs: seq<TaskSpec>, issues: seq<Issue>, newId: nat -> string, n: nat, now: seq<Issue>) {
    n <= |specs| && |issues| <= |now|
    && (forall i :: 0 <= i < |issues| ==> now[i].id == issues[i].id)
    && (forall i :: |issues| <= i < |now| ==> now[i].id == newId(i))
    && (forall k :: 0 <= k < n ==> Current(specs[k], now))
    && (forall k :: n <= k < |specs| ==>
          MatchIndex(specs[k].id, now) == MatchIndex(specs[k].id, issues)
          && (MatchIndex(specs[k].id, issues).Some? ==>
                now[MatchIndex(specs[k].id, issues).value] == issues[MatchIndex(specs[k].id, issues).value]))
  }

  lemma SyncedIds(specs: seq<TaskSpec>, issues: seq<Issue>, newId: nat -> string, n: nat, now: seq<Issue>)
    requires SyncSetup(specs, issues, newId) && SyncedUpTo(specs, issues, newId, n, now)
    ensures UniqueIds(now)
  {
    forall i, j | 0 <= i < j < |now| ensures now[i].id != now[j].id {
      if j < |issues| {
      } else if i < |issues| {
        assert newId(j) != issues[i].id;
      } else {
        assert newId(i) != newId(j);
      }
    }
  }

  /** Appending an issue marked with another spec's id leaves a spec's first match where it was. */
  lemma AppendKeepsMatch(id: string, other: string, now: seq<Issue>, x: Issue)
    requires ']' !in id && ']' !in other && id != other
    requires Matches(other, x)
    ensures MatchIndex(id, now + [x]) == MatchIndex(id, now)
  {
    MatchesOwner(id, x);
    MatchesOwner(other, x);
    MatchIndexAppend(id, now, x);
  }

  /** Rewriting an issue marked with another spec's id, keeping that mark,
      leaves a spec's first match where it was, and that match is not the
      rewritten issue. */
  lemma ReplaceKeepsMatch(id: string, other: string, now: seq<Issue>, j: int, y: Issue)
    requires ']' !in id && ']' !in other && id != other
    requires 0 <= j < |now| && Matches(other, now[j]) && Matches(other, y)
    ensures MatchIndex(id, now[j := y]) == MatchIndex(id, now)
    ensures MatchIndex(id, now).Some? ==> MatchIndex(id, now).value != j
  {
    MatchesOwner(id, y);
    MatchesOwner(other, y);
    MatchesOwner(id, now[j]);
    MatchesOwner(other, now[j]);
    MatchIndexPointwise(id, now, now[j := y]);
  }

  /** Rewriting the first match with an issue that still matches keeps it the first match. */
  lemma ReplaceKeepsFirst(id: string, now: seq<Issue>, j: nat, y: Issue)
    requires MatchIndex(id, now) == Some(j) && Matches(id, y)
    ensures MatchIndex(id, now[j := y]) == Some(j)
  {
    var after := now[j := y];
    assert forall i :: 0 <= i < j ==> after[i] == now[i];
    assert Matches(id, after[j]);
    var r := MatchIndex(id, after);
    assert r.Some?;
    assert r.value <= j;
    assert !Matches(id, after[r.value]) || r.value == j;
  }

  lemma StepUnchanged(specs: seq<TaskSpec>, issues: seq<Issue>, newId: nat -> string, n: nat, now: seq<Issue>)
    requires SyncedUpTo(specs, issues, newId, n, now) && n < |specs|
    requires PlanAction(specs[n], issues).Unchanged?
    ensures SyncedUpTo(specs, issues, newId, n + 1, now)
  {
    assert Current(specs[n], now);
  }

  lemma StepCreate(specs: seq<TaskSpec>, issues: seq<Issue>, newId: nat -> string, n: nat, now: seq<Issue>)
    requires SyncSetup(specs, issues, newId) && SyncedUpTo(specs, issues, newId, n, now) && n < |specs|
    requires MatchIndex(specs[n].id, issues).None?
    ensures SyncedUpTo(specs, issues, newId, n + 1,
                       ApplyCall(now, CreateIssue(IssueTitle(specs[n]), IssueBody(specs[n])), newId))
  {
    var x := Issue(newId(|now|), IssueTitle(specs[n]), IssueBody(specs[n]), "open");
    var after := ApplyCall(now, CreateIssue(x.title, x.body), newId);
    assert after == now + [x];
    MatchIndexAppend(specs[n].id, now, x);
    assert Current(specs[n], after);
    forall k | 0 <= k < |specs| && k != n
      ensures MatchIndex(specs[k].id, after) == MatchIndex(specs[k].id, now)
    {
      AppendKeepsMatch(specs[k].id, specs[n].id, now, x);
    }
    forall k | 0 <= k < n ensures Current(specs[k], after) {
      assert Current(specs[k], now);
    }
  }

  lemma StepUpdate(specs: seq<TaskSpec>, issues: seq<Issue>, newId: nat -> string, n: nat, now: seq<Issue>)
    requires SyncSetup(specs, issues, newId) && SyncedUpTo(specs, issues, newId, n, now) && n < |specs|
    requires MatchIndex(specs[n].id, issues).Some?
    ensures SyncedUpTo(specs, issues, newId, n + 1,
                       ApplyCall(now, UpdateIssue(issues[MatchIndex(specs[n].id, issues).value].id,
                                                  IssueTitle(specs[n]), IssueBody(specs[n])), newId))
  {
    var j := MatchIndex(specs[n].id, issues).value;
    var y := now[j].(title := IssueTitle(specs[n]), body := IssueBody(specs[n]));
    SyncedIds(specs, issues, newId, n, now);
    UpdateOne(now, j, y.title, y.body, newId);
    UpdateMakesCurrent(specs, issues, newId, n, now, j, y);
    UpdateKeepsOthers(specs, issues, newId, n, now, j, y);
    UpdateSynced(specs, issues, newId, n, now, j, y);
  }

  /** The pieces of `SyncedUpTo` after an update of issue `j`. */
  lemma UpdateSynced(specs: seq<TaskSpec>, issues: seq<Issue>, newId: nat -> string, n: nat, now: seq<Issue>,
                     j: nat, y: Issue)
    requires SyncedUpTo(specs, issues, newId, n, now) && n < |specs|
    requires j < |now| && y.id == now[j].id
    requires Current(specs[n], now[j := y])
    requires forall k :: 0 <= k < |specs| && k != n ==>
               MatchIndex(specs[k].id, now[j := y]) == MatchIndex(specs[k].id, now)
               && (MatchIndex(specs[k].id, now).Some? ==> MatchIndex(specs[k].id, now).value != j)
    requires forall k :: 0 <= k < n ==> Current(specs[k], now[j := y])
    ensures SyncedUpTo(specs, issues, newId, n + 1, now[j := y])
  {
    UpdateKeepsIds(issues, newId, now, j, y);
    UpdateKeepsLater(specs, issues, newId, n, now, j, y);
    assert forall k :: 0 <= k < n + 1 ==> Current(specs[k], now[j := y]);
  }

  lemma UpdateKeepsIds(issues: seq<Issue>, newId: nat -> string, now: seq<Issue>, j: nat, y: Issue)
    requires |issues| <= |now| && j < |now| && y.id == now[j].id
    requires forall i :: 0 <= i < |issues| ==> now[i].id == issues[i].id
    requires forall i :: |issues| <= i < |now| ==> now[i].id == newId(i)
    ensures forall i :: 0 <= i < |issues| ==> now[j := y][i].id == issues[i].id
    ensures forall i :: |issues| <= i < |now| ==> now[j := y][i].id == newId(i)
  {
  }

  lemma UpdateKeepsLater(specs: seq<TaskSpec>, issues: seq<Issue>, newId: nat -> string, n: nat, now: seq<Issue>,
                         j: nat, y: Issue)
    requires SyncedUpTo(specs, issues, newId, n, now) && n < |specs| && j < |now|
    requires forall k :: 0 <= k < |specs| && k != n ==>
               MatchIndex(specs[k].id, now[j := y]) == MatchIndex(specs[k].id, now)
               && (MatchIndex(specs[k].id, now).Some? ==> MatchIndex(specs[k].id, now).value != j)
    ensures forall k :: n + 1 <= k < |specs| ==>
              MatchIndex(specs[k].id, now[j := y]) == MatchIndex(specs[k].id, issues)
              && (MatchIndex(specs[k].id, issues).Some? ==>
                    now[j := y][MatchIndex(specs[k].id, issues).value] == issues[MatchIndex(specs[k].id, issues).value])
  {
  }

  /** The updated issue makes its own spec current. */
  lemma UpdateMakesCurrent(specs: seq<TaskSpec>, issues: seq<Issue>, newId: nat -> string, n: nat, now: seq<Issue>,
                           j: nat, y: Issue)
    requires SyncSetup(specs, issues, newId) && SyncedUpTo(specs, issues, newId, n, now) && n < |specs|
    requires MatchIndex(specs[n].id, issues) == Some(j)
    requires y == now[j].(title := IssueTitle(specs[n]), body := IssueBody(specs[n]))
    ensures Current(specs[n], now[j := y])
  {
    ReplaceKeepsFirst(specs[n].id, now, j, y);
  }

  /** The update leaves every other spec's first match where it was, and
      the specs already current stay current. */
  lemma UpdateKeepsOthers(specs: seq<TaskSpec>, issues: seq<Issue>, newId: nat -> string, n: nat, now: seq<Issue>,
                          j: nat, y: Issue)
    requires SyncSetup(specs, issues, newId) && SyncedUpTo(specs, issues, newId, n, now) && n < |specs|
    requires MatchIndex(specs[n].id, issues) == Some(j)
    requires y == now[j].(title := IssueTitle(specs[n]), body := IssueBody(specs[n]))
    ensures forall k :: 0 <= k < |specs| && k != n ==>
              MatchIndex(specs[k].id, now[j := y]) == MatchIndex(specs[k].id, now)
              && (MatchIndex(specs[k].id, now).Some? ==> MatchIndex(specs[k].id, now).value != j)
    ensures forall k :: 0 <= k < n ==> Current(specs[k], now[j := y])
  {
    var after := now[j := y];
    forall k | 0 <= k < |specs| && k != n
      ensures MatchIndex(specs[k].id, after) == MatchIndex(specs[k].id, now)
      ensures MatchIndex(specs[k].id, now).Some? ==> MatchIndex(specs[k].id, now).value != j
    {
      ReplaceKeepsMatch(specs[k].id, specs[n].id, now, j, y);
    }
    forall k | 0 <= k < n ensures Current(specs[k], after) {
      assert Current(specs[k], now);
    }
  }

  /** Running the rest of the plan from a state synced up to spec `n`
      leaves every spec current. */
  lemma {:induction false} SyncFrom(specs: seq<TaskSpec>, issues: seq<Issue>, respond: TrackerCall -> Option<string>,
                                    newId: nat -> string, n: nat, now: seq<Issue>)
    requires SyncSetup(specs, issues, newId) && SyncedUpTo(specs, issues, newId, n, now)
    requires ExecuteSync(specs, PlanSync(specs, issues)[n..], respond).error.None?
    ensures SyncedUpTo(specs, issues, newId, |specs|,
                       ApplyCalls(now, ExecuteSync(specs, PlanSync(specs, issues)[n..], respond).calls, newId))
    decreases |specs| - n
  {
    if n < |specs| {
      var actions := PlanSync(specs, issues)[n..];
      assert actions[1..] == PlanSync(specs, issues)[n + 1..];
      var a := actions[0];
      if a.Unchanged? {
        StepUnchanged(specs, issues, newId, n, now);
        SyncFrom(specs, issues, respond, newId, n + 1, now);
      } else {
        SpecByIdDistinct(specs, n);
        ExecuteSyncStep(specs, actions, respond);
        var call := CallFor(a, specs[n]);
        var calls := ExecuteSync(specs, actions, respond).calls;
        assert calls[0] == call && calls[1..] == ExecuteSync(specs, actions[1..], respond).calls;
        if a.Create? {
          StepCreate(specs, issues, newId, n, now);
        } else {
          StepUpdate(specs, issues, newId, n, now);
        }
        SyncFrom(specs, issues, respond, newId, n + 1, ApplyCall(now, call, newId));
      }
    }
  }

  /** Idempotence: after a successful sync, planning again against the
      tracker's issues finds every spec unchanged, so a second run makes no
      call at all; and the first run added one issue per Create action. */
  lemma SyncIdempotent(specs: seq<TaskSpec>, issues: seq<Issue>, respond: TrackerCall -> Option<string>,
                       newId: nat -> string)
    requires SyncSetup(specs, issues, newId)
    requires ExecuteSync(specs, PlanSync(specs, issues), respond).error.None?
    ensures var after := ApplyCalls(issues, ExecuteSync(specs, PlanSync(specs, issues), respond).calls, newId);
            (forall k :: 0 <= k < |specs| ==> PlanSync(specs, after)[k].Unchanged?)
            && ExecuteSync(specs, PlanSync(specs, after), respond) == SyncRun([], None)
            && |after| == |issues| + |Filter(PlanSync(specs, issues), IsCreateAction)|
  {
    var plan := PlanSync(specs, issues);
    var calls := ExecuteSync(specs, plan, respond).calls;
    var after := ApplyCalls(issues, calls, newId);
    assert SyncedUpTo(specs, issues, newId, 0, issues);
    assert plan[0..] == plan;
    SyncFrom(specs, issues, respond, newId, 0, issues);
    forall k | 0 <= k < |specs| ensures PlanSync(specs, after)[k].Unchanged? {
      assert Current(specs[k], after);
    }
    ExecuteUnchangedOnly(specs, PlanSync(specs, after), respond);
    ApplyCallsLength(issues, calls, newId);
    ExecuteSyncCounts(specs, plan, respond);
  }

  // ----- rendering -----

  /** The report line of one action. */
  function ActionLine(a: SyncAction): string {
    match a
    case Create(id, title) => CreateTag + id + ": " + title
    case Update(id, issueId, title) => UpdateTag + id + " (issue " + issueId + "): " + title
    case Unchanged(id, issueId) => UnchangedTag + id + " (issue " + issueId + ")"
  }

  const CreateTag: string := "  CREATE "
  const UpdateTag: string := "  UPDATE "
  const UnchangedTag: string := "  UNCHANGED "

  lemma CreateLine(id: string, title: string)
    ensures StartsWith(ActionLine(Create(id, title)), CreateTag + id)
    ensures !StartsWith(ActionLine(Create(id, title)), UpdateTag)
    ensures !StartsWith(ActionLine(Create(id, title)), UnchangedTag)
  {
    var l := ActionLine(Create(id, title));
    assert l == (CreateTag + id) + (": " + title);
    assert l[2] == 'C';
  }

  lemma UpdateLine(id: string, issueId: string, title: string)
    ensures StartsWith(ActionLine(Update(id, issueId, title)), UpdateTag + id)
    ensures !StartsWith(ActionLine(Update(id, issueId, title)), CreateTag)
    ensures !StartsWith(ActionLine(Update(id, issueId, title)), UnchangedTag)
  {
    var l := ActionLine(Update(id, issueId, title));
    assert l == (UpdateTag + id) + (" (issue " + issueId + "): " + title);
    assert l[2] == 'U' && l[3] == 'P';
  }

  lemma UnchangedLine(id: string, issueId: string)
    ensures StartsWith(ActionLine(Unchanged(id, issueId)), UnchangedTag + id)
    ensures !StartsWith(ActionLine(Unchanged(id, issueId)), CreateTag)
    ensures !StartsWith(ActionLine(Unchanged(id, issueId)), UpdateTag)
  {
    var l := ActionLine(Unchanged(id, issueId));
    assert l == (UnchangedTag + id) + (" (issue " + issueId + ")");
    assert l[2] == 'U' && l[3] == 'N';
  }

  /** A line starts with its action's kind followed by the spec id, so the
      kind can be read back from the line. */
  lemma ActionLineNames(a: SyncAction)
    ensures a.Create? <==> StartsWith(ActionLine(a), CreateTag)
    ensures a.Update? <==> StartsWith(ActionLine(a), UpdateTag)
    ensures a.Unchanged? <==> StartsWith(ActionLine(a), UnchangedTag)
    ensures StartsWith(ActionLine(a), ActionTag(a) + a.specId)
  {
    match a
    case Create(id, title) => CreateLine(id, title);
    case Update(id, issueId, title) => UpdateLine(id, issueId, title);
    case Unchanged(id, issueId) => UnchangedLine(id, issueId);
  }

  function ActionTag(a: SyncAction): string {
    match a
    case Create(_, _) => CreateTag
    case Update(_, _, _) => UpdateTag
    case Unchanged(_, _) => UnchangedTag
  }

  function ActionLines(actions: seq<SyncAction>): (r: seq<string>)
    ensures |r| == |actions|
    ensures forall k :: 0 <= k < |actions| ==> r[k] == ActionLine(actions[k])
  {
    seq(|actions|, k requires 0 <= k < |actions| => ActionLine(actions[k]))
  }

  /** `format_actions`: "No specs to sync." for no actions, otherwise one line
      per action joined with line breaks. */
  function FormatActions(actions: seq<SyncAction>): (r: string)
    ensures r == "No specs to sync." <==> |actions| == 0
    ensures |actions| > 0 ==> StartsWith(r, ActionLine(actions[0]))
    ensures |actions| > 0 ==> EndsWith(r, ActionLine(actions[|actions| - 1]))
  {
    if |actions| == 0 then "No specs to sync."
    else
      var lines := ActionLines(actions);
      JoinEnds(lines, "\n");
      assert ActionLine(actions[0])[0] == ' ';
      Join(lines, "\n")
  }

  /** The report is the action lines in order, one per line: a single
      action gives its line alone, and two runs of actions give their
      reports one line break apart. */
  lemma FormatActionsConcat(actions1: seq<SyncAction>, actions2: seq<SyncAction>)
    requires |actions1| > 0 && |actions2| > 0
    ensures FormatActions(actions1 + actions2) == FormatActions(actions1) + "\n" + FormatActions(actions2)
    ensures FormatActions([actions1[0]]) == ActionLine(actions1[0])
  {
    assert ActionLines(actions1 + actions2) == ActionLines(actions1) + ActionLines(actions2);
    JoinConcat(ActionLines(actions1), ActionLines(actions2), "\n");
  }

  /** Every action's line appears in the report. */
  lemma FormatActionsLists(actions: seq<SyncAction>, k: int)
    requires 0 <= k < |actions|
    ensures Contains(FormatActions(actions), ActionLine(actions[k]))
  {
    JoinContainsPart(ActionLines(actions), "\n", k);
  }
}

=== FILE: cassette.dfy ===
/** The cassette format (src/cassette/format.rs): an ordered list of the
    interactions a session had with its ports, with the JSON each call sent
    and received. */
module Cassette {
  import opened Json

  /** When a cassette was recorded; timestamps are opaque here. */
  type Timestamp = int

  /** One call on a port: its sequence number, which port and method, and
      the JSON it was given and gave back. */
  datatype Interaction = Interaction(seqNo: nat, port: string, methodName: string, input: Json, output: Json)

  datatype Cassette = Cassette(name: string, recordedAt: Timestamp, commit: string, interactions: seq<Interaction>)

  /** Every interaction carries its own position as its sequence number. */
  predicate Numbered(xs: seq<Interaction>) {
    forall i :: 0 <= i < |xs| ==> xs[i].seqNo == i
  }

  /** `xs` and `ys` hold the same calls in the same order, sequence numbers
      aside. */
  predicate SameCalls(xs: seq<Interaction>, ys: seq<Interaction>) {
    |xs| == |ys|
    && forall i :: 0 <= i < |xs| ==>
         xs[i].port == ys[i].port && xs[i].methodName == ys[i].methodName
         && xs[i].input == ys[i].input && xs[i].output == ys[i].output
  }
}

=== FILE: codemap.dfy ===
/** The structural snapshot of a codebase (src/map/mod.rs). */
module CodeMap {

  /** One module boundary: its path, public items and referenced crates or modules. */
  datatype ModuleSummary = ModuleSummary(path: string, publicItems: seq<string>, dependencies: seq<string>)

  /** A snapshot tied to a commit. The generation timestamp is kept as its
      textual form; nothing in the model compares it. */
  datatype CodebaseMap = CodebaseMap(
    commitHash: string,
    generatedAt: string,
    modules: seq<ModuleSummary>,
    directoryTree: seq<string>,
    testInfrastructure: seq<string>)

  /** The paths of a module list, in order. */
  function Paths(ms: seq<ModuleSummary>): (r: seq<string>)
    ensures |r| == |ms|
    ensures forall i :: 0 <= i < |ms| ==> r[i] == ms[i].path
  {
    seq(|ms|, i requires 0 <= i < |ms| => ms[i].path)
  }

  /** No two modules share a path. */
  predicate UniquePaths(ms: seq<ModuleSummary>) {
    forall i, j :: 0 <= i < j < |ms| ==> ms[i].path != ms[j].path
  }
}

=== FILE: conversation.dfy ===
/** The deterministic parts of the planning conversation
    (src/plan/conversation.rs): reading a signal type name and reading what
    the user typed at the prompt. Every input is read as some action. */
module Conversation {
  import opened Base
  import opened Text
  import opened Spec

  // ----- signal types -----

  const ClearName := "clear"
  const FuzzyName := "fuzzy"
  const InternalLogicName := "internal_logic"

  /** The name each signal type is written under. */
  function SignalTypeName(t: SignalType): string {
    match t
    case Clear => ClearName
    case Fuzzy => FuzzyName
    case InternalLogic => InternalLogicName
  }

  /** `parse_signal_type`: exactly the three names, nothing else. */
  function ParseSignalType(s: string): (r: Option<SignalType>)
    ensures r.Some? <==> s == ClearName || s == FuzzyName || s == InternalLogicName
  {
    if s == ClearName then Some(Clear)
    else if s == FuzzyName then Some(Fuzzy)
    else if s == InternalLogicName then Some(InternalLogic)
    else None
  }

  /** The names and the parser are inverse: each type's name reads back as
      that type, and a name reads as a type only if it is that type's name. */
  lemma SignalTypeRoundTrip(t: SignalType, s: string)
    ensures ParseSignalType(SignalTypeName(t)) == Some(t)
    ensures ParseSignalType(s) == Some(t) <==> s == SignalTypeName(t)
  {
    assert ClearName != FuzzyName && ClearName[0] != InternalLogicName[0] && FuzzyName[0] != InternalLogicName[0];
  }

  // ----- user input -----

  datatype UserAction =
    | PickOption(option: nat)
    | Feedback(text: string)
    | AddTask(title: string)
    | Accept
    | Stop

  const AcceptWords: set<string> := {"accept", "done", "yes"}
  const StopWords: set<string> := {"stop", "quit", "exit", "no"}
  const OptionPrefix := "option "
  const AddTaskPrefix := "add task:"

  /** What is left for the letter test: the input without leading "option "
      words, trimmed. */
  function Cleaned(lower: string): string {
    Trim(TrimStartMatches(lower, OptionPrefix))
  }

  /** A one-letter string: the letter's place in the alphabet, from 1. */
  function Letter(cleaned: string): (r: Option<nat>)
    ensures r.Some? <==> |cleaned| == 1 && 'a' <= cleaned[0] <= 'z'
    ensures r.Some? ==> 1 <= r.value <= 26 && r.value == cleaned[0] as int - 'a' as int + 1
  {
    if |cleaned| == 1 && 'a' <= cleaned[0] <= 'z' then Some(cleaned[0] as int - 'a' as int + 1)
    else None
  }

  /** A single letter, optionally after "option ". */
  function LetterOption(lower: string): (r: Option<nat>)
    ensures r.Some? ==> 1 <= r.value <= 26
  {
    Letter(Cleaned(lower))
  }

  /** A title: the trimmed text, when it is not blank. */
  function TitleOf(rest: string): (r: Option<string>)
    ensures r.Some? <==> |Trim(rest)| > 0
    ensures r.Some? ==> r.value == Trim(rest)
  {
    if |Trim(rest)| > 0 then Some(Trim(rest)) else None
  }

  /** The title after "add task:", when there is one. */
  function TaskTitle(s: string): (r: Option<string>)
    ensures r.Some? ==> StartsWith(s, AddTaskPrefix) && |r.value| > 0
    ensures r.Some? ==> r.value == Trim(s[|AddTaskPrefix|..])
  {
    if StartsWith(s, AddTaskPrefix) then TitleOf(s[|AddTaskPrefix|..]) else None
  }

  /** Lower-casing keeps a title's blankness and lower-cases the title. */
  lemma TitleOfLower(rest: string)
    ensures TitleOf(Lower(rest)) == if TitleOf(rest).Some? then Some(Lower(TitleOf(rest).value)) else None
  {
    TrimLower(rest);
  }

  /** A title read from the raw input is also read, lower-cased, from the
      lower-cased input, since the prefix is already lower case and
      lower-casing keeps whitespace where it is. */
  lemma RawTitleIsLowerTitle(input: string)
    ensures TaskTitle(input).Some? ==> TaskTitle(Lower(input)) == Some(Lower(TaskTitle(input).value))
  {
    if TaskTitle(input).Some? {
      var rest := input[|AddTaskPrefix|..];
      assert input == AddTaskPrefix + rest;
      TaskTitleOf(rest);
      LowerAppend(AddTaskPrefix, rest);
      PrefixIsLower();
      assert Lower(input) == AddTaskPrefix + Lower(rest);
      LowerTaskTitle(rest);
    }
  }

  lemma PrefixIsLower()
    ensures Lower(AddTaskPrefix) == AddTaskPrefix
  {
  }

  /** "add task:" followed by anything: the title is read from what follows. */
  lemma TaskTitleOf(rest: string)
    ensures TaskTitle(AddTaskPrefix + rest) == TitleOf(rest)
  {
    assert (AddTaskPrefix + rest)[|AddTaskPrefix|..] == rest;
  }

  lemma LowerTaskTitle(rest: string)
    ensures TaskTitle(AddTaskPrefix + Lower(rest)) == if TitleOf(rest).Some? then Some(Lower(TitleOf(rest).value)) else None
  {
    TaskTitleOf(Lower(rest));
    TitleOfLower(rest);
  }

  /** Trimming a lower-case title leaves it lower case. */
  lemma TitleIsLower(lower: string)
    requires IsLower(lower)
    ensures TaskTitle(lower).Some? ==> IsLower(TaskTitle(lower).value)
  {
    if TaskTitle(lower).Some? {
      var rest := lower[|AddTaskPrefix|..];
      var ts := TrimStart(rest);
      assert ts == rest[|rest| - |ts|..];
      assert IsLower(ts);
      var t := TrimEnd(ts);
      assert t == ts[..|t|];
    }
  }

  /** `parse_user_input`: command words first, then a letter option, then
      "add task:" in the lower-cased and then in the raw input, and
      otherwise feedback. */
  function ParseUserInput(input: string): (a: UserAction)
    ensures a.Feedback? ==> a.text == input
  {
    var lower := Lower(input);
    if lower in AcceptWords then Accept
    else if lower in StopWords then Stop
    else
      match LetterOption(lower)
      case Some(n) => PickOption(n)
      case None =>
        match TaskTitle(lower)
        case Some(t) => AddTask(t)
        case None =>
          match TaskTitle(input)
          case Some(t) => AddTask(t)
          case None => Feedback(input)
  }

  /** Every input is read as exactly one action: Accept iff its lower case
      is an accept word, Stop iff a stop word, an option iff it is neither
      and names a letter, a task iff none of those and it carries a task
      title (which is then lower case), and feedback otherwise. */
  lemma ParseUserInputCases(input: string)
    ensures var a := ParseUserInput(input);
            && (a == Accept <==> Lower(input) in AcceptWords)
            && (a == Stop <==> Lower(input) in StopWords)
            && (a.PickOption? <==>
                  Lower(input) !in AcceptWords && Lower(input) !in StopWords && LetterOption(Lower(input)).Some?)
            && (a.PickOption? ==> a.option == LetterOption(Lower(input)).value && 1 <= a.option <= 26)
            && (a.AddTask? <==>
                  Lower(input) !in AcceptWords && Lower(input) !in StopWords && LetterOption(Lower(input)).None?
                  && TaskTitle(Lower(input)).Some?)
            && (a.AddTask? ==> |a.title| > 0 && IsLower(a.title) && a.title == Trim(Lower(input)[|AddTaskPrefix|..]))
            && (a.Feedback? <==>
                  Lower(input) !in AcceptWords && Lower(input) !in StopWords && LetterOption(Lower(input)).None?
                  && TaskTitle(Lower(input)).None?)
  {
    RawTitleIsLowerTitle(input);
    LowerIsLower(input);
    TitleIsLower(Lower(input));
  }

  /** The command words are between 2 and 6 characters long. */
  lemma NotAWord(s: string)
    requires |s| < 2 || |s| > 6
    ensures s !in AcceptWords && s !in StopWords
  {
  }

  /** A single lower-case letter names the option at that place in the
      alphabet: "a" is 1. */
  lemma BareLetter(c: char)
    requires 'a' <= c <= 'z'
    ensures LetterOption([c]) == Some(c as int - 'a' as int + 1)
  {
    var s := [c];
    assert |s| < |OptionPrefix|;
    assert TrimStartMatches(s, OptionPrefix) == s;
    assert !IsSpace(s[0]);
    assert TrimStart(s) == s;
    assert TrimEnd(s) == s;
    assert Cleaned(s) == s;
    assert Letter(s) == Some(c as int - 'a' as int + 1);
  }

  /** `trim_start_matches("option ")` strips a leading "option ". */
  lemma StripOptionWord(rest: string)
    ensures TrimStartMatches(OptionPrefix + rest, OptionPrefix) == TrimStartMatches(rest, OptionPrefix)
  {
    var opt := OptionPrefix + rest;
    assert opt[|OptionPrefix|..] == rest;
    assert StartsWith(opt, OptionPrefix);
  }

  /** "option " in front of a letter changes nothing. */
  lemma OptionWordIgnored(c: char)
    ensures LetterOption(OptionPrefix + [c]) == LetterOption([c])
  {
    StripOptionWord([c]);
  }

  /** A single lower-case letter, bare or after "option ", is no command
      word and names the option at its place in the alphabet, so (by
      `PicksWhenLetter`) it picks that option. */
  lemma SingleLetterPicks(c: char)
    requires 'a' <= c <= 'z'
    ensures Lower([c]) !in AcceptWords && Lower([c]) !in StopWords
    ensures LetterOption(Lower([c])) == Some(c as int - 'a' as int + 1)
    ensures Lower(OptionPrefix + [c]) !in AcceptWords && Lower(OptionPrefix + [c]) !in StopWords
    ensures LetterOption(Lower(OptionPrefix + [c])) == Some(c as int - 'a' as int + 1)
  {
    BareLetterInput(c);
    OptionLetterInput(c);
  }

  /** "a", "b", ... and "option a", "option b", ... pick options 1, 2, ... */
  lemma LetterPicks(c: char)
    requires 'a' <= c <= 'z'
    ensures ParseUserInput([c]) == PickOption(c as int - 'a' as int + 1)
    ensures ParseUserInput(OptionPrefix + [c]) == PickOption(c as int - 'a' as int + 1)
  {
    SingleLetterPicks(c);
    PicksWhenLetter([c], c as int - 'a' as int + 1);
    PicksWhenLetter(OptionPrefix + [c], c as int - 'a' as int + 1);
  }

  /** An input that is no command word and names a letter picks that
      option. */
  lemma PicksWhenLetter(input: string, n: nat)
    requires Lower(input) !in AcceptWords && Lower(input) !in StopWords
    requires LetterOption(Lower(input)) == Some(n)
    ensures ParseUserInput(input) == PickOption(n)
  {
  }

  /** A bare letter is no command word and names its letter. */
  lemma BareLetterInput(c: char)
    requires 'a' <= c <= 'z'
    ensures Lower([c]) !in AcceptWords && Lower([c]) !in StopWords
    ensures LetterOption(Lower([c])) == Some(c as int - 'a' as int + 1)
  {
    assert Lower([c]) == [c];
    BareLetter(c);
    NotAWord([c]);
  }

  /** "option " and a letter is no command word and names the letter. */
  lemma OptionLetterInput(c: char)
    requires 'a' <= c <= 'z'
    ensures Lower(OptionPrefix + [c]) !in AcceptWords && Lower(OptionPrefix + [c]) !in StopWords
    ensures LetterOption(Lower(OptionPrefix + [c])) == Some(c as int - 'a' as int + 1)
  {
    BareLetter(c);
    OptionWordIgnored(c);
    OptionLetterIsLower(c);
    NotAWord(OptionPrefix + [c]);
  }

  lemma OptionLetterIsLower(c: char)
    requires 'a' <= c <= 'z'
    ensures Lower(OptionPrefix + [c]) == OptionPrefix + [c]
  {
    LowerAppend(OptionPrefix, [c]);
    assert Lower(OptionPrefix) == OptionPrefix;
    assert Lower([c]) == [c];
  }

  /** "add task:" and a non-blank rest adds a task titled with the trimmed,
      lower-cased rest. */
  lemma {:induction false} AddTaskLowerCases(rest: string)
    requires |Trim(rest)| > 0
    ensures ParseUserInput(AddTaskPrefix + rest) == AddTask(Lower(Trim(rest)))
  {
    var input := AddTaskPrefix + rest;
    LowerAppend(AddTaskPrefix, rest);
    PrefixIsLower();
    var lower := AddTaskPrefix + Lower(rest);
    assert Lower(input) == lower;
    NotAWord(lower);
    NoLetterAfterTaskPrefix(Lower(rest));
    LowerTaskTitle(rest);
  }

  /** Text after "add task:" never reads as a letter option. */
  lemma {:induction false} NoLetterAfterTaskPrefix(rest: string)
    ensures LetterOption(AddTaskPrefix + rest).None?
  {
    var s := AddTaskPrefix + rest;
    assert s[0] == 'a';
    assert !StartsWith(s, OptionPrefix) by { assert s[0] != OptionPrefix[0]; }
    assert TrimStartMatches(s, OptionPrefix) == s;
    assert TrimStart(s) == s;
    var t := TrimEnd(s);
    assert |t| >= |AddTaskPrefix| by {
      assert s[|AddTaskPrefix| - 1] == ':';
    }
  }
}

=== FILE: diff.dfy ===
/** Differences between two codebase maps (src/map/diff.rs): modules added,
    removed, and changed in their public items or dependencies. */
module Diff {
  import opened Base
  import opened Text
  import opened CodeMap

  datatype ModuleChange = ModuleChange(
    path: string,
    addedItems: seq<string>,
    removedItems: seq<string>,
    addedDeps: seq<string>,
    removedDeps: seq<string>)

  datatype MapDiff = MapDiff(
    addedModules: seq<string>,
    removedModules: seq<string>,
    changedModules: seq<ModuleChange>)

  /** The elements of `xs` that do not occur in `ys`, in `xs` order, duplicates kept. */
  function Missing(xs: seq<string>, ys: seq<string>): (r: seq<string>)
    ensures forall x :: x in r <==> x in xs && x !in ys
    ensures |r| == 0 <==> Within(xs, ys)
  {
    FilterEmpty(xs, Absent(ys));
    Filter(xs, Absent(ys))
  }

  /** The test `Missing` keeps an element by. */
  function Absent(ys: seq<string>): string -> bool {
    x => x !in ys
  }

  /** `Missing` keeps the order of the first list: it works element by
      element, a present element dropped and an absent one kept. */
  lemma MissingInOrder(xs1: seq<string>, xs2: seq<string>, x: string, ys: seq<string>)
    ensures Missing(xs1 + xs2, ys) == Missing(xs1, ys) + Missing(xs2, ys)
    ensures Missing([x], ys) == if x in ys then [] else [x]
  {
    FilterConcat(xs1, xs2, Absent(ys));
    assert [x][1..] == [];
  }

  /** Every element of `xs` also occurs in `ys`. */
  predicate Within(xs: seq<string>, ys: seq<string>) {
    forall k :: 0 <= k < |xs| ==> xs[k] in ys
  }

  /** The change between two summaries of one module; `None` when both hold
      the same items and the same dependencies (as sets: order and repeats
      are ignored). */
  function DiffModule(before: ModuleSummary, after: ModuleSummary): (r: Option<ModuleChange>)
    ensures r.None? <==> Within(after.publicItems, before.publicItems) && Within(before.publicItems, after.publicItems)
                         && Within(after.dependencies, before.dependencies) && Within(before.dependencies, after.dependencies)
    ensures r.Some? ==> r.value.path == after.path
    ensures r.Some? ==> forall x :: x in r.value.addedItems <==> x in after.publicItems && x !in before.publicItems
    ensures r.Some? ==> forall x :: x in r.value.removedItems <==> x in before.publicItems && x !in after.publicItems
    ensures r.Some? ==> forall x :: x in r.value.addedDeps <==> x in after.dependencies && x !in before.dependencies
    ensures r.Some? ==> forall x :: x in r.value.removedDeps <==> x in before.dependencies && x !in after.dependencies
    ensures r.Some? ==> r.value.addedItems == Missing(after.publicItems, before.publicItems)
                        && r.value.removedItems == Missing(before.publicItems, after.publicItems)
    ensures r.Some? ==> r.value.addedDeps == Missing(after.dependencies, before.dependencies)
                        && r.value.removedDeps == Missing(before.dependencies, after.dependencies)
  {
    var addedItems := Missing(after.publicItems, before.publicItems);
    var removedItems := Missing(before.publicItems, after.publicItems);
    var addedDeps := Missing(after.dependencies, before.dependencies);
    var removedDeps := Missing(before.dependencies, after.dependencies);
    if |addedItems| == 0 && |removedItems| == 0 && |addedDeps| == 0 && |removedDeps| == 0 then
      None
    else
      Some(ModuleChange(after.path, addedItems, removedItems, addedDeps, removedDeps))
  }

  /** Comparing in the other direction finds a change exactly when this one
      does, with additions and removals swapped. */
  lemma DiffModuleSwap(a: ModuleSummary, b: ModuleSummary)
    ensures DiffModule(a, b).None? <==> DiffModule(b, a).None?
    ensures DiffModule(a, b).Some? ==>
              DiffModule(a, b).value.addedItems == DiffModule(b, a).value.removedItems
              && DiffModule(a, b).value.removedItems == DiffModule(b, a).value.addedItems
              && DiffModule(a, b).value.addedDeps == DiffModule(b, a).value.removedDeps
              && DiffModule(a, b).value.removedDeps == DiffModule(b, a).value.addedDeps
  {
  }

  /** The first old module with path `p` (`iter().find`). */
  function FirstWithPath(ms: seq<ModuleSummary>, p: string): (r: Option<ModuleSummary>)
    ensures r.None? <==> p !in Paths(ms)
    ensures r.Some? ==> r.value in ms && r.value.path == p
  {
    Find(ms, (m: ModuleSummary) => m.path == p)
  }

  /** The change recorded for new module `n`: its first old namesake compared
      with it, nothing when it has none. */
  function ChangeOf(olds: seq<ModuleSummary>, n: ModuleSummary): (r: Option<ModuleChange>)
    ensures r.Some? ==> r.value.path == n.path && n.path in Paths(olds)
  {
    match FirstWithPath(olds, n.path)
    case None => None
    case Some(o) => DiffModule(o, n)
  }

  /** The changes of the new modules, in the new map's order. */
  function ChangedModules(olds: seq<ModuleSummary>, news: seq<ModuleSummary>): (r: seq<ModuleChange>)
    ensures forall k :: 0 <= k < |r| ==>
              exists j :: 0 <= j < |news| && ChangeOf(olds, news[j]) == Some(r[k])
    ensures forall j :: 0 <= j < |news| && ChangeOf(olds, news[j]).Some? ==>
              ChangeOf(olds, news[j]).value in r
    ensures |r| == 0 <==> forall j :: 0 <= j < |news| ==> ChangeOf(olds, news[j]).None?
  {
    FilterMapEmpty(news, n => ChangeOf(olds, n));
    FilterMap(news, n => ChangeOf(olds, n))
  }

  /** `diff_maps`: added and removed module paths and per-module changes. */
  function DiffMaps(before: CodebaseMap, after: CodebaseMap): (r: MapDiff)
    ensures forall p :: p in r.addedModules <==> p in Paths(after.modules) && p !in Paths(before.modules)
    ensures forall p :: p in r.removedModules <==> p in Paths(before.modules) && p !in Paths(after.modules)
    ensures forall k :: 0 <= k < |r.changedModules| ==>
              exists j :: 0 <= j < |after.modules| && ChangeOf(before.modules, after.modules[j]) == Some(r.changedModules[k])
    ensures forall j :: 0 <= j < |after.modules| && ChangeOf(before.modules, after.modules[j]).Some? ==>
              ChangeOf(before.modules, after.modules[j]).value in r.changedModules
    ensures r.addedModules == Missing(Paths(after.modules), Paths(before.modules))
    ensures r.removedModules == Missing(Paths(before.modules), Paths(after.modules))
  {
    var changed := ChangedModules(before.modules, after.modules);
    MapDiff(Missing(Paths(after.modules), Paths(before.modules)),
            Missing(Paths(before.modules), Paths(after.modules)),
            changed)
  }

  /** Every changed module is present, under its path, in both maps. */
  lemma DiffChangedPaths(before: CodebaseMap, after: CodebaseMap)
    ensures forall c :: c in DiffMaps(before, after).changedModules ==>
              c.path in Paths(before.modules) && c.path in Paths(after.modules)
  {
    var changed := DiffMaps(before, after).changedModules;
    forall c | c in changed ensures c.path in Paths(before.modules) && c.path in Paths(after.modules) {
      var k :| 0 <= k < |changed| && changed[k] == c;
      var j :| 0 <= j < |after.modules| && ChangeOf(before.modules, after.modules[j]) == Some(c);
      assert Paths(after.modules)[j] == c.path;
    }
  }

  predicate IsEmpty(d: MapDiff) {
    |d.addedModules| == 0 && |d.removedModules| == 0 && |d.changedModules| == 0
  }

  /** The new map's module paths are the old ones minus the removed plus the added. */
  lemma DiffReconstructsPaths(before: CodebaseMap, after: CodebaseMap)
    ensures forall p :: p in Paths(after.modules) <==>
              (p in Paths(before.modules) && p !in DiffMaps(before, after).removedModules)
              || p in DiffMaps(before, after).addedModules
  {
  }

  /** A map with no repeated module path shows no difference to itself.
      (With a repeated path the second namesake is compared with the first,
      so the precondition is needed.) */
  lemma DiffSelfEmpty(m: CodebaseMap)
    requires UniquePaths(m.modules)
    ensures IsEmpty(DiffMaps(m, m))
  {
    forall j | 0 <= j < |m.modules|
      ensures ChangeOf(m.modules, m.modules[j]).None?
    {
      SelfChangeNone(m.modules, j);
    }
  }

  /** A module's first namesake in a map without repeated paths is itself. */
  lemma SelfChangeNone(ms: seq<ModuleSummary>, j: int)
    requires UniquePaths(ms) && 0 <= j < |ms|
    ensures ChangeOf(ms, ms[j]).None?
  {
    var o := FirstWithPath(ms, ms[j].path);
    var i :| 0 <= i < |ms| && ms[i] == o.value;
    assert i == j;
  }

  /** Two modules with one path and different items make a self-comparison
      report a change: the uniqueness precondition above is needed. */
  lemma DiffSelfRepeatedPath()
    ensures var m := CodebaseMap("c", "t", [ModuleSummary("src", ["fn a"], []), ModuleSummary("src", ["fn b"], [])], [], []);
            !IsEmpty(DiffMaps(m, m))
  {
    var a := ModuleSummary("src", ["fn a"], []);
    var b := ModuleSummary("src", ["fn b"], []);
    var m := CodebaseMap("c", "t", [a, b], [], []);
    assert FirstWithPath(m.modules, "src") == Some(a);
    assert "fn b" !in a.publicItems;
    assert ChangeOf(m.modules, m.modules[1]).Some?;
  }

  // ----- rendering -----

  function ChangeLines(c: ModuleChange): seq<string> {
    ["Changed: " + c.path]
    + Prefixed("  + ", c.addedItems) + Prefixed("  - ", c.removedItems)
    + Prefixed("  +dep ", c.addedDeps) + Prefixed("  -dep ", c.removedDeps)
  }

  function ChangesLines(cs: seq<ModuleChange>): (r: seq<string>)
    ensures forall k :: 0 <= k < |cs| ==> "Changed: " + cs[k].path in r
  {
    if |cs| == 0 then [] else
      var rest := ChangesLines(cs[1..]);
      assert forall k :: 1 <= k < |cs| ==> cs[k] == cs[1..][k - 1];
      ChangeLines(cs[0]) + rest
  }

  function AddedLines(d: MapDiff): seq<string> {
    if |d.addedModules| > 0 then ["Added modules:"] + Prefixed("  + ", d.addedModules) else []
  }

  function RemovedLines(d: MapDiff): seq<string> {
    if |d.removedModules| > 0 then ["Removed modules:"] + Prefixed("  - ", d.removedModules) else []
  }

  function DiffLines(d: MapDiff): seq<string> {
    AddedLines(d) + RemovedLines(d) + ChangesLines(d.changedModules)
  }

  /** `format_diff`: a fixed sentence exactly when there is nothing to
      report; otherwise one line per added and removed module and a
      heading per changed module. */
  function FormatDiff(d: MapDiff): (r: string)
    ensures r == "No changes since last map." <==> IsEmpty(d)
    ensures !IsEmpty(d) ==>
              (forall k :: 0 <= k < |d.addedModules| ==> Contains(r, "  + " + d.addedModules[k]))
              && (forall k :: 0 <= k < |d.removedModules| ==> Contains(r, "  - " + d.removedModules[k]))
              && (forall k :: 0 <= k < |d.changedModules| ==> Contains(r, "Changed: " + d.changedModules[k].path))
  {
    if IsEmpty(d) then "No changes since last map."
    else
      FormatFirstLine(d);
      FormatListsLines(d);
      FormatChangedLines(d);
      Join(DiffLines(d), "\n")
  }

  /** A non-empty report starts with a heading, not with the fixed sentence. */
  lemma FormatFirstLine(d: MapDiff)
    requires !IsEmpty(d)
    ensures Join(DiffLines(d), "\n") != "No changes since last map."
  {
    var lines := DiffLines(d);
    assert |lines| > 0 && lines[0][0] != 'N' by {
      if |d.addedModules| > 0 {
        assert lines[0] == "Added modules:";
      } else if |d.removedModules| > 0 {
        assert lines[0] == "Removed modules:";
      } else {
        assert lines == ChangeLines(d.changedModules[0]) + ChangesLines(d.changedModules[1..]);
        assert lines[0] == "Changed: " + d.changedModules[0].path;
      }
    }
    JoinEnds(lines, "\n");
  }

  lemma FormatListsLines(d: MapDiff)
    ensures forall k :: 0 <= k < |d.addedModules| ==> Contains(Join(DiffLines(d), "\n"), "  + " + d.addedModules[k])
    ensures forall k :: 0 <= k < |d.removedModules| ==> Contains(Join(DiffLines(d), "\n"), "  - " + d.removedModules[k])
  {
    var lines := DiffLines(d);
    forall k | 0 <= k < |d.addedModules|
      ensures Contains(Join(lines, "\n"), "  + " + d.addedModules[k])
    {
      assert lines[k + 1] == AddedLines(d)[k + 1] == "  + " + d.addedModules[k];
      JoinContainsPart(lines, "\n", k + 1);
    }
    forall k | 0 <= k < |d.removedModules|
      ensures Contains(Join(lines, "\n"), "  - " + d.removedModules[k])
    {
      var i := |AddedLines(d)| + k + 1;
      assert lines[i] == RemovedLines(d)[k + 1] == "  - " + d.removedModules[k];
      JoinContainsPart(lines, "\n", i);
    }
  }

  lemma FormatChangedLines(d: MapDiff)
    ensures forall k :: 0 <= k < |d.changedModules| ==>
              Contains(Join(DiffLines(d), "\n"), "Changed: " + d.changedModules[k].path)
  {
    var lines := DiffLines(d);
    var changes := ChangesLines(d.changedModules);
    var offset := |AddedLines(d)| + |RemovedLines(d)|;
    forall k | 0 <= k < |d.changedModules|
      ensures Contains(Join(lines, "\n"), "Changed: " + d.changedModules[k].path)
    {
      var line := "Changed: " + d.changedModules[k].path;
      assert line in changes;
      var i :| 0 <= i < |changes| && changes[i] == line;
      assert lines[offset + i] == line;
      JoinContainsPart(lines, "\n", offset + i);
    }
  }
}

=== FILE: drift.dfy ===
/** Drift detection (src/linkage/drift.rs): which specs reference modules
    that changed or disappeared between two codebase map snapshots. */
module Drift {
  import opened Base
  import opened Text
  import opened Spec
  import opened CodeMap
  import opened Linkage
  import opened Diff

  datatype DriftEntry = DriftEntry(
    specId: string,
    changedModules: seq<string>,
    removedModules: seq<string>,
    replanRecommended: bool)

  datatype DriftReport = DriftReport(entries: seq<DriftEntry>, oldCommit: string, newCommit: string)

  /** No spec drifted. */
  predicate IsClean(r: DriftReport) {
    |r.entries| == 0
  }

  /** Number of specs affected by drift. */
  function AffectedCount(r: DriftReport): nat {
    |r.entries|
  }

  /** Module `p` exists in the old map and not in the new one. */
  predicate RemovedAt(p: string, before: CodebaseMap, after: CodebaseMap) {
    p in Paths(before.modules) && p !in Paths(after.modules)
  }

  /** Module `p` exists in both maps and its first summaries differ in their
      item or dependency lists. Lists are compared as sequences: order
      matters here, unlike in the map diff. */
  predicate ChangedAt(p: string, before: CodebaseMap, after: CodebaseMap) {
    var o := FirstWithPath(before.modules, p);
    var n := FirstWithPath(after.modules, p);
    o.Some? && n.Some?
    && (o.value.publicItems != n.value.publicItems || o.value.dependencies != n.value.dependencies)
  }

  /** The paths the links resolved to, in order; unresolved links are skipped. */
  function ResolvedPaths(links: seq<ResolvedLink>): (r: seq<string>)
    ensures forall p :: p in r <==> exists k :: 0 <= k < |links| && links[k].resolvedPath == Some(p)
  {
    FilterMap(links, LinkPath)
  }

  function LinkPath(l: ResolvedLink): Option<string> {
    l.resolvedPath
  }

  /** `ResolvedPaths` works link by link: one path per resolved link, in
      link order, so two links to one module give that path twice. */
  lemma ResolvedPathsInOrder(links1: seq<ResolvedLink>, links2: seq<ResolvedLink>, l: ResolvedLink)
    ensures ResolvedPaths(links1 + links2) == ResolvedPaths(links1) + ResolvedPaths(links2)
    ensures ResolvedPaths([l]) == if l.resolvedPath.Some? then [l.resolvedPath.value] else []
  {
    FilterMapConcat(links1, links2, LinkPath);
    assert [l][1..] == [];
  }

  /** The tests `check_spec_drift` sorts a resolved path by. */
  function ChangedIn(before: CodebaseMap, after: CodebaseMap): string -> bool {
    p => ChangedAt(p, before, after)
  }

  function RemovedIn(before: CodebaseMap, after: CodebaseMap): string -> bool {
    p => RemovedAt(p, before, after)
  }

  /** `check_spec_drift`: the changed and removed modules among a spec's
      resolved links; nothing when there are none. Re-planning is advised
      when a module was removed or more than one changed. */
  function CheckSpecDrift(linkage: LinkageResult, before: CodebaseMap, after: CodebaseMap): (r: Option<DriftEntry>)
    ensures r.None? <==> forall p :: p in ResolvedPaths(linkage.links) ==>
                           !ChangedAt(p, before, after) && !RemovedAt(p, before, after)
    ensures r.Some? ==> r.value.specId == linkage.specId
    ensures r.Some? ==> |r.value.changedModules| + |r.value.removedModules| > 0
    ensures r.Some? ==> forall p :: p in r.value.changedModules <==>
                          p in ResolvedPaths(linkage.links) && ChangedAt(p, before, after)
    ensures r.Some? ==> forall p :: p in r.value.removedModules <==>
                          p in ResolvedPaths(linkage.links) && RemovedAt(p, before, after)
    ensures r.Some? ==> (r.value.replanRecommended <==>
                          |r.value.removedModules| > 0 || |r.value.changedModules| > 1)
    // one entry per resolved link, in link order, repeats kept
    ensures r.Some? ==> r.value.changedModules == Filter(ResolvedPaths(linkage.links), ChangedIn(before, after))
    ensures r.Some? ==> r.value.removedModules == Filter(ResolvedPaths(linkage.links), RemovedIn(before, after))
  {
    var paths := ResolvedPaths(linkage.links);
    var changed := Filter(paths, ChangedIn(before, after));
    var removed := Filter(paths, RemovedIn(before, after));
    FilterEmpty(paths, ChangedIn(before, after));
    FilterEmpty(paths, RemovedIn(before, after));
    if |changed| == 0 && |removed| == 0 then None
    else Some(DriftEntry(linkage.specId, changed, removed, |removed| > 0 || |changed| > 1))
  }

  /** Two links resolving to the same changed module count twice: the entry
      lists that module at least twice and advises re-planning, although a
      single module changed. */
  lemma TwoLinksToOneChangedModule(linkage: LinkageResult, before: CodebaseMap, after: CodebaseMap,
                                   i: int, j: int, p: string)
    requires 0 <= i < j < |linkage.links|
    requires linkage.links[i].resolvedPath == Some(p) && linkage.links[j].resolvedPath == Some(p)
    requires ChangedAt(p, before, after)
    ensures CheckSpecDrift(linkage, before, after).Some?
    ensures |CheckSpecDrift(linkage, before, after).value.changedModules| >= 2
    ensures CheckSpecDrift(linkage, before, after).value.replanRecommended
  {
    var links := linkage.links;
    var front, back := links[..j], links[j..];
    assert links == front + back;
    ResolvedPathsInOrder(front, back, links[j]);
    assert front[i].resolvedPath == Some(p) && back[0].resolvedPath == Some(p);
    var a, b := ResolvedPaths(front), ResolvedPaths(back);
    assert p in a && p in b;
    FilterConcat(a, b, ChangedIn(before, after));
    assert p in Filter(a, ChangedIn(before, after)) && p in Filter(b, ChangedIn(before, after));
  }

  /** The drift entry of one spec, resolved against the old map. */
  function SpecDrift(spec: TaskSpec, before: CodebaseMap, after: CodebaseMap): Option<DriftEntry> {
    CheckSpecDrift(Resolve(spec, before), before, after)
  }

  /** `detect_drift`: one entry per drifted spec, in spec order, with both
      commits recorded. */
  function DetectDrift(specs: seq<TaskSpec>, before: CodebaseMap, after: CodebaseMap): (r: DriftReport)
    ensures r.oldCommit == before.commitHash && r.newCommit == after.commitHash
    ensures AffectedCount(r) <= |specs|
    ensures forall k :: 0 <= k < |r.entries| ==>
              exists j :: 0 <= j < |specs| && SpecDrift(specs[j], before, after) == Some(r.entries[k])
    ensures forall j :: 0 <= j < |specs| && SpecDrift(specs[j], before, after).Some? ==>
              SpecDrift(specs[j], before, after).value in r.entries
  {
    DriftReport(FilterMap(specs, s => SpecDrift(s, before, after)), before.commitHash, after.commitHash)
  }

  /** The report is clean exactly when no single spec drifted. */
  lemma DetectDriftCleanIff(specs: seq<TaskSpec>, before: CodebaseMap, after: CodebaseMap)
    ensures IsClean(DetectDrift(specs, before, after)) <==>
              forall j :: 0 <= j < |specs| ==> SpecDrift(specs[j], before, after).None?
  {
    FilterMapEmpty(specs, s => SpecDrift(s, before, after));
  }

  /** Checking two groups of specs at once gives the entries of each group, in order. */
  lemma DetectDriftConcat(a: seq<TaskSpec>, b: seq<TaskSpec>, before: CodebaseMap, after: CodebaseMap)
    ensures DetectDrift(a + b, before, after).entries
            == DetectDrift(a, before, after).entries + DetectDrift(b, before, after).entries
  {
    FilterMapConcat(a, b, s => SpecDrift(s, before, after));
  }

  /** Checking one spec reports its own drift entry, if it has one, and nothing else. */
  lemma DetectDriftOne(spec: TaskSpec, before: CodebaseMap, after: CodebaseMap)
    ensures DetectDrift([spec], before, after).entries ==
              if SpecDrift(spec, before, after).Some? then [SpecDrift(spec, before, after).value] else []
  {
    assert [spec][1..] == [];
    FilterMapEmpty([spec][1..], s => SpecDrift(s, before, after));
  }

  /** Any linkage checked against an unchanged module list has not drifted. */
  lemma UnchangedModulesNoSpecDrift(linkage: LinkageResult, before: CodebaseMap, after: CodebaseMap)
    requires before.modules == after.modules
    ensures CheckSpecDrift(linkage, before, after).None?
  {
    forall p | p in ResolvedPaths(linkage.links)
      ensures !ChangedAt(p, before, after) && !RemovedAt(p, before, after)
    {
    }
  }

  /** A codebase whose module list did not change shows no drift. */
  lemma UnchangedModulesNoDrift(specs: seq<TaskSpec>, before: CodebaseMap, after: CodebaseMap)
    requires before.modules == after.modules
    ensures IsClean(DetectDrift(specs, before, after))
  {
    DetectDriftCleanIff(specs, before, after);
    forall j | 0 <= j < |specs| ensures SpecDrift(specs[j], before, after).None? {
      UnchangedModulesNoSpecDrift(Resolve(specs[j], before), before, after);
    }
  }

  /** Every module drift reports as removed is also removed in the map diff. */
  lemma DriftRemovedInDiff(specs: seq<TaskSpec>, before: CodebaseMap, after: CodebaseMap)
    ensures forall e, p :: e in DetectDrift(specs, before, after).entries && p in e.removedModules ==>
              p in DiffMaps(before, after).removedModules
  {
  }

  /** Every path drift reports was resolved against the old map, so it names
      an old module. */
  lemma DriftPathsFromOldMap(spec: TaskSpec, before: CodebaseMap, after: CodebaseMap)
    ensures forall p :: p in ResolvedPaths(Resolve(spec, before).links) ==> p in Paths(before.modules)
  {
  }

  /** A module the map diff reports as changed is also drifted. */
  lemma DiffChangeIsDrift(p: string, before: CodebaseMap, after: CodebaseMap)
    requires FirstWithPath(before.modules, p).Some? && FirstWithPath(after.modules, p).Some?
    requires DiffModule(FirstWithPath(before.modules, p).value, FirstWithPath(after.modules, p).value).Some?
    ensures ChangedAt(p, before, after)
  {
  }

  /** The converse fails: reordering a module's items is drift, yet the map
      diff, which compares item sets, reports no change. */
  lemma ReorderIsDriftButNoDiff()
    ensures var before := CodebaseMap("a", "t", [ModuleSummary("src", ["fn a", "fn b"], [])], [], []);
            var after := CodebaseMap("b", "t", [ModuleSummary("src", ["fn b", "fn a"], [])], [], []);
            ChangedAt("src", before, after) && DiffModule(before.modules[0], after.modules[0]).None?
  {
    var o := ModuleSummary("src", ["fn a", "fn b"], []);
    var n := ModuleSummary("src", ["fn b", "fn a"], []);
    assert FirstWithPath([o], "src") == Some(o);
    assert FirstWithPath([n], "src") == Some(n);
    assert o.publicItems[0] != n.publicItems[0];
  }

  // ----- rendering -----

  function EntryLines(e: DriftEntry): seq<string> {
    ["  Spec: " + e.specId]
    + Prefixed("    [CHANGED] ", e.changedModules)
    + Prefixed("    [REMOVED] ", e.removedModules)
    + (if e.replanRecommended then ["    -> Re-planning recommended"] else [])
    + [""]
  }

  function EntriesLines(es: seq<DriftEntry>): (r: seq<string>)
    ensures forall k :: 0 <= k < |es| ==> "  Spec: " + es[k].specId in r
  {
    if |es| == 0 then []
    else
      assert forall k :: 1 <= k < |es| ==> es[k] == es[1..][k - 1];
      EntryLines(es[0]) + EntriesLines(es[1..])
  }

  /** The closing line: the number of affected specs, singular for one. */
  function SummaryLine(n: nat): string {
    NatToString(n) + (if n == 1 then " spec" else " specs") + " affected by drift."
  }

  function Header(r: DriftReport): string {
    "Drift detected (" + r.oldCommit + " -> " + r.newCommit + "):"
  }

  function ReportLines(r: DriftReport): seq<string> {
    [Header(r), ""] + EntriesLines(r.entries) + [SummaryLine(AffectedCount(r))]
  }

  /** `format_drift_report`: a one-sentence all-clear naming both commits,
      or a report that opens with the commits, names every drifted spec and
      closes with the count of affected specs. */
  function FormatDriftReport(r: DriftReport): (s: string)
    ensures IsClean(r) ==> s == "No drift detected between " + r.oldCommit + " and " + r.newCommit + "."
    ensures !IsClean(r) ==> StartsWith(s, Header(r)) && EndsWith(s, SummaryLine(AffectedCount(r)))
    ensures !IsClean(r) ==> forall k :: 0 <= k < |r.entries| ==> Contains(s, "  Spec: " + r.entries[k].specId)
    ensures StartsWith(s, "No drift") <==> IsClean(r)
  {
    if IsClean(r) then
      "No drift detected between " + r.oldCommit + " and " + r.newCommit + "."
    else
      var lines := ReportLines(r);
      JoinEnds(lines, "\n");
      FormatEntriesPresent(r);
      var s := Join(lines, "\n");
      assert s[..|Header(r)|] == Header(r);
      assert s[0] == 'D';
      s
  }

  lemma FormatEntriesPresent(r: DriftReport)
    ensures forall k :: 0 <= k < |r.entries| ==> Contains(Join(ReportLines(r), "\n"), "  Spec: " + r.entries[k].specId)
  {
    var lines := ReportLines(r);
    var body := EntriesLines(r.entries);
    forall k | 0 <= k < |r.entries| ensures Contains(Join(lines, "\n"), "  Spec: " + r.entries[k].specId) {
      var line := "  Spec: " + r.entries[k].specId;
      var i :| 0 <= i < |body| && body[i] == line;
      assert lines[2 + i] == line;
      JoinContainsPart(lines, "\n", 2 + i);
    }
  }

  /** The closing line says "spec" for exactly one affected spec. */
  lemma SummaryLineSingular(n: nat)
    ensures n == 1 ==> SummaryLine(n) == "1 spec affected by drift."
    ensures n != 1 ==> Contains(SummaryLine(n), " specs ")
  {
    if n == 1 {
      SummaryLineOne();
    } else {
      SummaryLinePlural(n);
    }
  }

  lemma SummaryLineOne()
    ensures SummaryLine(1) == "1 spec affected by drift."
  {
    NatToStringDigit(1);
    SingularText();
  }

  lemma SingularText()
    ensures "1" + " spec" + " affected by drift." == "1 spec affected by drift."
  {
  }

  lemma SummaryLinePlural(n: nat)
    requires n != 1
    ensures Contains(SummaryLine(n), " specs ")
  {
    var a := NatToString(n);
    ContainsAfterPrefix(a, " specs ", "affected by drift.");
    SpecsSplit(a);
  }

  lemma SpecsSplit(a: string)
    ensures a + " specs" + " affected by drift." == a + " specs " + "affected by drift."
  {
  }
}

=== FILE: feedback.dfy ===
/** Classification of validation failures (src/plan/feedback.rs): a failed
    executable check means the code must change, a drift warning or a check
    that needs manual review means the spec must. Spec flaws become proposed
    revisions for the next planning pass. */
module Feedback {
  import opened Base
  import opened Text
  import opened Validate

  datatype FailureType =
    | ImplementationFailure(fixHint: string)
    | SpecFlaw(revisionHint: string)

  datatype ClassifiedFailure = ClassifiedFailure(checkName: string, failureType: FailureType,
                                                 detail: string, expected: string, actual: string)

  datatype FeedbackClassification = FeedbackClassification(specId: string, failures: seq<ClassifiedFailure>)

  datatype SpecRevision = SpecRevision(specId: string, checkName: string, action: string)

  predicate IsImplementationFailure(f: ClassifiedFailure) { f.failureType.ImplementationFailure? }

  predicate IsSpecFlaw(f: ClassifiedFailure) { f.failureType.SpecFlaw? }

  /** `all_implementation_failures`: there is a failure, and every failure
      is the code's fault. */
  predicate AllImplementationFailures(c: FeedbackClassification) {
    |c.failures| > 0 && forall k :: 0 <= k < |c.failures| ==> IsImplementationFailure(c.failures[k])
  }

  /** `has_spec_flaws`: some failure is the spec's fault. */
  predicate HasSpecFlaws(c: FeedbackClassification) {
    exists k :: 0 <= k < |c.failures| && IsSpecFlaw(c.failures[k])
  }

  /** `implementation_failures`, in order. */
  function ImplementationFailures(c: FeedbackClassification): (r: seq<ClassifiedFailure>)
    ensures forall k :: 0 <= k < |r| ==> IsImplementationFailure(r[k]) && r[k] in c.failures
    ensures forall k :: 0 <= k < |c.failures| && IsImplementationFailure(c.failures[k]) ==> c.failures[k] in r
  {
    Filter(c.failures, IsImplementationFailure)
  }

  /** `spec_flaws`, in order. */
  function SpecFlaws(c: FeedbackClassification): (r: seq<ClassifiedFailure>)
    ensures forall k :: 0 <= k < |r| ==> IsSpecFlaw(r[k]) && r[k] in c.failures
    ensures forall k :: 0 <= k < |c.failures| && IsSpecFlaw(c.failures[k]) ==> c.failures[k] in r
  {
    Filter(c.failures, IsSpecFlaw)
  }

  /** Both filters work failure by failure, keeping the classification's
      order: a single failure is kept by exactly one of them, and the
      failures of two runs are kept run after run. */
  lemma FiltersInOrder(id: string, xs: seq<ClassifiedFailure>, ys: seq<ClassifiedFailure>, x: ClassifiedFailure)
    ensures var c, a, b := FeedbackClassification(id, xs + ys), FeedbackClassification(id, xs), FeedbackClassification(id, ys);
            ImplementationFailures(c) == ImplementationFailures(a) + ImplementationFailures(b)
            && SpecFlaws(c) == SpecFlaws(a) + SpecFlaws(b)
    ensures var one := FeedbackClassification(id, [x]);
            if IsImplementationFailure(x) then ImplementationFailures(one) == [x] && SpecFlaws(one) == []
            else ImplementationFailures(one) == [] && SpecFlaws(one) == [x]
  {
    FilterConcat(xs, ys, IsImplementationFailure);
    FilterConcat(xs, ys, IsSpecFlaw);
    assert [x][1..] == [];
  }

  /** The two filters split the failures: together they hold every failure
      exactly as often as the classification does. */
  lemma FiltersPartition(c: FeedbackClassification)
    ensures multiset(ImplementationFailures(c)) + multiset(SpecFlaws(c)) == multiset(c.failures)
    ensures |ImplementationFailures(c)| + |SpecFlaws(c)| == |c.failures|
  {
    FilterPartition(c.failures, IsImplementationFailure, IsSpecFlaw);
    FilterPartitionCount(c.failures, IsImplementationFailure, IsSpecFlaw);
  }

  /** There is a spec flaw exactly when the spec-flaw filter keeps something. */
  lemma HasSpecFlawsIff(c: FeedbackClassification)
    ensures HasSpecFlaws(c) <==> |SpecFlaws(c)| > 0
  {
    FilterEmpty(c.failures, IsSpecFlaw);
  }

  /** Every failure is the code's fault exactly when there are failures and
      none of them is a spec flaw; in particular the two verdicts exclude
      each other. */
  lemma AllImplementationIff(c: FeedbackClassification)
    ensures AllImplementationFailures(c) <==> |c.failures| > 0 && !HasSpecFlaws(c)
    ensures AllImplementationFailures(c) ==> |ImplementationFailures(c)| == |c.failures|
  {
    if AllImplementationFailures(c) {
      FilterAll(c.failures, IsImplementationFailure);
    }
  }

  // ----- hints -----

  const DriftWord: string := "drift"
  const ManualWord: string := "manual review"
  const CheckOpen: string := "Check '"
  const FailedOpen: string := "' failed (expected: "
  const GotOpen: string := ", got: "
  const FixAdvice: string := "). Fix the implementation to pass this check."
  const DriftOpen: string := "Codebase " + DriftWord + " detected for '"
  const DriftAdvice: string := "'. Run `speck plan` to update the spec against the current codebase."
  const ManualAdvice: string :=
    " and cannot be automated. Consider revising the verification strategy to use executable checks."
  const ManualClose: string := "' requires " + ManualWord + ManualAdvice

  /** The fix hint of a failed executable check: it names the check, then
      reports what was expected and what was got, and ends with the advice
      to fix the implementation. */
  function ImplementationHint(name: string, expected: string, actual: string): (s: string)
    ensures StartsWith(s, CheckOpen + name)
    ensures Contains(s, FailedOpen + expected) && Contains(s, GotOpen + actual)
    ensures EndsWith(s, FixAdvice)
  {
    HintParts(CheckOpen + name, FailedOpen, expected, GotOpen, actual, FixAdvice);
    CheckOpen + name + FailedOpen + expected + GotOpen + actual + FixAdvice
  }

  /** Where the parts of a six-part text sit in it. */
  lemma HintParts(a: string, b: string, c: string, d: string, e: string, f: string)
    ensures var s := a + b + c + d + e + f;
            StartsWith(s, a) && Contains(s, b + c) && Contains(s, d + e) && EndsWith(s, f)
  {
    var s := a + b + c + d + e + f;
    assert s == a + (b + c) + (d + e + f);
    ContainsAfterPrefix(a, b + c, d + e + f);
    assert s == a + b + c + (d + e) + f;
    ContainsAfterPrefix(a + b + c, d + e, f);
    assert s[|s| - |f|..] == f;
  }

  /** The revision hint of a drift warning: it names the check and mentions drift. */
  function DriftHint(name: string): (s: string)
    ensures Contains(s, DriftWord) && Contains(s, name)
  {
    ContainsAfterPrefix(DriftOpen, name, DriftAdvice);
    ContainsAfterPrefix("Codebase ", DriftWord, " detected for '");
    ContainsExtend(DriftOpen, DriftWord, "", name + DriftAdvice);
    assert "" + DriftOpen + (name + DriftAdvice) == DriftOpen + name + DriftAdvice;
    DriftOpen + name + DriftAdvice
  }

  /** The revision hint of a check that needs manual review: it names the
      check and says it needs manual review. */
  function ManualHint(name: string): (s: string)
    ensures StartsWith(s, CheckOpen + name) && Contains(s, ManualWord)
  {
    ContainsAfterPrefix("' requires ", ManualWord, ManualAdvice);
    ContainsExtend(ManualClose, ManualWord, CheckOpen + name, "");
    assert CheckOpen + name + ManualClose + "" == CheckOpen + name + ManualClose;
    CheckOpen + name + ManualClose
  }

  // ----- classification -----

  /** The classified form of one failed check: its name, detail, expected
      and actual copied, its category deciding whose fault it is. */
  function Classify(check: CheckResult): (f: ClassifiedFailure)
    ensures f.checkName == check.name && f.detail == check.detail
    ensures f.expected == check.expected && f.actual == check.actual
    ensures IsImplementationFailure(f) <==> check.category == Executable
    ensures check.category == Executable ==>
              f.failureType == ImplementationFailure(ImplementationHint(check.name, check.expected, check.actual))
    ensures check.category == Drift ==> f.failureType == SpecFlaw(DriftHint(check.name))
    ensures check.category == ManualReview ==> f.failureType == SpecFlaw(ManualHint(check.name))
  {
    var failureType :=
      match check.category
      case Executable => ImplementationFailure(ImplementationHint(check.name, check.expected, check.actual))
      case Drift => SpecFlaw(DriftHint(check.name))
      case ManualReview => SpecFlaw(ManualHint(check.name));
    ClassifiedFailure(check.name, failureType, check.detail, check.expected, check.actual)
  }

  /** `classify_failures`: one classified failure per failed check, in order,
      under the result's spec id. */
  function ClassifyFailures(r: ValidationResult): (c: FeedbackClassification)
    ensures c.specId == r.specId
    ensures |c.failures| == |FailedChecks(r)|
    ensures forall k :: 0 <= k < |c.failures| ==> c.failures[k] == Classify(FailedChecks(r)[k])
  {
    var failed := FailedChecks(r);
    FeedbackClassification(r.specId, seq(|failed|, k requires 0 <= k < |failed| => Classify(failed[k])))
  }

  /** Nothing is classified exactly when every check passed. */
  lemma ClassifyEmptyIffPassed(r: ValidationResult)
    ensures |ClassifyFailures(r).failures| == 0 <==> Passed(r)
  {
    PassedIffNoFailures(r);
  }

  /** The agent should simply iterate on the code exactly when some check
      failed and every failed check was executable. */
  lemma ClassifyAllImplementationIff(r: ValidationResult)
    ensures AllImplementationFailures(ClassifyFailures(r)) <==>
              !Passed(r) && forall k :: 0 <= k < |r.checks| && !r.checks[k].passed ==> r.checks[k].category == Executable
  {
    var c := ClassifyFailures(r);
    var failed := FailedChecks(r);
    PassedIffNoFailures(r);
    if AllImplementationFailures(c) {
      forall k | 0 <= k < |r.checks| && !r.checks[k].passed ensures r.checks[k].category == Executable {
        var j :| 0 <= j < |failed| && failed[j] == r.checks[k];
        assert IsImplementationFailure(c.failures[j]);
      }
    }
  }

  /** A spec flaw is found exactly when some failed check was a drift warning
      or needed manual review. */
  lemma ClassifyHasSpecFlawsIff(r: ValidationResult)
    ensures HasSpecFlaws(ClassifyFailures(r)) <==>
              exists k :: 0 <= k < |r.checks| && !r.checks[k].passed && r.checks[k].category != Executable
  {
    var c := ClassifyFailures(r);
    if HasSpecFlaws(c) {
      var j :| 0 <= j < |c.failures| && IsSpecFlaw(c.failures[j]);
      SpecFlawFromCheck(r, j);
    }
    if exists k :: 0 <= k < |r.checks| && !r.checks[k].passed && r.checks[k].category != Executable {
      var k :| 0 <= k < |r.checks| && !r.checks[k].passed && r.checks[k].category != Executable;
      SpecFlawOfCheck(r, k);
    }
  }

  /** A failed check that was not executable yields a spec flaw. */
  lemma SpecFlawOfCheck(r: ValidationResult, k: int)
    requires 0 <= k < |r.checks| && !r.checks[k].passed && r.checks[k].category != Executable
    ensures HasSpecFlaws(ClassifyFailures(r))
  {
    var c := ClassifyFailures(r);
    var failed := FailedChecks(r);
    var j :| 0 <= j < |failed| && failed[j] == r.checks[k];
    assert c.failures[j] == Classify(failed[j]);
    assert IsSpecFlaw(c.failures[j]);
  }

  /** A spec flaw comes from a failed check that was not executable. */
  lemma SpecFlawFromCheck(r: ValidationResult, j: int)
    requires 0 <= j < |ClassifyFailures(r).failures| && IsSpecFlaw(ClassifyFailures(r).failures[j])
    ensures exists k :: 0 <= k < |r.checks| && !r.checks[k].passed && r.checks[k].category != Executable
  {
    var failed := FailedChecks(r);
    assert ClassifyFailures(r).failures[j] == Classify(failed[j]);
    assert failed[j] in r.checks;
    var k :| 0 <= k < |r.checks| && r.checks[k] == failed[j];
    assert !r.checks[k].passed && r.checks[k].category != Executable;
  }

  // ----- revisions -----

  /** `propose_revisions`: one revision per spec flaw, in order, carrying
      the classification's spec id, the check's name and its revision hint.
      Only spec flaws are visited, so every hint is a revision hint. */
  function ProposeRevisions(c: FeedbackClassification): (rs: seq<SpecRevision>)
    ensures |rs| == |SpecFlaws(c)|
    ensures forall k :: 0 <= k < |rs| ==>
              rs[k].specId == c.specId && rs[k].checkName == SpecFlaws(c)[k].checkName
              && SpecFlaws(c)[k].failureType == SpecFlaw(rs[k].action)
  {
    var flaws := SpecFlaws(c);
    seq(|flaws|, k requires 0 <= k < |flaws| =>
      SpecRevision(c.specId, flaws[k].checkName, flaws[k].failureType.revisionHint))
  }

  /** Revisions are proposed exactly when there is a spec flaw, so never
      when every failure is the code's fault. */
  lemma ProposeRevisionsIff(c: FeedbackClassification)
    ensures |ProposeRevisions(c)| > 0 <==> HasSpecFlaws(c)
    ensures AllImplementationFailures(c) ==> |ProposeRevisions(c)| == 0
  {
    HasSpecFlawsIff(c);
    AllImplementationIff(c);
  }

  /** Every revision proposed after classifying a validation result says
      why: the check drifted, or it needs manual review; and it names the
      check. */
  lemma RevisionsExplainThemselves(r: ValidationResult, k: int)
    requires 0 <= k < |ProposeRevisions(ClassifyFailures(r))|
    ensures var rev := ProposeRevisions(ClassifyFailures(r))[k];
            rev.specId == r.specId
            && (rev.action == DriftHint(rev.checkName) || rev.action == ManualHint(rev.checkName))
            && (Contains(rev.action, DriftWord) || Contains(rev.action, ManualWord))
  {
    var c := ClassifyFailures(r);
    var flaw := SpecFlaws(c)[k];
    var j :| 0 <= j < |c.failures| && c.failures[j] == flaw;
    var check := FailedChecks(r)[j];
    assert c.failures[j] == Classify(check);
  }
}

=== FILE: generator.dfy ===
/** Codebase map generation (src/map/generator.rs): module boundaries are
    directories holding `mod.rs` or `lib.rs`; a module's public items and
    crate-internal dependencies are read line by line from the Rust files
    directly inside it. The git queries, the clock and file reads are
    parameters; YAML serialisation is not modelled. */
module Generator {
  import opened Base
  import opened Text
  import opened Order
  import opened CodeMap

  /** Where the map is written, relative to the project root. */
  const MapOutputPath: string := ".spec-cache/codebase_map.yaml"

  /** The last component of a `/`-separated path. */
  function FileName(path: string): string {
    AfterLast(path, '/')
  }

  /** `is_test_file`: test-looking file names and files under test directories. */
  predicate IsTestFile(path: string) {
    var name := FileName(path);
    StartsWith(name, "test_")
    || EndsWith(name, "_test.rs")
    || EndsWith(name, "_tests.rs")
    || Contains(path, "/tests/")
    || Contains(path, "/test/")
    || StartsWith(path, "tests/")
  }

  /** The name of `dir/name` is `name`. */
  lemma FileNameOf(dir: string, name: string)
    requires '/' !in name
    ensures FileName(dir + "/" + name) == name
  {
    SplitAtLast(dir, name, '/');
  }

  /** A file whose name looks like a test is a test file wherever it lives. */
  lemma TestFileByName(dir: string, name: string)
    requires '/' !in name
    requires StartsWith(name, "test_") || EndsWith(name, "_test.rs") || EndsWith(name, "_tests.rs")
    ensures IsTestFile(dir + "/" + name) && IsTestFile(name)
  {
    FileNameOf(dir, name);
    AfterLastAbsent(name, '/');
  }

  /** Every marker contains a `t`, so a path without one is never a test file. */
  lemma NotTestFileWithoutT(path: string)
    requires 't' !in path
    ensures !IsTestFile(path)
  {
    NameWithoutT(path);
    NoMarkerWithoutT(FileName(path));
    NoMarkerWithoutT(path);
  }

  /** A name taken from a path has only the path's characters. */
  lemma NameWithoutT(path: string)
    requires 't' !in path
    ensures 't' !in FileName(path)
  {
    var name := FileName(path);
    assert name == path[|path| - |name|..];
  }

  /** No test marker occurs in a text without a `t`. */
  lemma NoMarkerWithoutT(s: string)
    requires 't' !in s
    ensures !StartsWith(s, "test_") && !EndsWith(s, "_test.rs") && !EndsWith(s, "_tests.rs")
    ensures !Contains(s, "/tests/") && !Contains(s, "/test/") && !StartsWith(s, "tests/")
  {
    NotContainsMissingChar(s, "test_", 0);
    NotContainsMissingChar(s, "_test.rs", 1);
    NotContainsMissingChar(s, "_tests.rs", 1);
    NotContainsMissingChar(s, "/tests/", 1);
    NotContainsMissingChar(s, "/test/", 1);
    NotContainsMissingChar(s, "tests/", 0);
  }

  lemma ExampleUnderTests()
    ensures IsTestFile("tests/integration.rs")
  {
  }

  lemma ExampleTestSuffix()
    ensures IsTestFile("src/foo_test.rs")
  {
    assert "src/foo_test.rs" == "src" + "/" + "foo_test.rs";
    TestFileByName("src", "foo_test.rs");
  }

  lemma ExampleTestsSuffix()
    ensures IsTestFile("src/foo_tests.rs")
  {
    assert "src/foo_tests.rs" == "src" + "/" + "foo_tests.rs";
    TestFileByName("src", "foo_tests.rs");
  }

  lemma ExampleTestPrefix()
    ensures IsTestFile("test_helper.rs")
  {
    TestFileByName("", "test_helper.rs");
  }

  /** The paths the source's own test lists as test files. */
  lemma IsTestFileExamples()
    ensures IsTestFile("tests/integration.rs")
    ensures IsTestFile("src/foo_test.rs")
    ensures IsTestFile("src/foo_tests.rs")
    ensures IsTestFile("test_helper.rs")
  {
    ExampleUnderTests();
    ExampleTestSuffix();
    ExampleTestsSuffix();
    ExampleTestPrefix();
  }

  /** The paths the source's own test lists as not being test files. */
  lemma IsTestFileCounterExamples()
    ensures !IsTestFile("src/main.rs")
    ensures !IsTestFile("src/map/mod.rs")
  {
    NotTestFileWithoutT("src/main.rs");
    NotTestFileWithoutT("src/map/mod.rs");
  }

  /** The directory of a `mod.rs` or `lib.rs` file; nothing for other files
      and for such a file at the top level (no `/`). */
  function ModuleRootOf(file: string): (r: Option<string>)
    ensures r.Some? ==> file == r.value + "/" + FileName(file)
    ensures r.Some? <==> (FileName(file) == "mod.rs" || FileName(file) == "lib.rs") && '/' in file
  {
    var name := FileName(file);
    if name == "mod.rs" || name == "lib.rs" then BeforeLast(file, '/') else None
  }

  /** `find_module_roots`: the distinct module directories, sorted. */
  function FindModuleRoots(files: seq<string>): (r: seq<string>)
    ensures StrictlySorted(r)
    ensures forall d :: d in r <==> exists k :: 0 <= k < |files| && ModuleRootOf(files[k]) == Some(d)
  {
    SortDedup(FilterMap(files, ModuleRootOf))
  }

  /** The roots depend only on which files are listed, not on their order
      or repetition. */
  lemma FindModuleRootsSameFiles(a: seq<string>, b: seq<string>)
    requires forall f :: f in a <==> f in b
    ensures FindModuleRoots(a) == FindModuleRoots(b)
  {
    var ra, rb := FindModuleRoots(a), FindModuleRoots(b);
    forall d ensures d in ra <==> d in rb {
      if d in ra {
        var k :| 0 <= k < |a| && ModuleRootOf(a[k]) == Some(d);
        assert a[k] in b;
      }
      if d in rb {
        var k :| 0 <= k < |b| && ModuleRootOf(b[k]) == Some(d);
        assert b[k] in a;
      }
    }
    SortedUnique(ra, rb);
  }

  /** A file `dir/name` marks `dir` as a module root exactly when its name
      is `mod.rs` or `lib.rs`. */
  lemma ModuleRootOfSplit(dir: string, name: string)
    requires '/' !in name
    ensures ModuleRootOf(dir + "/" + name) == if name == "mod.rs" || name == "lib.rs" then Some(dir) else None
  {
    SplitAtLast(dir, name, '/');
  }

  // ----- which files belong to a module -----

  /** Rust's `Path::extension` for a file name without `/`: the text after
      the last `.`, when that `.` is not the name's first character. */
  function Extension(name: string): (r: Option<string>)
    ensures r.Some? <==> name != ".." && exists k :: 0 < k < |name| && name[k] == '.'
    ensures r.Some? ==> EndsWith(name, "." + r.value) && |r.value| + 1 < |name|
    ensures r.Some? ==> '.' !in r.value
  {
    match LastIndexOf(name, '.')
    case None => None
    case Some(k) => if k == 0 || name == ".." then None else Some(name[k + 1..])
  }

  /** A Rust source file directly inside directory `modulePath`. */
  predicate InModule(modulePath: string, file: string) {
    var prefix := modulePath + "/";
    StartsWith(file, prefix)
    && (var rest := file[|prefix|..];
        '/' !in rest
        && var ext := Extension(rest);
        ext.Some? && Lower(ext.value) == "rs")
  }

  // ----- line scanners -----

  /** The public item a line declares, if it is a `pub fn`, `pub struct` or `pub trait`. */
  function LineItem(line: string): (r: Option<string>)
    ensures r.Some? <==> StartsWith(Trim(line), "pub fn ") || StartsWith(Trim(line), "pub struct ")
                         || StartsWith(Trim(line), "pub trait ")
    ensures r.Some? ==> StartsWith(r.value, "fn ") || StartsWith(r.value, "struct ") || StartsWith(r.value, "trait ")
  {
    var t := Trim(line);
    if StartsWith(t, "pub fn ") then
      var name := TakeUntilAny(t[7..], {'('});
      assert ("fn " + name)[..3] == "fn ";
      Some("fn " + name)
    else if StartsWith(t, "pub struct ") then
      var name := TakeUntilAny(t[11..], {' ', '{', '(', '<'});
      assert ("struct " + name)[..7] == "struct ";
      Some("struct " + name)
    else if StartsWith(t, "pub trait ") then
      var name := TakeUntilAny(t[10..], {' ', '{', '<', ':'});
      assert ("trait " + name)[..6] == "trait ";
      Some("trait " + name)
    else None
  }

  /** `pub fn name(...` declares `fn name`. */
  lemma LineItemFn(line: string, name: string, tail: string)
    requires Trim(line) == "pub fn " + name + "(" + tail
    requires '(' !in name
    ensures LineItem(line) == Some("fn " + name)
  {
    assert Trim(line)[7..] == name + "(" + tail;
    TakeUntilAnyOf(name, '(', tail, {'('});
  }

  /** `pub struct Name` followed by a space, `{`, `(` or `<` declares `struct Name`. */
  lemma LineItemStruct(line: string, name: string, stop: char, tail: string)
    requires Trim(line) == "pub struct " + name + [stop] + tail
    requires stop in {' ', '{', '(', '<'}
    requires forall i :: 0 <= i < |name| ==> name[i] !in {' ', '{', '(', '<'}
    ensures LineItem(line) == Some("struct " + name)
  {
    assert !StartsWith(Trim(line), "pub fn ") by {
      assert Trim(line)[4] == 's';
    }
    assert Trim(line)[11..] == name + [stop] + tail;
    TakeUntilAnyOf(name, stop, tail, {' ', '{', '(', '<'});
  }

  /** `pub trait Name` followed by a space, `{`, `<` or `:` declares `trait Name`. */
  lemma LineItemTrait(line: string, name: string, stop: char, tail: string)
    requires Trim(line) == "pub trait " + name + [stop] + tail
    requires stop in {' ', '{', '<', ':'}
    requires forall i :: 0 <= i < |name| ==> name[i] !in {' ', '{', '<', ':'}
    ensures LineItem(line) == Some("trait " + name)
  {
    assert !StartsWith(Trim(line), "pub fn ") && !StartsWith(Trim(line), "pub struct ") by {
      assert Trim(line)[4] == 't';
    }
    assert Trim(line)[10..] == name + [stop] + tail;
    TakeUntilAnyOf(name, stop, tail, {' ', '{', '<', ':'});
  }

  /** The crate-internal module a `use crate::` line names. */
  function LineDependency(line: string): (r: Option<string>)
    ensures r.Some? <==> StartsWith(Trim(line), "use crate::")
    ensures r.Some? ==> |r.value| == 0 || r.value[|r.value| - 1] != ';'
  {
    var t := Trim(line);
    if StartsWith(t, "use crate::") then Some(TrimEndChar(BeforeFirst(t[11..], "::"), ';')) else None
  }

  /** `use crate::m::...` names module `m`. */
  lemma LineDependencyPath(line: string, m: string, tail: string)
    requires ':' !in m && ';' !in m
    requires Trim(line) == "use crate::" + m + "::" + tail
    ensures LineDependency(line) == Some(m)
  {
    assert Trim(line)[11..] == m + "::" + tail;
    BeforeFirstOf(m, "::", tail);
    assert |m| == 0 || m[|m| - 1] in m;
  }

  /** `use crate::m;` names module `m` as well. */
  lemma LineDependencyModule(line: string, m: string)
    requires ':' !in m && ';' !in m
    requires Trim(line) == "use crate::" + m + ";"
    ensures LineDependency(line) == Some(m)
  {
    assert Trim(line)[11..] == m + ";";
    assert ':' !in m + ";";
    BeforeFirstOf(m + ";", "::", "");
    assert (m + ";")[..|m|] == m;
    assert |m| == 0 || m[|m| - 1] in m;
  }

  /** The loop of `extract_public_items` over the lines of a file: appends,
      in line order, the item of every declaring line; what was already
      collected is kept. */
  function ScanItems(lines: seq<string>, items: seq<string>): (r: seq<string>)
    ensures |items| <= |r| && r[..|items|] == items
    ensures forall x :: x in r <==> x in items || exists j :: 0 <= j < |lines| && LineItem(lines[j]) == Some(x)
  {
    var found := FilterMap(lines, LineItem);
    assert forall x :: x in found ==> exists j :: 0 <= j < |lines| && LineItem(lines[j]) == Some(x) by {
      forall x | x in found ensures exists j :: 0 <= j < |lines| && LineItem(lines[j]) == Some(x) {
        var k :| 0 <= k < |found| && found[k] == x;
      }
    }
    items + found
  }

  /** `extract_public_items`: scans `content.lines()`. */
  function ExtractPublicItems(content: string, items: seq<string>): seq<string> {
    ScanItems(Lines(content), items)
  }

  /** Everything appended is a function, a struct or a trait. */
  lemma ScannedItemKinds(lines: seq<string>, items: seq<string>)
    ensures var r := ScanItems(lines, items);
            forall k :: |items| <= k < |r| ==>
              StartsWith(r[k], "fn ") || StartsWith(r[k], "struct ") || StartsWith(r[k], "trait ")
  {
    var r := ScanItems(lines, items);
    var found := FilterMap(lines, LineItem);
    assert r == items + found;
    forall k | |items| <= k < |r|
      ensures StartsWith(r[k], "fn ") || StartsWith(r[k], "struct ") || StartsWith(r[k], "trait ")
    {
      assert r[k] == found[k - |items|];
    }
  }

  /** The loop of `extract_dependencies` over the lines of a file: appends, in
      line order, the module of every `use crate::` line; what was already
      collected is kept. */
  function ScanDependencies(lines: seq<string>, deps: seq<string>): (r: seq<string>)
    ensures |deps| <= |r| && r[..|deps|] == deps
    ensures forall x :: x in r <==> x in deps || exists j :: 0 <= j < |lines| && LineDependency(lines[j]) == Some(x)
  {
    var found := FilterMap(lines, LineDependency);
    assert forall x :: x in found ==> exists j :: 0 <= j < |lines| && LineDependency(lines[j]) == Some(x) by {
      forall x | x in found ensures exists j :: 0 <= j < |lines| && LineDependency(lines[j]) == Some(x) {
        var k :| 0 <= k < |found| && found[k] == x;
      }
    }
    deps + found
  }

  /** `extract_dependencies`: scans `content.lines()`. */
  function ExtractDependencies(content: string, deps: seq<string>): seq<string> {
    ScanDependencies(Lines(content), deps)
  }

  /** One dependency is appended per `use crate::` line. */
  lemma ScanDependenciesCount(lines: seq<string>, deps: seq<string>)
    ensures |ScanDependencies(lines, deps)| - |deps| == |Filter(lines, IsUseCrate)|
  {
    FilterMapCount(lines, LineDependency, IsUseCrate);
  }

  /** A line that imports from the crate itself. */
  predicate IsUseCrate(line: string) {
    StartsWith(Trim(line), "use crate::")
  }

  // ----- module summaries -----

  /** The items of one file; nothing when it cannot be read (is absent from `contents`). */
  function FileItems(contents: map<string, string>, file: string): seq<string> {
    if file in contents then ExtractPublicItems(contents[file], []) else []
  }

  /** The dependencies of one file; nothing when it cannot be read. */
  function FileDependencies(contents: map<string, string>, file: string): seq<string> {
    if file in contents then ExtractDependencies(contents[file], []) else []
  }

  /** The files of one module, in listing order. */
  function ModuleFiles(modulePath: string, allFiles: seq<string>): (r: seq<string>)
    ensures forall f :: f in r <==> f in allFiles && InModule(modulePath, f)
  {
    Filter(allFiles, f => InModule(modulePath, f))
  }

  /** `x` is an item of a readable Rust file of the module. */
  predicate ModuleItem(modulePath: string, allFiles: seq<string>, contents: map<string, string>, x: string) {
    var files := ModuleFiles(modulePath, allFiles);
    exists k :: 0 <= k < |files| && x in FileItems(contents, files[k])
  }

  /** `x` is a dependency of a readable Rust file of the module. */
  predicate ModuleDependency(modulePath: string, allFiles: seq<string>, contents: map<string, string>, x: string) {
    var files := ModuleFiles(modulePath, allFiles);
    exists k :: 0 <= k < |files| && x in FileDependencies(contents, files[k])
  }

  /** `build_module_summary`: the module's items and dependencies from its
      readable files, each list sorted and without repeats. */
  function BuildModuleSummary(modulePath: string, allFiles: seq<string>, contents: map<string, string>): (r: ModuleSummary)
    ensures r.path == modulePath
    ensures StrictlySorted(r.publicItems) && StrictlySorted(r.dependencies)
    ensures forall x :: x in r.publicItems <==> ModuleItem(modulePath, allFiles, contents, x)
    ensures forall x :: x in r.dependencies <==> ModuleDependency(modulePath, allFiles, contents, x)
  {
    var files := ModuleFiles(modulePath, allFiles);
    var items := FlatMap(files, f => FileItems(contents, f));
    var deps := FlatMap(files, f => FileDependencies(contents, f));
    forall x ensures x in items <==> ModuleItem(modulePath, allFiles, contents, x) {
      FlatMapIn(files, f => FileItems(contents, f), x);
    }
    forall x ensures x in deps <==> ModuleDependency(modulePath, allFiles, contents, x) {
      FlatMapIn(files, f => FileDependencies(contents, f), x);
    }
    ModuleSummary(modulePath, SortDedup(items), SortDedup(deps))
  }

  /** A module's summary does not depend on the order in which files are listed. */
  lemma BuildModuleSummarySameFiles(modulePath: string, a: seq<string>, b: seq<string>, contents: map<string, string>)
    requires forall f :: f in a <==> f in b
    ensures BuildModuleSummary(modulePath, a, contents) == BuildModuleSummary(modulePath, b, contents)
  {
    var ra, rb := BuildModuleSummary(modulePath, a, contents), BuildModuleSummary(modulePath, b, contents);
    SortedUnique(ra.publicItems, rb.publicItems);
    SortedUnique(ra.dependencies, rb.dependencies);
  }

  // ----- the whole map -----

  /** The summaries of the given module roots, in order. */
  function Summaries(roots: seq<string>, files: seq<string>, contents: map<string, string>): (r: seq<ModuleSummary>)
    ensures |r| == |roots|
    ensures forall k :: 0 <= k < |roots| ==> r[k] == BuildModuleSummary(roots[k], files, contents)
  {
    seq(|roots|, k requires 0 <= k < |roots| => BuildModuleSummary(roots[k], files, contents))
  }

  /** The map `generate` builds from the commit, the clock reading, the file
      listing and the readable files' contents: module summaries in path
      order, one per module root, the listing itself and its test files. */
  function AssembleMap(commit: string, now: string, files: seq<string>, contents: map<string, string>): (r: CodebaseMap)
    ensures r.commitHash == commit && r.generatedAt == now && r.directoryTree == files
    ensures Paths(r.modules) == FindModuleRoots(files)
    ensures UniquePaths(r.modules)
    ensures forall k :: 0 <= k < |r.modules| ==> StrictlySorted(r.modules[k].publicItems)
    ensures forall k :: 0 <= k < |r.modules| ==>
              r.modules[k] == BuildModuleSummary(FindModuleRoots(files)[k], files, contents)
    ensures forall f :: f in r.testInfrastructure <==> f in files && IsTestFile(f)
  {
    var roots := FindModuleRoots(files);
    var modules := Summaries(roots, files, contents);
    forall i, j | 0 <= i < j < |modules| ensures modules[i].path != modules[j].path {
      SortedDistinct(roots, i, j);
    }
    CodebaseMap(commit, now, modules, files, Filter(files, IsTestFile))
  }

  /** `generate`: fails with the source's messages when the commit or the
      listing cannot be obtained or the map cannot be written to
      `<root>/.spec-cache/codebase_map.yaml`; otherwise the assembled map. */
  function Generate(root: string, commit: Result<string>, now: string, files: Result<seq<string>>,
                    contents: map<string, string>, writeError: Option<string>): (r: Result<CodebaseMap>)
    ensures commit.Err? ==> r == Err("failed to get current commit: " + commit.msg)
    ensures commit.Ok? && files.Err? ==> r == Err("failed to list files: " + files.msg)
    ensures commit.Ok? && files.Ok? && writeError.Some? ==>
              r == Err("failed to write map to " + JoinPath(root, MapOutputPath) + ": " + writeError.value)
    ensures r.Ok? <==> commit.Ok? && files.Ok? && writeError.None?
    ensures r.Ok? ==> r.value.commitHash == commit.value && r.value.directoryTree == files.value
                      && UniquePaths(r.value.modules)
    ensures r.Ok? ==> r.value == AssembleMap(commit.value, now, files.value, contents)
  {
    if commit.Err? then Err("failed to get current commit: " + commit.msg)
    else if files.Err? then Err("failed to list files: " + files.msg)
    else if writeError.Some? then
      Err("failed to write map to " + JoinPath(root, MapOutputPath) + ": " + writeError.value)
    else Ok(AssembleMap(commit.value, now, files.value, contents))
  }
}

=== FILE: json.dfy ===
/** The part of `serde_json::Value` the modelled code inspects. Numbers are
    integers only; floating-point values are not modelled. */
module Json {
  import opened Base

  datatype Json =
    | JNull
    | JBool(b: bool)
    | JInt(i: int)
    | JStr(s: string)
    | JArr(items: seq<Json>)
    | JObj(fields: map<string, Json>)

  const I64Min: int := -0x8000_0000_0000_0000
  const I64Max: int := 0x7fff_ffff_ffff_ffff

  /** `value.get(key)`: the field of an object; `None` for a missing key and
      for every value that is not an object. */
  function Get(v: Json, key: string): (r: Option<Json>)
    ensures r.Some? <==> v.JObj? && key in v.fields
    ensures r.Some? ==> r.value == v.fields[key]
  {
    if v.JObj? && key in v.fields then Some(v.fields[key]) else None
  }

  /** `value.as_str()`. */
  function AsStr(v: Json): (r: Option<string>)
    ensures r.Some? <==> v.JStr?
    ensures r.Some? ==> r.value == v.s
  {
    if v.JStr? then Some(v.s) else None
  }

  /** `value.as_bool()`. */
  function AsBool(v: Json): (r: Option<bool>)
    ensures r.Some? <==> v.JBool?
    ensures r.Some? ==> r.value == v.b
  {
    if v.JBool? then Some(v.b) else None
  }

  /** `value.as_i64()`: an integer that fits a signed 64-bit word. */
  function AsI64(v: Json): (r: Option<int>)
    ensures r.Some? <==> v.JInt? && I64Min <= v.i <= I64Max
    ensures r.Some? ==> r.value == v.i
  {
    if v.JInt? && I64Min <= v.i <= I64Max then Some(v.i) else None
  }

  /** `value.as_array()`. */
  function AsArray(v: Json): (r: Option<seq<Json>>)
    ensures r.Some? <==> v.JArr?
    ensures r.Some? ==> r.value == v.items
  {
    if v.JArr? then Some(v.items) else None
  }

  /** A list of strings as serde writes it: an array of the same strings. */
  function StringsJson(xs: seq<string>): (j: Json)
    ensures j.JArr? && |j.items| == |xs|
    ensures forall i :: 0 <= i < |xs| ==> j.items[i] == JStr(xs[i])
  {
    JArr(seq(|xs|, i requires 0 <= i < |xs| => JStr(xs[i])))
  }
}

=== FILE: order.dfy ===
/** Rust's ordering on `String` (lexicographic by character) and the
    `sort(); dedup();` idiom, which produces the strictly increasing
    enumeration of a collection's distinct elements. */
module Order {

  /** `a` sorts strictly before `b`: a proper prefix, or smaller at the
      first differing character. */
  predicate LexLess(a: string, b: string) {
    if |a| == 0 then |b| > 0
    else if |b| == 0 then false
    else if a[0] != b[0] then a[0] < b[0]
    else LexLess(a[1..], b[1..])
  }

  lemma {:induction false} LexIrreflexive(a: string)
    ensures !LexLess(a, a)
  {
    if |a| > 0 {
      LexIrreflexive(a[1..]);
    }
  }

  lemma {:induction false} LexTransitive(a: string, b: string, c: string)
    requires LexLess(a, b) && LexLess(b, c)
    ensures LexLess(a, c)
  {
    if |a| > 0 && a[0] == b[0] && b[0] == c[0] {
      LexTransitive(a[1..], b[1..], c[1..]);
    }
  }

  /** Any two different strings are ordered one way, and only one way. */
  lemma {:induction false} LexTotal(a: string, b: string)
    ensures a != b <==> LexLess(a, b) || LexLess(b, a)
    ensures !(LexLess(a, b) && LexLess(b, a))
  {
    if |a| == 0 || |b| == 0 {
    } else if a[0] != b[0] {
    } else {
      LexTotal(a[1..], b[1..]);
      assert a == [a[0]] + a[1..] && b == [b[0]] + b[1..];
    }
  }

  predicate StrictlySorted(s: seq<string>) {
    forall i, j :: 0 <= i < j < |s| ==> LexLess(s[i], s[j])
  }

  lemma SortedDistinct(s: seq<string>, i: int, j: int)
    requires StrictlySorted(s) && 0 <= i < j < |s|
    ensures s[i] != s[j]
  {
    LexIrreflexive(s[i]);
  }

  /** The first element of a strictly sorted sequence is its least. */
  lemma SortedHeadLeast(s: seq<string>, y: string)
    requires StrictlySorted(s) && y in s
    ensures y == s[0] || LexLess(s[0], y)
  {
  }

  /** `x` placed into a strictly sorted `s`, unless already present. */
  function Insert(s: seq<string>, x: string): (r: seq<string>)
    requires StrictlySorted(s)
    ensures StrictlySorted(r)
    ensures forall y :: y in r <==> y in s || y == x
  {
    if |s| == 0 then [x]
    else if s[0] == x then s
    else if LexLess(x, s[0]) then
      assert forall j :: 0 <= j < |s| ==> LexLess(x, s[j]) by {
        forall j | 0 <= j < |s| ensures LexLess(x, s[j]) {
          if j > 0 { LexTransitive(x, s[0], s[j]); }
        }
      }
      [x] + s
    else
      LexTotal(x, s[0]);
      var t := Insert(s[1..], x);
      assert forall j :: 0 <= j < |t| ==> LexLess(s[0], t[j]) by {
        forall j | 0 <= j < |t| ensures LexLess(s[0], t[j]) {
          if t[j] != x {
            assert t[j] in t;
            assert t[j] in s[1..];
            var k :| 0 <= k < |s[1..]| && s[1..][k] == t[j];
            assert s[k + 1] == t[j];
          }
        }
      }
      [s[0]] + t
  }

  /** Rust's `v.sort(); v.dedup();`: the distinct elements of `s` in
      increasing order. */
  function SortDedup(s: seq<string>): (r: seq<string>)
    ensures StrictlySorted(r)
    ensures forall y :: y in r <==> y in s
  {
    if |s| == 0 then [] else Insert(SortDedup(s[..|s| - 1]), s[|s| - 1])
  }

  /** A strictly sorted sequence is determined by its elements, so
      `SortDedup` is the one and only sorted enumeration of a set. */
  lemma {:induction false} SortedUnique(a: seq<string>, b: seq<string>)
    requires StrictlySorted(a) && StrictlySorted(b)
    requires forall y :: y in a <==> y in b
    ensures a == b
  {
    if |a| > 0 { assert a[0] in b; }
    if |b| > 0 { assert b[0] in a; }
    if |a| > 0 {
      SortedHeadLeast(a, b[0]);
      SortedHeadLeast(b, a[0]);
      LexTotal(a[0], b[0]);
      forall y ensures y in a[1..] <==> y in b[1..] {
        if y in a[1..] {
          var k :| 1 <= k < |a| && a[k] == y;
          SortedDistinct(a, 0, k);
          assert y in b;
        }
        if y in b[1..] {
          var k :| 1 <= k < |b| && b[k] == y;
          SortedDistinct(b, 0, k);
          assert y in a;
        }
      }
      SortedUnique(a[1..], b[1..]);
      assert a == [a[0]] + a[1..] && b == [b[0]] + b[1..];
    }
  }

  /** Sorting and de-duplicating depends only on which elements occur. */
  lemma SortDedupSameElements(a: seq<string>, b: seq<string>)
    requires forall y :: y in a <==> y in b
    ensures SortDedup(a) == SortDedup(b)
  {
    SortedUnique(SortDedup(a), SortDedup(b));
  }

  /** Distinct elements of a strictly sorted sequence occur once each, so its
      length is the number of distinct elements. */
  lemma {:induction false} SortedCard(s: seq<string>)
    requires StrictlySorted(s)
    ensures |set y | y in s| == |s|
  {
    if |s| > 0 {
      SortedCard(s[1..]);
      assert s[0] !in s[1..] by {
        forall k | 1 <= k < |s| ensures s[k] != s[0] { SortedDistinct(s, 0, k); }
      }
      assert (set y | y in s) == (set y | y in s[1..]) + {s[0]};
    }
  }
}

=== FILE: ports.dfy ===
/** Values exchanged with the outside world through the ports (src/ports). */
module Ports {

  /** An issue in the external tracker. */
  datatype Issue = Issue(id: string, title: string, body: string, status: string)

  /** What a shell command produced; `exitCode` is a signed 32-bit value. */
  datatype ShellOutput = ShellOutput(exitCode: int, stdout: string, stderr: string)

  const I32Min: int := -0x8000_0000
  const I32Max: int := 0x7fff_ffff

  predicate ValidShellOutput(o: ShellOutput) {
    I32Min <= o.exitCode <= I32Max
  }
}

=== FILE: reconcile.dfy ===
/** The local part of the reconciliation pass (src/plan/reconcile.rs):
    circular dependencies among task specs, found by a depth-first search
    that colours nodes as unvisited, on the stack, or finished, and the
    assembly of the reconciliation result around the suggestions a model
    returns. */
module Reconcile {
  import opened Base
  import opened Spec

  // ----- the dependency graph -----

  /** A graph from node to its successors, in order. */
  type Graph = map<string, seq<string>>

  /** The ids of all specs. */
  function SpecIds(specs: seq<TaskSpec>): set<string> {
    set k | 0 <= k < |specs| :: specs[k].id
  }

  /** The declared dependencies of a spec; none without a context. */
  function Dependencies(spec: TaskSpec): seq<string> {
    if spec.context.Some? then spec.context.value.dependencies else []
  }

  /** The dependencies that name one of `ids`, in order. */
  function KnownDeps(spec: TaskSpec, ids: set<string>): (r: seq<string>)
    ensures forall j :: 0 <= j < |r| ==> r[j] in ids
    ensures forall d :: d in Dependencies(spec) && d in ids ==> d in r
  {
    Filter(Dependencies(spec), (d: string) => d in ids)
  }

  /** Each spec's id with its dependencies on specs of `ids`. */
  function Entries(specs: seq<TaskSpec>, ids: set<string>): (r: seq<(string, seq<string>)>)
    ensures |r| == |specs|
    ensures forall k :: 0 <= k < |specs| ==> r[k] == (specs[k].id, KnownDeps(specs[k], ids))
  {
    seq(|specs|, k requires 0 <= k < |specs| => (specs[k].id, KnownDeps(specs[k], ids)))
  }

  /** The map after inserting the first `n` entries in order. */
  function Insert(entries: seq<(string, seq<string>)>, n: nat): Graph
    requires n <= |entries|
  {
    if n == 0 then map[] else Insert(entries, n - 1)[entries[n - 1].0 := entries[n - 1].1]
  }

  /** One key per inserted entry. */
  lemma {:induction false} InsertKeys(entries: seq<(string, seq<string>)>, n: nat)
    requires n <= |entries|
    ensures forall u :: u in Insert(entries, n) <==> exists k :: 0 <= k < n && entries[k].0 == u
  {
    if n > 0 {
      InsertKeys(entries, n - 1);
    }
  }

  /** Every value is the value of some entry. */
  lemma {:induction false} InsertValues(entries: seq<(string, seq<string>)>, n: nat)
    requires n <= |entries|
    ensures forall u :: u in Insert(entries, n) ==> exists k :: 0 <= k < n && Insert(entries, n)[u] == entries[k].1
  {
    if n > 0 {
      InsertValues(entries, n - 1);
    }
  }

  /** The last entry with a key decides its value. */
  lemma {:induction false} InsertLast(entries: seq<(string, seq<string>)>, n: nat, k: nat)
    requires k < n <= |entries|
    requires forall j :: k < j < n ==> entries[j].0 != entries[k].0
    ensures entries[k].0 in Insert(entries, n) && Insert(entries, n)[entries[k].0] == entries[k].1
  {
    if k < n - 1 {
      InsertLast(entries, n - 1, k);
    }
  }

  /** The adjacency map: one entry per spec id, holding the spec's
      dependencies on other specs of the set. With repeated ids the last
      spec wins, as with repeated inserts into a hash map. */
  function BuildGraph(specs: seq<TaskSpec>): (g: Graph)
    ensures g.Keys == SpecIds(specs)
    ensures Closed(g)
    ensures forall k :: 0 <= k < |specs| && (forall j :: k < j < |specs| ==> specs[j].id != specs[k].id) ==>
              g[specs[k].id] == KnownDeps(specs[k], SpecIds(specs))
  {
    GraphKeys(specs);
    GraphClosed(specs);
    GraphLastWins(specs);
    Insert(Entries(specs, SpecIds(specs)), |specs|)
  }

  lemma GraphKeys(specs: seq<TaskSpec>)
    ensures Insert(Entries(specs, SpecIds(specs)), |specs|).Keys == SpecIds(specs)
  {
    var e := Entries(specs, SpecIds(specs));
    InsertKeys(e, |specs|);
    forall u ensures u in Insert(e, |specs|) <==> u in SpecIds(specs) {
      if u in SpecIds(specs) {
        var k :| 0 <= k < |specs| && specs[k].id == u;
        assert e[k].0 == u;
      }
    }
  }

  lemma GraphClosed(specs: seq<TaskSpec>)
    ensures Closed(Insert(Entries(specs, SpecIds(specs)), |specs|))
  {
    var e := Entries(specs, SpecIds(specs));
    GraphKeys(specs);
    InsertValues(e, |specs|);
  }

  lemma GraphLastWins(specs: seq<TaskSpec>)
    ensures forall k :: 0 <= k < |specs| && (forall j :: k < j < |specs| ==> specs[j].id != specs[k].id) ==>
              var g := Insert(Entries(specs, SpecIds(specs)), |specs|);
              specs[k].id in g && g[specs[k].id] == KnownDeps(specs[k], SpecIds(specs))
  {
    var e := Entries(specs, SpecIds(specs));
    forall k | 0 <= k < |specs| && (forall j :: k < j < |specs| ==> specs[j].id != specs[k].id)
      ensures specs[k].id in Insert(e, |specs|) && Insert(e, |specs|)[specs[k].id] == KnownDeps(specs[k], SpecIds(specs))
    {
      InsertLast(e, |specs|, k);
    }
  }

  /** Every successor is itself a node. */
  predicate Closed(g: Graph) {
    forall u :: u in g ==> forall j :: 0 <= j < |g[u]| ==> g[u][j] in g
  }

  predicate Edge(g: Graph, u: string, w: string) {
    u in g && w in g[u]
  }

  /** A nonempty walk along edges that returns to its start. */
  predicate IsCycle(g: Graph, c: seq<string>) {
    |c| > 0
    && (forall i :: 0 <= i < |c| ==> c[i] in g)
    && (forall i :: 0 <= i < |c| - 1 ==> Edge(g, c[i], c[i + 1]))
    && Edge(g, c[|c| - 1], c[0])
  }

  ghost predicate Acyclic(g: Graph) {
    forall c :: !IsCycle(g, c)
  }

  // ----- the search -----

  /** The search state. `finished` records the nodes in the order their
      search ended; it is bookkeeping of this model that states what the
      search has established. */
  datatype DfsState = DfsState(visited: set<string>, onStack: set<string>, stack: seq<string>,
                               cycles: seq<seq<string>>, finished: seq<string>)

  /** Every finished node's successors finished before it. */
  predicate Topological(g: Graph, fin: seq<string>)
    requires forall i :: 0 <= i < |fin| ==> fin[i] in g
  {
    forall i, j :: 0 <= i < |fin| && 0 <= j < |g[fin[i]]| ==> g[fin[i]][j] in fin[..i]
  }

  predicate NoDuplicates(s: seq<string>) {
    forall i, j :: 0 <= i < j < |s| ==> s[i] != s[j]
  }

  /** The invariant of the search: the stack is a path of on-stack nodes;
      every visited node is on the stack or finished, never both, and
      finishes once; every reported cycle is a cycle; and while none has
      been reported, the finished nodes are in topological order. */
  ghost predicate Inv(g: Graph, s: DfsState) {
    s.visited <= g.Keys
    && (forall x :: x in s.onStack <==> x in s.stack)
    && (forall i :: 0 <= i < |s.stack| - 1 ==> Edge(g, s.stack[i], s.stack[i + 1]))
    && s.onStack <= s.visited
    && (forall x :: x in s.visited <==> x in s.onStack || x in s.finished)
    && (forall x :: x in s.finished ==> x !in s.onStack)
    && NoDuplicates(s.finished)
    && (forall i :: 0 <= i < |s.cycles| ==> IsCycle(g, s.cycles[i]))
    && (|s.cycles| == 0 ==> Topological(g, s.finished))
  }

  /** What a step of the search never undoes: visited and finished nodes
      stay so, and reported cycles stay reported. */
  ghost predicate Extends(s: DfsState, r: DfsState) {
    s.visited <= r.visited
    && (forall x :: x in s.finished ==> x in r.finished)
    && |s.cycles| <= |r.cycles|
  }

  lemma SubsetCard(a: set<string>, b: set<string>)
    requires a <= b
    ensures |a| <= |b|
  {
    assert b == a + (b - a);
  }

  /** The unvisited nodes never increase, and strictly decrease once a new
      node is visited. */
  lemma Unvisited(keys: set<string>, a: set<string>, b: set<string>)
    requires a <= b
    ensures |keys - b| <= |keys - a|
    ensures (exists x :: x in keys && x in b && x !in a) ==> |keys - b| < |keys - a|
  {
    SubsetCard(keys - b, keys - a);
    if x :| x in keys && x in b && x !in a {
      SubsetCard(keys - b, (keys - a) - {x});
    }
  }

  /** The position of the first occurrence. */
  function IndexOf(s: seq<string>, x: string): (r: nat)
    requires x in s
    ensures r < |s| && s[r] == x
    ensures forall j :: 0 <= j < r ==> s[j] != x
  {
    FindIndex(s, (y: string) => y == x).value
  }

  /** `dfs_find_cycles`: enter `node`, look at each successor in order, then
      leave it. The node is pushed and marked; afterwards the stack and the
      on-stack set are back to what they were. */
  function DfsNode(g: Graph, node: string, s: DfsState): (r: DfsState)
    requires Closed(g) && Inv(g, s) && node in g && node !in s.visited
    requires |s.stack| > 0 ==> Edge(g, s.stack[|s.stack| - 1], node)
    ensures Inv(g, r)
    ensures r.stack == s.stack && r.onStack == s.onStack
    ensures s.visited + {node} <= r.visited
    ensures node in r.finished
    ensures Extends(s, r)
    decreases |g.Keys - s.visited|, 0, 0
  {
    var s1 := Push(g, node, s);
    Unvisited(g.Keys, s.visited, s1.visited);
    var r1 := DfsSuccessors(g, node, 0, s1);
    Pop(g, node, s, r1)
  }

  /** Entering a node: marked visited, pushed, and put on the stack set. */
  function Push(g: Graph, node: string, s: DfsState): (r: DfsState)
    requires Inv(g, s) && node in g && node !in s.visited
    requires |s.stack| > 0 ==> Edge(g, s.stack[|s.stack| - 1], node)
    ensures Inv(g, r) && r.stack == s.stack + [node] && r.onStack == s.onStack + {node}
    ensures r.visited == s.visited + {node} && r.finished == s.finished && r.cycles == s.cycles
    ensures |r.stack| > 0 && r.stack[|r.stack| - 1] == node
  {
    s.(visited := s.visited + {node}, onStack := s.onStack + {node}, stack := s.stack + [node])
  }

  /** Leaving a node: popped, taken off the stack set, and finished. */
  function Pop(g: Graph, node: string, s: DfsState, r1: DfsState): (r: DfsState)
    requires Inv(g, s) && node in g && node !in s.visited
    requires Inv(g, r1) && r1.stack == s.stack + [node] && r1.onStack == s.onStack + {node}
    requires s.visited + {node} <= r1.visited
    requires Extends(s, r1)
    requires |r1.cycles| == 0 ==> forall j :: 0 <= j < |g[node]| ==> g[node][j] in r1.finished
    ensures Inv(g, r)
    ensures r.stack == s.stack && r.onStack == s.onStack
    ensures s.visited + {node} <= r.visited
    ensures node in r.finished
    ensures Extends(s, r)
  {
    var r := r1.(stack := r1.stack[..|r1.stack| - 1], onStack := r1.onStack - {node},
                 finished := r1.finished + [node]);
    assert r.stack == s.stack;
    FinishNode(g, node, s, r1, r);
    r
  }

  lemma FinishNode(g: Graph, node: string, s: DfsState, r1: DfsState, r: DfsState)
    requires Inv(g, s) && node in g && node !in s.visited
    requires Inv(g, r1) && r1.stack == s.stack + [node] && r1.onStack == s.onStack + {node}
    requires s.visited + {node} <= r1.visited
    requires |r1.cycles| == 0 ==> forall j :: 0 <= j < |g[node]| ==> g[node][j] in r1.finished
    requires r == r1.(stack := s.stack, onStack := r1.onStack - {node}, finished := r1.finished + [node])
    ensures Inv(g, r) && r.onStack == s.onStack
  {
    assert r.onStack == s.onStack;
    assert node !in r1.finished;
    assert forall i :: 0 <= i < |r.finished| ==> r.finished[i] in g;
    if |r.cycles| == 0 {
      assert r.finished[..|r1.finished|] == r1.finished;
      forall i, j | 0 <= i < |r.finished| && 0 <= j < |g[r.finished[i]]|
        ensures g[r.finished[i]][j] in r.finished[..i]
      {
        if i < |r1.finished| {
          assert r.finished[..i] == r1.finished[..i];
        }
      }
    }
  }

  /** The loop over the successors of `node`, the node on top of the stack,
      from the `i`-th on. */
  function DfsSuccessors(g: Graph, node: string, i: nat, s: DfsState): (r: DfsState)
    requires Closed(g) && Inv(g, s) && node in g && i <= |g[node]|
    requires |s.stack| > 0 && s.stack[|s.stack| - 1] == node
    requires |s.cycles| == 0 ==> forall j :: 0 <= j < i ==> g[node][j] in s.finished
    ensures Inv(g, r)
    ensures r.stack == s.stack && r.onStack == s.onStack
    ensures Extends(s, r)
    ensures |r.cycles| == 0 ==> forall j :: 0 <= j < |g[node]| ==> g[node][j] in r.finished
    decreases |g.Keys - s.visited|, 2, |g[node]| - i
  {
    if i == |g[node]| then s
    else
      var s' := Visit(g, node, g[node][i], s);
      Unvisited(g.Keys, s.visited, s'.visited);
      SuccessorDone(g, node, i, s, s');
      var r := DfsSuccessors(g, node, i + 1, s');
      ExtendsTransitive(s, s', r);
      r
  }

  lemma SuccessorDone(g: Graph, node: string, i: nat, s: DfsState, s': DfsState)
    requires node in g && i < |g[node]|
    requires |s.cycles| == 0 ==> forall j :: 0 <= j < i ==> g[node][j] in s.finished
    requires Extends(s, s') && (|s'.cycles| == 0 ==> g[node][i] in s'.finished)
    requires |s.stack| > 0 && s.stack[|s.stack| - 1] == node && s'.stack == s.stack
    ensures |s'.cycles| == 0 ==> forall j :: 0 <= j < i + 1 ==> g[node][j] in s'.finished
    ensures |s'.stack| > 0 && s'.stack[|s'.stack| - 1] == node
  {
  }

  lemma ExtendsTransitive(a: DfsState, b: DfsState, c: DfsState)
    requires Extends(a, b) && Extends(b, c)
    ensures Extends(a, c)
  {
  }

  /** One successor `dep` of the node on top of the stack: an unvisited one
      is searched; one still on the stack closes a cycle, the part of the
      stack from it upwards; a finished one is skipped. */
  function Visit(g: Graph, node: string, dep: string, s: DfsState): (r: DfsState)
    requires Closed(g) && Inv(g, s) && Edge(g, node, dep)
    requires |s.stack| > 0 && s.stack[|s.stack| - 1] == node
    ensures Inv(g, r)
    ensures r.stack == s.stack && r.onStack == s.onStack
    ensures Extends(s, r)
    ensures |r.cycles| == 0 ==> dep in r.finished
    decreases |g.Keys - s.visited|, 1, 0
  {
    if dep !in s.visited then DfsNode(g, dep, s)
    else if dep in s.onStack then BackEdge(g, node, dep, s)
    else s
  }

  /** A successor still on the stack: the stack from that successor up to
      the current node is reported as a cycle. */
  function BackEdge(g: Graph, node: string, dep: string, s: DfsState): (r: DfsState)
    requires Inv(g, s) && Edge(g, node, dep) && dep in s.onStack
    requires |s.stack| > 0 && s.stack[|s.stack| - 1] == node
    ensures Inv(g, r) && r == s.(cycles := r.cycles)
    ensures s.cycles <= r.cycles && |r.cycles| == |s.cycles| + 1
    ensures r.cycles[|s.cycles|][0] == dep
    ensures dep in s.stack && r.cycles[|s.cycles|] == s.stack[IndexOf(s.stack, dep)..]
  {
    BackEdgeCycle(g, node, dep, s);
    AddCycle(g, s, s.stack[IndexOf(s.stack, dep)..]);
    s.(cycles := s.cycles + [s.stack[IndexOf(s.stack, dep)..]])
  }

  /** The stack from an on-stack successor up to the current node, closed by
      the edge back to that successor, is a cycle. */
  lemma BackEdgeCycle(g: Graph, node: string, dep: string, s: DfsState)
    requires Inv(g, s) && Edge(g, node, dep) && dep in s.onStack
    requires |s.stack| > 0 && s.stack[|s.stack| - 1] == node
    ensures dep in s.stack && IsCycle(g, s.stack[IndexOf(s.stack, dep)..])
  {
    var c := s.stack[IndexOf(s.stack, dep)..];
    assert forall i :: 0 <= i < |c| ==> c[i] in s.onStack;
  }

  /** Reporting a cycle keeps the invariant. */
  lemma AddCycle(g: Graph, s: DfsState, c: seq<string>)
    requires Inv(g, s) && IsCycle(g, c)
    ensures Inv(g, s.(cycles := s.cycles + [c]))
  {
  }

  /** The top-level loop: search from every root not yet visited. */
  function DfsRoots(g: Graph, roots: seq<string>, i: nat, s: DfsState): (r: DfsState)
    requires Closed(g) && Inv(g, s) && i <= |roots| && |s.stack| == 0
    requires forall k :: 0 <= k < |roots| ==> roots[k] in g
    ensures Inv(g, r) && r.stack == [] && r.onStack == {}
    ensures Extends(s, r)
    ensures forall k :: i <= k < |roots| ==> roots[k] in r.visited
    decreases |roots| - i
  {
    if i == |roots| then s
    else
      var s' := if roots[i] in s.visited then s else DfsNode(g, roots[i], s);
      DfsRoots(g, roots, i + 1, s')
  }

  const Start: DfsState := DfsState({}, {}, [], [], [])

  /** The final state of the search over the graph of `specs`, starting from
      the spec ids in the order `roots` lists them (the source walks a hash
      set, whose order is unspecified). */
  function Search(specs: seq<TaskSpec>, roots: seq<string>): (r: DfsState)
    requires forall k :: 0 <= k < |roots| ==> roots[k] in SpecIds(specs)
    ensures Inv(BuildGraph(specs), r) && r.stack == [] && r.onStack == {}
    ensures forall k :: 0 <= k < |roots| ==> roots[k] in r.visited
  {
    DfsRoots(BuildGraph(specs), roots, 0, Start)
  }

  /** `detect_circular_dependencies`: every reported cycle is a cycle of the
      dependency graph, made of spec ids. */
  function DetectCycles(specs: seq<TaskSpec>, roots: seq<string>): (r: seq<seq<string>>)
    requires forall k :: 0 <= k < |roots| ==> roots[k] in SpecIds(specs)
    ensures forall i :: 0 <= i < |r| ==> IsCycle(BuildGraph(specs), r[i])
    ensures forall i, j :: 0 <= i < |r| && 0 <= j < |r[i]| ==> r[i][j] in SpecIds(specs)
  {
    Search(specs, roots).cycles
  }

  // ----- what the search establishes -----

  /** An edge leads to a node that finished earlier. */
  lemma EdgeDescends(g: Graph, fin: seq<string>, u: string, w: string)
    requires forall i :: 0 <= i < |fin| ==> fin[i] in g
    requires Topological(g, fin) && u in fin && Edge(g, u, w)
    ensures w in fin && IndexOf(fin, w) < IndexOf(fin, u)
  {
    var i := IndexOf(fin, u);
    var j :| 0 <= j < |g[u]| && g[u][j] == w;
    assert w in fin[..i];
  }

  /** Along a walk, each step leads to an earlier finished node. */
  lemma {:induction false} WalkDescends(g: Graph, fin: seq<string>, c: seq<string>, k: nat)
    requires forall i :: 0 <= i < |fin| ==> fin[i] in g
    requires Topological(g, fin) && k < |c|
    requires forall i :: 0 <= i < |c| ==> c[i] in fin
    requires forall i :: 0 <= i < |c| - 1 ==> Edge(g, c[i], c[i + 1])
    ensures IndexOf(fin, c[k]) + k <= IndexOf(fin, c[0])
  {
    if k > 0 {
      WalkDescends(g, fin, c, k - 1);
      EdgeDescends(g, fin, c[k - 1], c[k]);
    }
  }

  /** A topological order of all nodes of a cycle cannot exist. */
  lemma TopologicalNoCycle(g: Graph, fin: seq<string>, c: seq<string>)
    requires forall i :: 0 <= i < |fin| ==> fin[i] in g
    requires Topological(g, fin)
    requires forall i :: 0 <= i < |c| ==> c[i] in fin
    ensures !IsCycle(g, c)
  {
    if IsCycle(g, c) {
      WalkDescends(g, fin, c, |c| - 1);
      EdgeDescends(g, fin, c[|c| - 1], c[0]);
    }
  }

  /** A reported cycle is a cycle of the graph, so a graph without cycles
      gets none reported. */
  lemma ReportedWitnessesCycle(specs: seq<TaskSpec>, roots: seq<string>)
    requires forall k :: 0 <= k < |roots| ==> roots[k] in SpecIds(specs)
    ensures |DetectCycles(specs, roots)| > 0 ==> !Acyclic(BuildGraph(specs))
  {
    var r := DetectCycles(specs, roots);
    if |r| > 0 {
      assert IsCycle(BuildGraph(specs), r[0]);
    }
  }

  /** A graph whose nodes all appear in a topological order has no cycle. */
  lemma TopologicalAcyclic(g: Graph, fin: seq<string>)
    requires forall i :: 0 <= i < |fin| ==> fin[i] in g
    requires Topological(g, fin)
    requires forall x :: x in g ==> x in fin
    ensures Acyclic(g)
  {
    forall c ensures !IsCycle(g, c) {
      if forall i :: 0 <= i < |c| ==> c[i] in g {
        TopologicalNoCycle(g, fin, c);
      }
    }
  }

  /** Without a reported cycle, the search finished nodes in topological order. */
  lemma SearchTopological(specs: seq<TaskSpec>, roots: seq<string>)
    requires forall k :: 0 <= k < |roots| ==> roots[k] in SpecIds(specs)
    requires |DetectCycles(specs, roots)| == 0
    ensures forall i :: 0 <= i < |Search(specs, roots).finished| ==> Search(specs, roots).finished[i] in BuildGraph(specs)
    ensures Topological(BuildGraph(specs), Search(specs, roots).finished)
  {
  }

  /** When the roots cover every spec id and no cycle was reported, every
      node finished and the finishing order is topological: there is no
      cycle at all. */
  lemma NoneReportedAcyclic(specs: seq<TaskSpec>, roots: seq<string>)
    requires forall k :: 0 <= k < |roots| ==> roots[k] in SpecIds(specs)
    requires forall x :: x in SpecIds(specs) ==> x in roots
    requires |DetectCycles(specs, roots)| == 0
    ensures Acyclic(BuildGraph(specs))
  {
    SearchVisitsEachOnce(specs, roots);
    SearchTopological(specs, roots);
    TopologicalAcyclic(BuildGraph(specs), Search(specs, roots).finished);
  }

  /** When the roots cover every spec id, no cycle is reported exactly when
      the dependency graph has none. */
  lemma NoCyclesIffAcyclic(specs: seq<TaskSpec>, roots: seq<string>)
    requires forall k :: 0 <= k < |roots| ==> roots[k] in SpecIds(specs)
    requires forall x :: x in SpecIds(specs) ==> x in roots
    ensures |DetectCycles(specs, roots)| == 0 <==> Acyclic(BuildGraph(specs))
  {
    if |DetectCycles(specs, roots)| == 0 {
      NoneReportedAcyclic(specs, roots);
    } else {
      ReportedWitnessesCycle(specs, roots);
    }
  }

  /** When the roots cover every spec id, the search finishes every spec id
      exactly once and leaves the stack empty. */
  lemma SearchVisitsEachOnce(specs: seq<TaskSpec>, roots: seq<string>)
    requires forall k :: 0 <= k < |roots| ==> roots[k] in SpecIds(specs)
    requires forall x :: x in SpecIds(specs) ==> x in roots
    ensures NoDuplicates(Search(specs, roots).finished)
    ensures forall x :: x in Search(specs, roots).finished <==> x in SpecIds(specs)
    ensures Search(specs, roots).stack == [] && Search(specs, roots).onStack == {}
  {
    var r := Search(specs, roots);
    forall x | x in SpecIds(specs) ensures x in r.finished {
      var k := IndexOf(roots, x);
    }
  }

  /** A dependency on an id outside the spec set adds no edge: the graph is
      the same with or without it. */
  lemma ExternalDependencyIgnored(specs: seq<TaskSpec>, k: int, d: string)
    requires 0 <= k < |specs| && specs[k].context.Some? && d !in SpecIds(specs)
    ensures var ctx := specs[k].context.value;
            var specs' := specs[k := specs[k].(context := Some(ctx.(dependencies := ctx.dependencies + [d])))];
            BuildGraph(specs') == BuildGraph(specs)
  {
    var ctx := specs[k].context.value;
    var specs' := specs[k := specs[k].(context := Some(ctx.(dependencies := ctx.dependencies + [d])))];
    var ids := SpecIds(specs);
    assert SpecIds(specs') == ids by {
      assert forall j :: 0 <= j < |specs| ==> specs'[j].id == specs[j].id;
    }
    FilterConcat(ctx.dependencies, [d], (x: string) => x in ids);
    assert KnownDeps(specs'[k], ids) == KnownDeps(specs[k], ids);
    assert Entries(specs', ids) == Entries(specs, ids);
  }

  // ----- the reconciliation result -----

  datatype MergeSuggestion = MergeSuggestion(taskIds: seq<string>, reason: string, mergedTitle: string)

  datatype ExtractionSuggestion = ExtractionSuggestion(taskIds: seq<string>, abstraction: string, suggestedTaskTitle: string)

  datatype ReorderSuggestion = ReorderSuggestion(taskId: string, shouldPrecede: string, reason: string)

  /** What the model's reply holds once deserialised; a missing list is empty. */
  datatype Suggestions = Suggestions(merges: seq<MergeSuggestion>, extractions: seq<ExtractionSuggestion>,
                                     reorders: seq<ReorderSuggestion>)

  datatype ReconciliationResult = ReconciliationResult(
    suggestedMerges: seq<MergeSuggestion>,
    suggestedExtractions: seq<ExtractionSuggestion>,
    suggestedReorders: seq<ReorderSuggestion>,
    circularDependencies: seq<seq<string>>)

  /** `parse_reconciliation_response`, given the outcome of deserialising the
      reply: the suggestions are taken over and the locally detected cycles
      are passed through untouched; a reply that does not deserialise is an
      error naming the parse failure. */
  function ParseReconciliation(reply: Result<Suggestions>, circular: seq<seq<string>>): (r: Result<ReconciliationResult>)
    ensures r.Ok? <==> reply.Ok?
    ensures r.Ok? ==> r.value.circularDependencies == circular
                      && r.value.suggestedMerges == reply.value.merges
                      && r.value.suggestedExtractions == reply.value.extractions
                      && r.value.suggestedReorders == reply.value.reorders
    ensures r.Err? ==> r.msg == ParseFailurePrefix + reply.msg
  {
    match reply
    case Err(e) => Err(ParseFailurePrefix + e)
    case Ok(p) => Ok(ReconciliationResult(p.merges, p.extractions, p.reorders, circular))
  }

  const ParseFailurePrefix: string := "failed to parse LLM reconciliation response: "
}

=== FILE: recorder.dfy ===
/** The cassette recorder (src/cassette/recorder.rs): a counter and the list
    of interactions recorded so far. Writing the cassette out is not part of
    this model. */
module Recorder {
  import opened Json
  import opened Cassette

  datatype Recorder = Recorder(path: string, name: string, commit: string,
                               interactions: seq<Interaction>, nextSeq: nat)

  /** The recorder's invariant: the interactions are numbered by position
      and the counter is the next free position. */
  predicate Valid(r: Recorder) {
    Numbered(r.interactions) && r.nextSeq == |r.interactions|
  }

  /** `CassetteRecorder::new`: nothing recorded, counting from 0. */
  function New(path: string, name: string, commit: string): (r: Recorder)
    ensures Valid(r) && |r.interactions| == 0 && r.nextSeq == 0
    ensures r.path == path && r.name == name && r.commit == commit
  {
    Recorder(path, name, commit, [], 0)
  }

  /** `record`: one more interaction, numbered with the counter, which then
      moves on. Port, method, input and output are kept as given. */
  function Record(r: Recorder, port: string, methodName: string, input: Json, output: Json): (r': Recorder)
    ensures |r'.interactions| == |r.interactions| + 1 && r'.interactions[..|r.interactions|] == r.interactions
    ensures r'.interactions[|r.interactions|] == Interaction(r.nextSeq, port, methodName, input, output)
    ensures r'.nextSeq == r.nextSeq + 1
    ensures r'.path == r.path && r'.name == r.name && r'.commit == r.commit
    ensures Valid(r) ==> Valid(r')
  {
    var i := Interaction(r.nextSeq, port, methodName, input, output);
    var r' := r.(interactions := r.interactions + [i], nextSeq := r.nextSeq + 1);
    assert r'.interactions[..|r.interactions|] == r.interactions;
    r'
  }

  /** A call to record: what was sent to which port method, and what came back. */
  datatype Call = Call(port: string, methodName: string, input: Json, output: Json)

  /** Recording the calls one after the other. */
  function RecordAll(r: Recorder, calls: seq<Call>): (r': Recorder)
    ensures r'.nextSeq == r.nextSeq + |calls|
    ensures Valid(r) ==> Valid(r')
    decreases |calls|
  {
    if |calls| == 0 then r
    else
      var c := calls[|calls| - 1];
      Record(RecordAll(r, calls[..|calls| - 1]), c.port, c.methodName, c.input, c.output)
  }

  /** A fresh recorder that is given a list of calls holds exactly those
      calls, in order, the i-th numbered i. */
  lemma {:induction false} RecordAllFromNew(path: string, name: string, commit: string, calls: seq<Call>)
    ensures var r := RecordAll(New(path, name, commit), calls);
            |r.interactions| == |calls|
            && forall i :: 0 <= i < |calls| ==>
                 r.interactions[i] == Interaction(i, calls[i].port, calls[i].methodName, calls[i].input, calls[i].output)
    decreases |calls|
  {
    if |calls| > 0 {
      var init := calls[..|calls| - 1];
      RecordAllFromNew(path, name, commit, init);
      var before := RecordAll(New(path, name, commit), init);
      forall i | 0 <= i < |init| ensures before.interactions[i] == RecordAll(New(path, name, commit), calls).interactions[i] {
        assert RecordAll(New(path, name, commit), calls).interactions[..|before.interactions|] == before.interactions;
      }
    }
  }
}

=== FILE: recording.dfy ===
/** The recording side of the record/replay convention
    (src/adapters/recording/mod.rs): what JSON a recording adapter stores as
    the output of a call. A plain value is stored as it is; a `Result` is
    wrapped in a one-field object keyed "Ok" or "Err". */
module Recording {
  import opened Base
  import opened Json
  import opened Ports
  import opened Cassette
  import opened Recorder

  const OkKey := "Ok"
  const ErrKey := "Err"

  /** The output of `record_result`: `{"Ok": v}` for a success and
      `{"Err": message}` for a failure. */
  function EncodeResult<T>(res: Result<T>, enc: T -> Json): (j: Json)
    ensures j.JObj? && |j.fields| == 1
    ensures res.Ok? <==> OkKey in j.fields
    ensures res.Ok? ==> Get(j, OkKey) == Some(enc(res.value))
    ensures res.Err? ==> Get(j, ErrKey) == Some(JStr(res.msg))
  {
    match res
    case Ok(v) => JObj(map[OkKey := enc(v)])
    case Err(e) => JObj(map[ErrKey := JStr(e)])
  }

  /** `record_interaction`: one call recorded with its output as it is. */
  function RecordInteraction(r: Recorder, port: string, methodName: string, input: Json, output: Json): (r': Recorder)
    ensures |r'.interactions| == |r.interactions| + 1
    ensures r'.interactions[..|r.interactions|] == r.interactions
    ensures r'.interactions[|r.interactions|].output == output
    ensures Valid(r) ==> Valid(r')
  {
    Record(r, port, methodName, input, output)
  }

  /** `record_result`: one call recorded with its result in the Ok/Err
      wrapping. */
  function RecordResult<T>(r: Recorder, port: string, methodName: string, input: Json,
                           res: Result<T>, enc: T -> Json): (r': Recorder)
    ensures |r'.interactions| == |r.interactions| + 1
    ensures r'.interactions[..|r.interactions|] == r.interactions
    ensures var x := r'.interactions[|r.interactions|];
            x.port == port && x.methodName == methodName && x.input == input
            && x.output == EncodeResult(res, enc)
    ensures Valid(r) ==> Valid(r')
  {
    Record(r, port, methodName, input, EncodeResult(res, enc))
  }

  // ----- serde encodings of the values the modelled adapters record -----

  const ExitCodeField := "exit_code"
  const StdoutField := "stdout"
  const StderrField := "stderr"

  /** `ShellOutput` as a recorded value: an object with its three fields
      under their Rust names. The struct derives no serde encoding, so this
      layout is the model's own choice. */
  function ShellOutputJson(o: ShellOutput): (j: Json)
    ensures Get(j, ExitCodeField) == Some(JInt(o.exitCode))
    ensures Get(j, StdoutField) == Some(JStr(o.stdout))
    ensures Get(j, StderrField) == Some(JStr(o.stderr))
  {
    JObj(map[ExitCodeField := JInt(o.exitCode), StdoutField := JStr(o.stdout), StderrField := JStr(o.stderr)])
  }

  function StringJson(s: string): Json { JStr(s) }

  /** `()` as serde writes it. */
  function UnitJson(u: ()): Json { JNull }
}

=== FILE: replay_fs.dfy ===
/** The replaying filesystem adapter (src/adapters/replaying/filesystem.rs):
    recorded outputs of `read_to_string`, `write`, `exists` and `list_dir`
    read back. The `...AsWritten` functions follow the adapter line for line;
    the others also accept the capitalised keys the recording side writes,
    and are the ones the replayed calls use. */
module ReplayFs {
  import opened Base
  import opened Text
  import opened Json
  import opened Replayer
  import opened Recording
  import opened Replaying

  const FsPort := "fs"
  const ReadMethod := "read_to_string"
  const WriteMethod := "write"
  const ExistsMethod := "exists"
  const ListDirMethod := "list_dir"

  const UnknownError := "unknown error"
  const ReadContext := "fs::read_to_string"
  const ListDirContext := "fs::list_dir"
  const DeserializeTag := ": failed to deserialize: "
  const ExistsNotBool := "fs::exists: expected boolean output"
  const ExpectedString := "invalid type: expected a string"
  const ExpectedSequence := "invalid type: expected a sequence of strings"

  // ----- serde decoding of the recorded values -----

  function DecodeString(v: Json): (r: Result<string>)
    ensures r.Ok? <==> v.JStr?
    ensures r.Ok? ==> r.value == v.s
  {
    match AsStr(v)
    case Some(s) => Ok(s)
    case None => Err(ExpectedString)
  }

  predicate AllStrings(items: seq<Json>) {
    forall i :: 0 <= i < |items| ==> items[i].JStr?
  }

  /** `Vec<String>`: an array whose elements are all strings. */
  function DecodeStrings(v: Json): (r: Result<seq<string>>)
    ensures r.Ok? <==> v.JArr? && AllStrings(v.items)
    ensures r.Ok? ==> |r.value| == |v.items| && forall i :: 0 <= i < |v.items| ==> r.value[i] == v.items[i].s
  {
    if v.JArr? && AllStrings(v.items) then Ok(seq(|v.items|, i requires 0 <= i < |v.items| => v.items[i].s))
    else Err(ExpectedSequence)
  }

  lemma DecodeStringInverse(s: string)
    ensures DecodeString(StringJson(s)) == Ok(s)
  {
  }

  lemma DecodeStringsInverse(xs: seq<string>)
    ensures DecodeStrings(StringsJson(xs)) == Ok(xs)
  {
    var j := StringsJson(xs);
    assert AllStrings(j.items);
    assert DecodeStrings(j).value == xs;
  }

  /** The deserialisation error, prefixed with the call it came from. */
  function InContext<T>(r: Result<T>, context: string): (r': Result<T>)
    ensures r.Ok? ==> r' == r
    ensures r.Err? ==> r'.Err? && StartsWith(r'.msg, context + DeserializeTag) && EndsWith(r'.msg, r.msg)
  {
    match r
    case Ok(v) => Ok(v)
    case Err(e) => Err(context + DeserializeTag + e)
  }

  // ----- as written -----

  /** `extract_result`: only a lower-case "err" field makes an error
      (message defaulting to "unknown error"); otherwise the "ok" field, or
      the whole output, is decoded. */
  function ExtractResultAsWritten<T>(output: Json, context: string, dec: Json -> Result<T>): (r: Result<T>)
    ensures Get(output, ErrLower).Some? ==> r == Err(MessageOr(output.fields[ErrLower], UnknownError))
    ensures Get(output, ErrLower).None? ==>
              r == InContext(dec(if Get(output, OkLower).Some? then output.fields[OkLower] else output), context)
  {
    match Get(output, ErrLower)
    case Some(e) => Err(MessageOr(e, UnknownError))
    case None =>
      var value := match Get(output, OkLower) case Some(v) => v case None => output;
      InContext(dec(value), context)
  }

  /** `write` as written: a success unless there is a lower-case "err". */
  function WriteAsWritten(output: Json): (r: Result<()>)
    ensures r.Err? <==> Get(output, ErrLower).Some?
    ensures r.Err? ==> r.msg == MessageOr(output.fields[ErrLower], UnknownError)
  {
    match Get(output, ErrLower)
    case Some(e) => Err(MessageOr(e, UnknownError))
    case None => Ok(())
  }

  /** `exists`: the output must be a boolean; anything else panics. */
  function Exists(output: Json): (r: Result<bool>)
    ensures r.Ok? <==> output.JBool?
    ensures r.Ok? ==> r.value == output.b
    ensures r.Err? ==> r.msg == ExistsNotBool
  {
    match AsBool(output)
    case Some(b) => Ok(b)
    case None => Err(ExistsNotBool)
  }

  /** `exists` is recorded with `record_interaction`, so its output is the
      bare boolean and reads back as itself. */
  lemma ExistsRoundTrip(b: bool)
    ensures Exists(JBool(b)) == Ok(b)
  {
  }

  /** A file the recording adapter read successfully replays as a
      deserialisation error: the "Ok" wrapper is decoded as the string. */
  lemma RecordedReadReplaysAsError(s: string)
    ensures var r := ExtractResultAsWritten(EncodeResult(Ok(s), StringJson), ReadContext, DecodeString);
            r == Err(ReadContext + DeserializeTag + ExpectedString)
  {
    var j := EncodeResult(Ok(s), StringJson);
    assert OkKey != ErrLower && OkKey != OkLower by { assert OkKey[0] != OkLower[0]; }
    assert j.fields.Keys == {OkKey};
  }

  /** A write the recording adapter saw fail replays as a success. */
  lemma RecordedWriteErrorReplaysAsSuccess(message: string)
    ensures WriteAsWritten(EncodeResult(Err(message), UnitJson)) == Ok(())
  {
    var j := EncodeResult(Err(message), UnitJson);
    assert ErrKey != ErrLower by { assert ErrKey[0] != ErrLower[0]; }
    assert j.fields.Keys == {ErrKey};
  }

  // ----- corrected -----

  /** `extract_result` reading both spellings of the keys, capitalised
      first, as `replay_result` does. */
  function ExtractResult<T>(output: Json, context: string, dec: Json -> Result<T>): (r: Result<T>)
    ensures EitherKey(output, ErrKey, ErrLower).Some? ==>
              r == Err(MessageOr(EitherKey(output, ErrKey, ErrLower).value, UnknownError))
    ensures EitherKey(output, ErrKey, ErrLower).None? && EitherKey(output, OkKey, OkLower).Some? ==>
              r == InContext(dec(EitherKey(output, OkKey, OkLower).value), context)
    ensures EitherKey(output, ErrKey, ErrLower).None? && EitherKey(output, OkKey, OkLower).None? ==>
              r == InContext(dec(output), context)
  {
    match EitherKey(output, ErrKey, ErrLower)
    case Some(e) => Err(MessageOr(e, UnknownError))
    case None =>
      var value := match EitherKey(output, OkKey, OkLower) case Some(v) => v case None => output;
      InContext(dec(value), context)
  }

  /** Round trip: whatever `record_result` stored, `ExtractResult` gives
      back, for a decoder that inverts the encoder. */
  lemma ExtractRoundTrip<T>(res: Result<T>, enc: T -> Json, dec: Json -> Result<T>, context: string)
    requires forall v :: dec(enc(v)) == Ok(v)
    ensures ExtractResult(EncodeResult(res, enc), context, dec) == res
  {
    var j := EncodeResult(res, enc);
    assert OkKey != ErrLower && OkKey != ErrKey by { assert OkKey[0] != ErrLower[0]; }
    if res.Ok? {
      assert j.fields.Keys == {OkKey};
    }
  }

  /** On outputs without capitalised keys, the corrected reading agrees with
      the original. */
  lemma ExtractAgreesOnLowerCase<T>(output: Json, context: string, dec: Json -> Result<T>)
    requires Get(output, ErrKey).None? && Get(output, OkKey).None?
    ensures ExtractResult(output, context, dec) == ExtractResultAsWritten(output, context, dec)
  {
  }

  function ReadToString(output: Json): Result<string> {
    ExtractResult(output, ReadContext, DecodeString)
  }

  function ListDir(output: Json): Result<seq<string>> {
    ExtractResult(output, ListDirContext, DecodeStrings)
  }

  /** `write` reading both spellings of the error key. */
  function Write(output: Json): (r: Result<()>)
    ensures r.Err? <==> Get(output, ErrKey).Some? || Get(output, ErrLower).Some?
  {
    match EitherKey(output, ErrKey, ErrLower)
    case Some(e) => Err(MessageOr(e, UnknownError))
    case None => Ok(())
  }

  /** Every filesystem result the recording adapter stores reads back as
      itself. */
  lemma FsRoundTrips(read: Result<string>, list: Result<seq<string>>, write: Result<()>)
    ensures ReadToString(EncodeResult(read, StringJson)) == read
    ensures ListDir(EncodeResult(list, StringsJson)) == list
    ensures Write(EncodeResult(write, UnitJson)) == write
  {
    forall s ensures DecodeString(StringJson(s)) == Ok(s) { DecodeStringInverse(s); }
    forall xs ensures DecodeStrings(StringsJson(xs)) == Ok(xs) { DecodeStringsInverse(xs); }
    ExtractRoundTrip(read, StringJson, DecodeString, ReadContext);
    ExtractRoundTrip(list, StringsJson, DecodeStrings, ListDirContext);
    WriteRoundTrip(write);
  }

  lemma WriteRoundTrip(write: Result<()>)
    ensures Write(EncodeResult(write, UnitJson)) == write
  {
    var w := EncodeResult(write, UnitJson);
    assert OkKey != ErrLower && OkKey != ErrKey by { assert OkKey[0] != ErrLower[0]; }
    match write
    case Ok(u) =>
      assert u == ();
      assert w.fields.Keys == {OkKey};
      assert Get(w, ErrKey).None? && Get(w, ErrLower).None?;
    case Err(e) =>
      assert Get(w, ErrKey) == Some(JStr(e));
  }

  // ----- the replayed calls -----

  /** Each filesystem call consumes the next interaction recorded for its
      own method, and only that one. */
  function ReplayRead(r: Replayer): (s: Replayed<Result<string>>)
    requires Inv(r)
    ensures var k := Key(FsPort, ReadMethod);
            (s.Replayed? <==> k in r.queues && r.cursors[k] < |r.queues[k]|)
            && (s.Replayed? ==> s.result == ReadToString(r.queues[k][r.cursors[k]].output)
                                && s.next.cursors == r.cursors[k := r.cursors[k] + 1])
  {
    ReplayCall(r, FsPort, ReadMethod, ReadToString)
  }

  function ReplayWrite(r: Replayer): (s: Replayed<Result<()>>)
    requires Inv(r)
    ensures var k := Key(FsPort, WriteMethod);
            (s.Replayed? <==> k in r.queues && r.cursors[k] < |r.queues[k]|)
            && (s.Replayed? ==> s.result == Write(r.queues[k][r.cursors[k]].output)
                                && s.next.cursors == r.cursors[k := r.cursors[k] + 1])
  {
    ReplayCall(r, FsPort, WriteMethod, Write)
  }

  function ReplayExists(r: Replayer): (s: Replayed<Result<bool>>)
    requires Inv(r)
    ensures var k := Key(FsPort, ExistsMethod);
            (s.Replayed? <==> k in r.queues && r.cursors[k] < |r.queues[k]|)
            && (s.Replayed? ==> s.result == Exists(r.queues[k][r.cursors[k]].output)
                                && s.next.cursors == r.cursors[k := r.cursors[k] + 1])
  {
    ReplayCall(r, FsPort, ExistsMethod, Exists)
  }

  function ReplayListDir(r: Replayer): (s: Replayed<Result<seq<string>>>)
    requires Inv(r)
    ensures var k := Key(FsPort, ListDirMethod);
            (s.Replayed? <==> k in r.queues && r.cursors[k] < |r.queues[k]|)
            && (s.Replayed? ==> s.result == ListDir(r.queues[k][r.cursors[k]].output)
                                && s.next.cursors == r.cursors[k := r.cursors[k] + 1])
  {
    ReplayCall(r, FsPort, ListDirMethod, ListDir)
  }
}

=== FILE: replay_shell.dfy ===
/** The replaying shell adapter (src/adapters/replaying/shell.rs): a recorded
    `run` output read back as a `ShellOutput`. `RunAsWritten` follows the
    adapter line for line; `Run` also accepts the capitalised keys the
    recording side writes, and is the one the replayed `run` call uses. */
module ReplayShell {
  import opened Base
  import opened Json
  import opened Ports
  import opened Replayer
  import opened Recording
  import opened Replaying

  const ShellPort := "shell"
  const RunMethod := "run"
  const UnknownError := "unknown error"

  /** `i32::try_from(n).unwrap_or(1)`. */
  function ToI32(n: int): (r: int)
    ensures I32Min <= r <= I32Max
    ensures I32Min <= n <= I32Max ==> r == n
    ensures !(I32Min <= n <= I32Max) ==> r == 1
  {
    if I32Min <= n <= I32Max then n else 1
  }

  /** A string field, `""` when missing or not a string. */
  function StrField(v: Json, key: string): (s: string)
    ensures Get(v, key).Some? && Get(v, key).value.JStr? ==> s == Get(v, key).value.s
    ensures !(Get(v, key).Some? && Get(v, key).value.JStr?) ==> s == ""
  {
    match Get(v, key)
    case Some(f) => MessageOr(f, "")
    case None => ""
  }

  /** The exit code field: a signed 64-bit integer, 0 when missing or of
      another kind. */
  function ExitCodeOf(v: Json): (n: int)
    ensures I64Min <= n <= I64Max
    ensures Get(v, ExitCodeField).None? ==> n == 0
    ensures Get(v, ExitCodeField).Some? ==>
              n == if AsI64(v.fields[ExitCodeField]).Some? then v.fields[ExitCodeField].i else 0
  {
    match Get(v, ExitCodeField)
    case Some(f) => (match AsI64(f) case Some(i) => i case None => 0)
    case None => 0
  }

  /** The fields of a recorded `ShellOutput`, with the adapter's defaults. */
  function DecodeShellOutput(v: Json): (o: ShellOutput)
    ensures ValidShellOutput(o)
    ensures Get(v, ExitCodeField).None? ==> o.exitCode == 0
    ensures I32Min <= ExitCodeOf(v) <= I32Max ==> o.exitCode == ExitCodeOf(v)
    ensures !(I32Min <= ExitCodeOf(v) <= I32Max) ==> o.exitCode == 1
    ensures o.stdout == StrField(v, StdoutField) && o.stderr == StrField(v, StderrField)
  {
    ShellOutput(ToI32(ExitCodeOf(v)), StrField(v, StdoutField), StrField(v, StderrField))
  }

  /** A `ShellOutput` stored as serde writes it decodes to itself. */
  lemma DecodeShellOutputInverse(o: ShellOutput)
    requires ValidShellOutput(o)
    ensures DecodeShellOutput(ShellOutputJson(o)) == o
  {
  }

  /** `run` as written: only a lower-case "err" field makes an error
      (message defaulting to "unknown error"); the "ok" wrapper is optional. */
  function RunAsWritten(output: Json): (r: Result<ShellOutput>)
    ensures r.Err? <==> Get(output, ErrLower).Some?
    ensures r.Err? ==> r.msg == MessageOr(output.fields[ErrLower], UnknownError)
    ensures r.Ok? ==> ValidShellOutput(r.value)
    ensures r.Ok? && Get(output, OkLower).None? ==> r.value == DecodeShellOutput(output)
    ensures r.Ok? && Get(output, OkLower).Some? ==> r.value == DecodeShellOutput(output.fields[OkLower])
  {
    match Get(output, ErrLower)
    case Some(e) => Err(MessageOr(e, UnknownError))
    case None =>
      var value := match Get(output, OkLower) case Some(v) => v case None => output;
      Ok(DecodeShellOutput(value))
  }

  /** A failure recorded by the recording adapter replays as a success with
      exit code 0 and no output. */
  lemma RecordedErrorReplaysAsSuccess(message: string)
    ensures RunAsWritten(EncodeResult(Err(message), ShellOutputJson)) == Ok(ShellOutput(0, "", ""))
  {
    var j := EncodeResult(Err(message), ShellOutputJson);
    assert ErrKey != ErrLower && ErrKey != OkLower && ErrKey != ExitCodeField
        && ErrKey != StdoutField && ErrKey != StderrField by {
      assert ErrKey[0] != ErrLower[0];
    }
    assert j.fields.Keys == {ErrKey};
  }

  /** A recorded run that exited 1 replays as one that exited 0. */
  lemma RecordedExitCodeLost()
    ensures var o := ShellOutput(1, "", "boom");
            RunAsWritten(EncodeResult(Ok(o), ShellOutputJson)) == Ok(ShellOutput(0, "", ""))
  {
    var j := EncodeResult(Ok(ShellOutput(1, "", "boom")), ShellOutputJson);
    assert OkKey != ErrLower && OkKey != OkLower && OkKey != ExitCodeField
        && OkKey != StdoutField && OkKey != StderrField by {
      assert OkKey[0] != OkLower[0];
    }
    assert j.fields.Keys == {OkKey};
  }

  /** `run` reading both spellings of the keys, capitalised first, as
      `replay_result` does; a non-string error message still defaults to
      "unknown error". */
  function Run(output: Json): (r: Result<ShellOutput>)
    ensures r.Err? <==> Get(output, ErrKey).Some? || Get(output, ErrLower).Some?
    ensures r.Err? ==> r.msg == MessageOr(EitherKey(output, ErrKey, ErrLower).value, UnknownError)
    ensures r.Ok? ==> ValidShellOutput(r.value)
    ensures r.Ok? && EitherKey(output, OkKey, OkLower).Some? ==>
              r.value == DecodeShellOutput(EitherKey(output, OkKey, OkLower).value)
    ensures r.Ok? && EitherKey(output, OkKey, OkLower).None? ==> r.value == DecodeShellOutput(output)
  {
    match EitherKey(output, ErrKey, ErrLower)
    case Some(e) => Err(MessageOr(e, UnknownError))
    case None =>
      var value := match EitherKey(output, OkKey, OkLower) case Some(v) => v case None => output;
      Ok(DecodeShellOutput(value))
  }

  /** Round trip: whatever the recording adapter stored, `Run` gives back. */
  lemma RunRoundTrip(res: Result<ShellOutput>)
    requires res.Ok? ==> ValidShellOutput(res.value)
    ensures Run(EncodeResult(res, ShellOutputJson)) == res
  {
    var j := EncodeResult(res, ShellOutputJson);
    assert ErrKey != ErrLower && OkKey != ErrLower by { assert ErrKey[0] != ErrLower[0]; assert OkKey[0] != ErrLower[0]; }
    if res.Ok? {
      assert j.fields.Keys == {OkKey};
      DecodeShellOutputInverse(res.value);
    }
  }

  /** On outputs without capitalised keys, as the adapter's own fixtures
      are written, the corrected reading agrees with the original. */
  lemma RunAgreesOnLowerCase(output: Json)
    requires Get(output, ErrKey).None? && Get(output, OkKey).None?
    ensures Run(output) == RunAsWritten(output)
  {
  }

  /** The replayed `run` call: the next "shell"/"run" interaction read back
      with `Run`. */
  function ReplayRun(r: Replayer): (s: Replayed<Result<ShellOutput>>)
    requires Inv(r)
    ensures var k := Key(ShellPort, RunMethod);
            (s.Replayed? <==> k in r.queues && r.cursors[k] < |r.queues[k]|)
            && (s.Replayed? ==> s.result == Run(r.queues[k][r.cursors[k]].output)
                                && s.next.cursors == r.cursors[k := r.cursors[k] + 1])
  {
    ReplayCall(r, ShellPort, RunMethod, Run)
  }
}

=== FILE: replayer.dfy ===
/** The cassette replayer (src/cassette/replayer.rs): one queue of
    interactions per (port, method) pair, in cassette order, and a cursor
    per queue. Each request is served from its own queue only, so calls on
    different pairs may interleave freely. */
module Replayer {
  import opened Base
  import opened Cassette

  datatype Key = Key(port: string, methodName: string)

  function KeyOf(i: Interaction): Key {
    Key(i.port, i.methodName)
  }

  /** The interactions of one key, in cassette order. */
  function Queue(xs: seq<Interaction>, k: Key): (q: seq<Interaction>)
    ensures |q| <= |xs|
    ensures forall j :: 0 <= j < |q| ==> KeyOf(q[j]) == k
    ensures |q| > 0 <==> exists i :: 0 <= i < |xs| && KeyOf(xs[i]) == k
    decreases |xs|
  {
    if |xs| == 0 then []
    else
      var init := xs[..|xs| - 1];
      var x := xs[|xs| - 1];
      assert forall i :: 0 <= i < |init| ==> init[i] == xs[i];
      Queue(init, k) + (if KeyOf(x) == k then [x] else [])
  }

  /** The keys that occur in a cassette. */
  function Keys(xs: seq<Interaction>): set<Key> {
    set i | 0 <= i < |xs| :: KeyOf(xs[i])
  }

  /** The queues `new` builds, one interaction at a time. */
  function Group(xs: seq<Interaction>): (m: map<Key, seq<Interaction>>)
    ensures m.Keys == Keys(xs)
    ensures forall k :: k in m ==> m[k] == Queue(xs, k)
    decreases |xs|
  {
    if |xs| == 0 then map[]
    else
      var init := xs[..|xs| - 1];
      var x := xs[|xs| - 1];
      var m := Group(init);
      var k := KeyOf(x);
      KeysSnoc(xs);
      m[k := (if k in m then m[k] else []) + [x]]
  }

  lemma KeysSnoc(xs: seq<Interaction>)
    requires |xs| > 0
    ensures Keys(xs) == Keys(xs[..|xs| - 1]) + {KeyOf(xs[|xs| - 1])}
  {
    var init := xs[..|xs| - 1];
    assert forall i :: 0 <= i < |init| ==> init[i] == xs[i];
  }

  datatype Replayer = Replayer(queues: map<Key, seq<Interaction>>, cursors: map<Key, nat>)

  /** Every queue has a cursor, and no cursor has run past its queue. */
  predicate Inv(r: Replayer) {
    r.queues.Keys == r.cursors.Keys && forall k :: k in r.cursors ==> r.cursors[k] <= |r.queues[k]|
  }

  /** `CassetteReplayer::new`: one queue per key that occurs, holding that
      key's interactions in cassette order, every cursor at the start. */
  function New(c: Cassette): (r: Replayer)
    ensures Inv(r)
    ensures r.queues.Keys == Keys(c.interactions)
    ensures forall k :: k in r.queues ==> r.queues[k] == Queue(c.interactions, k) && r.cursors[k] == 0
  {
    var queues := Group(c.interactions);
    Replayer(queues, map k | k in queues :: 0)
  }

  /** Why a request could not be served: nothing was recorded for the pair,
      or all its `count` interactions were used, the last numbered `lastSeq`. */
  datatype ReplayError =
    | NoInteractions(port: string, methodName: string)
    | AllConsumed(port: string, methodName: string, count: nat, lastSeq: nat)

  datatype Served = Served(interaction: Interaction, next: Replayer) | Failed(error: ReplayError)

  /** `next_interaction`: the interaction under the pair's cursor, with that
      cursor, and only that one, moved on. */
  function NextInteraction(r: Replayer, port: string, methodName: string): (s: Served)
    requires Inv(r)
    ensures var k := Key(port, methodName);
            && (k !in r.queues <==> s == Failed(NoInteractions(port, methodName)))
            && (k in r.queues && r.cursors[k] == |r.queues[k]| ==> s.Failed? && s.error.AllConsumed?)
            && (s.Served? <==> k in r.queues && r.cursors[k] < |r.queues[k]|)
            && (s.Served? ==>
                  s.interaction == r.queues[k][r.cursors[k]]
                  && s.next == Replayer(r.queues, r.cursors[k := r.cursors[k] + 1]))
    ensures s.Served? ==> Inv(s.next)
  {
    var k := Key(port, methodName);
    if k !in r.queues then Failed(NoInteractions(port, methodName))
    else
      var q := r.queues[k];
      var cursor := r.cursors[k];
      if cursor >= |q| then
        Failed(AllConsumed(port, methodName, |q|, if |q| == 0 then 0 else q[|q| - 1].seqNo))
      else Served(q[cursor], Replayer(r.queues, r.cursors[k := cursor + 1]))
  }

  /** A run of requests: what was served, or the first failure. */
  datatype Session = Session(served: seq<Interaction>, last: Replayer) | Aborted(error: ReplayError)

  /** Serving the requests one after the other; the first failure ends the run. */
  function ServeAll(r: Replayer, calls: seq<Key>): (s: Session)
    requires Inv(r)
    ensures s.Session? ==> Inv(s.last) && |s.served| == |calls| && s.last.queues == r.queues
    decreases |calls|
  {
    if |calls| == 0 then Session([], r)
    else
      match ServeAll(r, calls[..|calls| - 1])
      case Aborted(e) => Aborted(e)
      case Session(served, last) =>
        var k := calls[|calls| - 1];
        match NextInteraction(last, k.port, k.methodName)
        case Failed(e) => Aborted(e)
        case Served(i, next) => Session(served + [i], next)
  }

  /** Whether the request for `k` can be served after `earlier` requests:
      its queue exists and still has an entry past those already used. */
  predicate Fits(r: Replayer, earlier: seq<Key>, k: Key) {
    k in r.queues && k in r.cursors && r.cursors[k] + multiset(earlier)[k] < |r.queues[k]|
  }

  /** All requests fit after nothing else has been requested. */
  predicate AllFit(r: Replayer, calls: seq<Key>) {
    forall i :: 0 <= i < |calls| ==> Fits(r, calls[..i], calls[i])
  }

  /** The entry of its queue the i-th request names, if it fits: past the
      cursor by the number of earlier requests for the same key. */
  function Named(r: Replayer, calls: seq<Key>, i: nat): Option<Interaction>
    requires i < |calls|
  {
    if Fits(r, calls[..i], calls[i])
    then Some(r.queues[calls[i]][r.cursors[calls[i]] + multiset(calls[..i])[calls[i]]])
    else None
  }

  /** Each served interaction is the one its request names. */
  predicate ServedSeq(r: Replayer, calls: seq<Key>, served: seq<Interaction>) {
    |served| == |calls| && forall i :: 0 <= i < |calls| ==> Named(r, calls, i) == Some(served[i])
  }

  /** What a successful run served and where it left the cursors. */
  predicate ServedInOrder(r: Replayer, calls: seq<Key>, s: Session)
    requires s.Session?
  {
    ServedSeq(r, calls, s.served)
    && forall k :: k in r.cursors ==> k in s.last.cursors && s.last.cursors[k] == r.cursors[k] + multiset(calls)[k]
  }

  /** The heart of the replayer: a run succeeds exactly when every request
      fits, and then the n-th request for a key gets that key's n-th
      remaining interaction, whatever requests for other keys came in
      between; each cursor ends moved on by the number of requests for it. */
  lemma {:induction false} ServeAllSpec(r: Replayer, calls: seq<Key>)
    requires Inv(r)
    ensures ServeAll(r, calls).Session? <==> AllFit(r, calls)
    ensures ServeAll(r, calls).Session? ==> ServedInOrder(r, calls, ServeAll(r, calls))
    decreases |calls|
  {
    if |calls| > 0 {
      var n := |calls| - 1;
      ServeAllSpec(r, calls[..n]);
      assert calls == calls[..n] + [calls[n]];
      ServeStep(r, calls[..n], calls[n]);
    }
  }

  /** The inductive step of `ServeAllSpec`: one more request. */
  lemma ServeStep(r: Replayer, init: seq<Key>, k: Key)
    requires Inv(r)
    requires ServeAll(r, init).Session? <==> AllFit(r, init)
    requires ServeAll(r, init).Session? ==> ServedInOrder(r, init, ServeAll(r, init))
    ensures ServeAll(r, init + [k]).Session? <==> AllFit(r, init + [k])
    ensures ServeAll(r, init + [k]).Session? ==> ServedInOrder(r, init + [k], ServeAll(r, init + [k]))
  {
    AllFitSnoc(r, init, k);
    var before := ServeAll(r, init);
    assert (init + [k])[..|init|] == init;
    if before.Session? {
      LastRequest(r, init, k, before.last);
      if NextInteraction(before.last, k.port, k.methodName).Served? {
        ServedSnoc(r, init, k);
      }
    }
  }

  /** A run fits exactly when its first part does and its last request fits after it. */
  lemma AllFitSnoc(r: Replayer, init: seq<Key>, k: Key)
    ensures AllFit(r, init + [k]) <==> AllFit(r, init) && Fits(r, init, k)
  {
    var calls := init + [k];
    assert calls[..|init|] == init;
    assert forall i :: 0 <= i < |init| ==> calls[..i] == init[..i] && calls[i] == init[i];
  }

  /** What a run with one more served request served. */
  lemma ServedSnoc(r: Replayer, init: seq<Key>, k: Key)
    requires Inv(r)
    requires ServeAll(r, init).Session? && ServedInOrder(r, init, ServeAll(r, init))
    requires Fits(r, init, k)
    requires var last := ServeAll(r, init).last;
             var s := NextInteraction(last, k.port, k.methodName);
             s.Served? && s.interaction == r.queues[k][r.cursors[k] + multiset(init)[k]]
             && forall j :: j in r.cursors ==> s.next.cursors[j] == r.cursors[j] + multiset(init + [k])[j]
    ensures ServeAll(r, init + [k]).Session?
    ensures ServedInOrder(r, init + [k], ServeAll(r, init + [k]))
  {
    var calls := init + [k];
    var before := ServeAll(r, init);
    var step := NextInteraction(before.last, k.port, k.methodName);
    assert calls[..|calls| - 1] == init;
    var s := ServeAll(r, calls);
    assert s == Session(before.served + [step.interaction], step.next);
    ServedSeqSnoc(r, init, k, before.served, step.interaction);
  }

  lemma ServedSeqSnoc(r: Replayer, init: seq<Key>, k: Key, served: seq<Interaction>, x: Interaction)
    requires ServedSeq(r, init, served) && Fits(r, init, k)
    requires x == r.queues[k][r.cursors[k] + multiset(init)[k]]
    ensures ServedSeq(r, init + [k], served + [x])
  {
    var calls := init + [k];
    forall i | 0 <= i < |calls| ensures Named(r, calls, i) == Some((served + [x])[i]) {
      if i < |init| {
        assert calls[..i] == init[..i] && calls[i] == init[i];
        assert Named(r, calls, i) == Named(r, init, i);
      } else {
        assert calls[..i] == init && calls[i] == k;
      }
    }
  }

  /** The last request of a run: after the earlier requests, the replayer's
      cursor for `k` has moved on by their count, so the next request for `k`
      fits exactly when `Fits` says so and gets the entry it names. */
  lemma LastRequest(r: Replayer, init: seq<Key>, k: Key, last: Replayer)
    requires Inv(r) && Inv(last) && last.queues == r.queues
    requires forall j :: j in r.cursors ==> last.cursors[j] == r.cursors[j] + multiset(init)[j]
    ensures NextInteraction(last, k.port, k.methodName).Served? <==> Fits(r, init, k)
    ensures var s := NextInteraction(last, k.port, k.methodName);
            s.Served? ==>
              s.interaction == r.queues[k][r.cursors[k] + multiset(init)[k]]
              && forall j :: j in r.cursors ==> s.next.cursors[j] == r.cursors[j] + multiset(init + [k])[j]
  {
    assert Key(k.port, k.methodName) == k;
    var m := multiset(init + [k]);
    assert m == multiset(init) + multiset{k};
    if k in r.cursors {
      assert last.cursors[k] == r.cursors[k] + multiset(init)[k];
      var next := last.cursors[k := last.cursors[k] + 1];
      assert forall j :: j in r.cursors ==> next[j] == r.cursors[j] + m[j];
    }
  }

  /** Replaying a whole cassette from the start: the n-th request for a key
      gets the n-th interaction recorded for that key. */
  lemma ReplayInCassetteOrder(c: Cassette, calls: seq<Key>, i: int)
    requires 0 <= i < |calls|
    requires ServeAll(New(c), calls).Session?
    ensures multiset(calls[..i])[calls[i]] < |Queue(c.interactions, calls[i])|
    ensures ServeAll(New(c), calls).served[i] == Queue(c.interactions, calls[i])[multiset(calls[..i])[calls[i]]]
  {
    ServeAllSpec(New(c), calls);
    assert Fits(New(c), calls[..i], calls[i]);
  }

  /** A request for a pair the cassette never recorded fails. */
  lemma UnknownKeyFails(c: Cassette, k: Key)
    requires k !in Keys(c.interactions)
    ensures NextInteraction(New(c), k.port, k.methodName) == Failed(NoInteractions(k.port, k.methodName))
  {
    assert Key(k.port, k.methodName) == k;
  }

  /** Asking for one more interaction than a pair recorded fails. */
  lemma ExhaustedFails(c: Cassette, k: Key, calls: seq<Key>)
    requires multiset(calls)[k] >= |Queue(c.interactions, k)|
    ensures ServeAll(New(c), calls + [k]).Aborted?
  {
    var r := New(c);
    ServeAllSpec(r, calls + [k]);
    assert (calls + [k])[..|calls|] == calls;
    if k in r.queues {
      assert !Fits(r, (calls + [k])[..|calls|], (calls + [k])[|calls|]);
    }
  }
}

=== FILE: replaying.dfy ===
/** The replaying side of the record/replay convention
    (src/adapters/replaying/mod.rs): fetching the next recorded output for a
    port method, and reading a recorded `Result` back out of it. */
module Replaying {
  import opened Base
  import opened Json
  import opened Cassette
  import opened Replayer
  import opened Recording

  const ErrLower := "err"
  const OkLower := "ok"
  const ReplayedError := "replayed error"

  /** What fetching a recorded output gave: the output and the replayer
      moved on, or the reason it panicked. */
  datatype Fetched =
    | Output(output: Json, next: Replayer)
    | NotConfigured(port: string)
    | Unavailable(error: ReplayError)

  /** `next_output`: no replayer configured for the port is a failure;
      otherwise the output of the pair's next interaction. */
  function NextOutput(replayer: Option<Replayer>, port: string, methodName: string): (f: Fetched)
    requires replayer.Some? ==> Inv(replayer.value)
    ensures replayer.None? <==> f == NotConfigured(port)
    ensures f.Output? ==>
              var r := replayer.value;
              var k := Key(port, methodName);
              k in r.queues && r.cursors[k] < |r.queues[k]|
              && f.output == r.queues[k][r.cursors[k]].output
              && f.next == Replayer(r.queues, r.cursors[k := r.cursors[k] + 1])
    ensures replayer.Some? ==>
              (f.Output? <==> var k := Key(port, methodName);
                              k in replayer.value.queues && replayer.value.cursors[k] < |replayer.value.queues[k]|)
  {
    match replayer
    case None => NotConfigured(port)
    case Some(r) =>
      match NextInteraction(r, port, methodName)
      case Served(x, next) => Output(x.output, next)
      case Failed(e) => Unavailable(e)
  }

  /** `as_str().unwrap_or(default)`. */
  function MessageOr(v: Json, default: string): (m: string)
    ensures v.JStr? ==> m == v.s
    ensures !v.JStr? ==> m == default
  {
    match AsStr(v)
    case Some(s) => s
    case None => default
  }

  /** `get(upper).or_else(|| get(lower))`: the field under the capitalised
      key, else under the lower-case one. */
  function EitherKey(v: Json, upper: string, lower: string): (r: Option<Json>)
    ensures Get(v, upper).Some? ==> r == Get(v, upper)
    ensures Get(v, upper).None? ==> r == Get(v, lower)
  {
    if Get(v, upper).Some? then Get(v, upper) else Get(v, lower)
  }

  /** `replay_result`: an "Err" or "err" field makes the result an error
      (its message, or "replayed error" when it is not a string); otherwise
      the "Ok" or "ok" field is decoded, or the whole output when there is
      neither. Capitalised keys are looked at first. */
  function ReplayResult<T>(output: Json, dec: Json -> Result<T>): (r: Result<T>)
    ensures Get(output, ErrKey).Some? ==> r == Err(MessageOr(output.fields[ErrKey], ReplayedError))
    ensures Get(output, ErrKey).None? && Get(output, ErrLower).Some? ==>
              r == Err(MessageOr(output.fields[ErrLower], ReplayedError))
    ensures Get(output, ErrKey).None? && Get(output, ErrLower).None? ==>
              r == dec(if Get(output, OkKey).Some? then output.fields[OkKey]
                       else if Get(output, OkLower).Some? then output.fields[OkLower]
                       else output)
  {
    match EitherKey(output, ErrKey, ErrLower)
    case Some(e) => Err(MessageOr(e, ReplayedError))
    case None =>
      match EitherKey(output, OkKey, OkLower)
      case Some(v) => dec(v)
      case None => dec(output)
  }

  /** An error field wins over a success field, whatever the success field
      holds. */
  lemma ErrorTakesPrecedence<T>(okValue: Json, message: string, dec: Json -> Result<T>)
    ensures ReplayResult(JObj(map[OkKey := okValue, ErrKey := JStr(message)]), dec) == Err(message)
    ensures ReplayResult(JObj(map[OkKey := okValue, ErrLower := JStr(message)]), dec) == Err(message)
  {
    assert OkKey != ErrLower && ErrKey != ErrLower by { assert OkKey[0] != ErrLower[0]; assert ErrKey[0] != ErrLower[0]; }
  }

  /** Round trip: what `record_result` stores, `replay_result` gives back,
      for a decoder that inverts the encoder. */
  lemma ReplayRoundTrip<T>(res: Result<T>, enc: T -> Json, dec: Json -> Result<T>)
    requires forall v :: dec(enc(v)) == Ok(v)
    ensures ReplayResult(EncodeResult(res, enc), dec) == res
  {
    var j := EncodeResult(res, enc);
    if res.Ok? {
      assert Get(j, ErrKey).None? && Get(j, ErrLower).None? by {
        assert ErrKey != OkKey && ErrLower != OkKey by { assert ErrLower[0] != OkKey[0]; }
      }
    }
  }

  /** What replaying one call gave: the decoded result and the replayer
      moved on, or the reason it panicked. */
  datatype Replayed<T> = Replayed(result: T, next: Replayer) | Panicked(error: ReplayError)

  /** One replayed call of a port method: the pair's next interaction is
      consumed, that cursor and no other moves on, and its output is decoded. */
  function ReplayCall<T>(r: Replayer, port: string, methodName: string, decode: Json -> T): (s: Replayed<T>)
    requires Inv(r)
    ensures var k := Key(port, methodName);
            (s.Replayed? <==> k in r.queues && r.cursors[k] < |r.queues[k]|)
            && (s.Replayed? ==>
                  s.result == decode(r.queues[k][r.cursors[k]].output)
                  && s.next == Replayer(r.queues, r.cursors[k := r.cursors[k] + 1])
                  && Inv(s.next))
  {
    match NextInteraction(r, port, methodName)
    case Served(x, next) => Replayed(decode(x.output), next)
    case Failed(e) => Panicked(e)
  }
}

=== FILE: resolve.dfy ===
/** Linkage resolution (src/linkage/resolve.rs): the abstract module names a
    task spec mentions are matched, case-insensitively, against the modules
    of a codebase map. */
module Linkage {
  import opened Base
  import opened Text
  import opened Spec
  import opened CodeMap

  datatype ResolvedLink = ResolvedLink(moduleRef: string, resolvedPath: Option<string>)

  datatype LinkageResult = LinkageResult(specId: string, links: seq<ResolvedLink>)

  /** Every reference found a module. */
  predicate FullyResolved(l: LinkageResult) {
    forall k :: 0 <= k < |l.links| ==> l.links[k].resolvedPath.Some?
  }

  /** The references that found no module, in order. */
  function Unresolved(l: LinkageResult): (r: seq<string>)
    ensures |r| <= |l.links|
    ensures forall x :: x in r <==> exists k :: 0 <= k < |l.links| && l.links[k].moduleRef == x && l.links[k].resolvedPath.None?
  {
    FilterMap(l.links, UnresolvedRef)
  }

  function UnresolvedRef(link: ResolvedLink): Option<string> {
    if link.resolvedPath.None? then Some(link.moduleRef) else None
  }

  /** `Unresolved` works link by link, in link order: a single link is
      listed iff it has no path, and two runs of links are listed run after
      run. */
  lemma UnresolvedInOrder(id: string, links1: seq<ResolvedLink>, links2: seq<ResolvedLink>, link: ResolvedLink)
    ensures Unresolved(LinkageResult(id, links1 + links2))
            == Unresolved(LinkageResult(id, links1)) + Unresolved(LinkageResult(id, links2))
    ensures Unresolved(LinkageResult(id, [link])) == if link.resolvedPath.None? then [link.moduleRef] else []
  {
    FilterMapConcat(links1, links2, UnresolvedRef);
    assert [link][1..] == [];
  }

  /** A result is fully resolved exactly when nothing is left unresolved. */
  lemma FullyResolvedIffNoneUnresolved(l: LinkageResult)
    ensures FullyResolved(l) <==> |Unresolved(l)| == 0
  {
    FilterMapEmpty(l.links, UnresolvedRef);
  }

  // ----- the three matching tiers, on a lower-cased needle -----

  /** Tier 1: some public item equals the needle, ignoring case. */
  predicate ExactItem(m: ModuleSummary, needle: string) {
    exists i :: 0 <= i < |m.publicItems| && Lower(m.publicItems[i]) == needle
  }

  /** Tier 2: the needle occurs in the path, ignoring case. */
  predicate PathHas(m: ModuleSummary, needle: string) {
    Contains(Lower(m.path), needle)
  }

  /** Tier 3: the needle occurs in some public item, ignoring case. */
  predicate ItemHas(m: ModuleSummary, needle: string) {
    exists i :: 0 <= i < |m.publicItems| && Contains(Lower(m.publicItems[i]), needle)
  }

  /** An exact item match is also a substring match, so the first tier never
      finds a module the third would not. */
  lemma ExactImpliesItemHas(m: ModuleSummary, needle: string)
    requires ExactItem(m, needle)
    ensures ItemHas(m, needle)
  {
    var i :| 0 <= i < |m.publicItems| && Lower(m.publicItems[i]) == needle;
    ContainsSelf(needle);
  }

  /** `find_matching_module`: the path of the first module matching in the
      best tier that has any match. */
  function FindMatchingModule(moduleRef: string, ms: seq<ModuleSummary>): (r: Option<string>)
    ensures r.Some? ==> r.value in Paths(ms)
    ensures r.None? <==> forall j :: 0 <= j < |ms| ==> !PathHas(ms[j], Lower(moduleRef)) && !ItemHas(ms[j], Lower(moduleRef))
    ensures (exists j :: 0 <= j < |ms| && ExactItem(ms[j], Lower(moduleRef))) ==>
              exists j :: 0 <= j < |ms| && r == Some(ms[j].path) && ExactItem(ms[j], Lower(moduleRef))
                          && forall i :: 0 <= i < j ==> !ExactItem(ms[i], Lower(moduleRef))
    ensures (forall j :: 0 <= j < |ms| ==> !ExactItem(ms[j], Lower(moduleRef)))
            && (exists j :: 0 <= j < |ms| && PathHas(ms[j], Lower(moduleRef))) ==>
              exists j :: 0 <= j < |ms| && r == Some(ms[j].path) && PathHas(ms[j], Lower(moduleRef))
                          && forall i :: 0 <= i < j ==> !PathHas(ms[i], Lower(moduleRef))
    ensures (forall j :: 0 <= j < |ms| ==> !ExactItem(ms[j], Lower(moduleRef)) && !PathHas(ms[j], Lower(moduleRef)))
            && (exists j :: 0 <= j < |ms| && ItemHas(ms[j], Lower(moduleRef))) ==>
              exists j :: 0 <= j < |ms| && r == Some(ms[j].path) && ItemHas(ms[j], Lower(moduleRef))
                          && forall i :: 0 <= i < j ==> !ItemHas(ms[i], Lower(moduleRef))
  {
    var needle := Lower(moduleRef);
    forall j | 0 <= j < |ms| && ExactItem(ms[j], needle) ensures ItemHas(ms[j], needle) {
      ExactImpliesItemHas(ms[j], needle);
    }
    match Find(ms, (m: ModuleSummary) => ExactItem(m, needle))
    case Some(m) => Some(m.path)
    case None =>
      match Find(ms, (m: ModuleSummary) => PathHas(m, needle))
      case Some(m) => Some(m.path)
      case None =>
        match Find(ms, (m: ModuleSummary) => ItemHas(m, needle))
        case Some(m) => Some(m.path)
        case None => None
  }

  /** Matching ignores the case of the reference. */
  lemma FindMatchingIgnoresCase(moduleRef: string, ms: seq<ModuleSummary>)
    ensures FindMatchingModule(Lower(moduleRef), ms) == FindMatchingModule(moduleRef, ms)
  {
    LowerIsLower(moduleRef);
  }

  /** The module references of a spec; none without a context. */
  function ModuleRefs(spec: TaskSpec): seq<string> {
    if spec.context.Some? then spec.context.value.modules else []
  }

  /** `resolve`: one link per module reference, in order, each carrying the
      path of its best match or nothing when no module matches at all. */
  function Resolve(spec: TaskSpec, cmap: CodebaseMap): (r: LinkageResult)
    ensures r.specId == spec.id
    ensures |r.links| == |ModuleRefs(spec)|
    ensures forall k :: 0 <= k < |r.links| ==> r.links[k].moduleRef == ModuleRefs(spec)[k]
    ensures forall k :: 0 <= k < |r.links| ==> r.links[k].resolvedPath == FindMatchingModule(ModuleRefs(spec)[k], cmap.modules)
    ensures forall k :: 0 <= k < |r.links| && r.links[k].resolvedPath.Some? ==> r.links[k].resolvedPath.value in Paths(cmap.modules)
  {
    var refs := ModuleRefs(spec);
    LinkageResult(spec.id, seq(|refs|, k requires 0 <= k < |refs| => ResolvedLink(refs[k], FindMatchingModule(refs[k], cmap.modules))))
  }

  /** A spec without a context resolves to no links and counts as fully resolved. */
  lemma ResolveWithoutContext(spec: TaskSpec, cmap: CodebaseMap)
    requires spec.context.None?
    ensures Resolve(spec, cmap).links == []
    ensures FullyResolved(Resolve(spec, cmap))
  {
  }

  /** Against a map without modules nothing resolves: every reference is unresolved. */
  lemma ResolveAgainstEmptyMap(spec: TaskSpec, cmap: CodebaseMap)
    requires cmap.modules == []
    ensures forall x :: x in Unresolved(Resolve(spec, cmap)) <==> x in ModuleRefs(spec)
  {
    var r := Resolve(spec, cmap);
    forall x | x in ModuleRefs(spec) ensures x in Unresolved(r) {
      var k :| 0 <= k < |ModuleRefs(spec)| && ModuleRefs(spec)[k] == x;
      assert r.links[k].moduleRef == x && r.links[k].resolvedPath.None?;
    }
  }
}

=== FILE: signal.dfy ===
/** Reading a signal classification (src/plan/signal.rs) out of an
    already-parsed JSON value: which kind of verification signal a
    requirement gives, and the strategy proposed for it, or a pushback.
    Parsing the text into JSON is not part of this model. */
module Signal {
  import opened Base
  import opened Json

  datatype SignalType = Clear | FuzzyButConstrainable | InternalLogic

  datatype SubAssertion = SubAssertion(description: string, check: string)

  datatype Strategy =
    | DirectAssertion(checks: seq<string>)
    | StructuralDecomposition(subAssertions: seq<SubAssertion>)
    | RefactorToExpose(description: string)
    | TraceAssertion(description: string)

  datatype ClassificationResult =
    | Classified(signalType: SignalType, strategy: Strategy)
    | PushbackRequired(reason: string)

  const TypeField := "type"
  const ChecksField := "checks"
  const SubAssertionsField := "sub_assertions"
  const DescriptionField := "description"
  const CheckField := "check"
  const ApproachField := "approach"
  const ReasonField := "reason"

  const ClearTag := "clear"
  const FuzzyTag := "fuzzy"
  const InternalTag := "internal"
  const PushbackTag := "pushback"
  const TraceApproach := "trace"
  const RefactorApproach := "refactor"

  const MissingType := "missing 'type' field in classification response"
  const MissingChecks := "missing 'checks' field for clear signal"
  const MissingSubAssertions := "missing 'sub_assertions' field for fuzzy signal"
  const UnknownType := "unknown signal type: "
  const DefaultReason := "Requirement is under-specified"

  /** `get(key).and_then(as_str)`. */
  function StrField(v: Json, key: string): (r: Option<string>)
    ensures r.Some? <==> v.JObj? && key in v.fields && v.fields[key].JStr?
    ensures r.Some? ==> r.value == v.fields[key].s
  {
    match Get(v, key)
    case Some(f) => AsStr(f)
    case None => None
  }

  /** `get(key).and_then(as_array)`. */
  function ArrayField(v: Json, key: string): (r: Option<seq<Json>>)
    ensures r.Some? <==> v.JObj? && key in v.fields && v.fields[key].JArr?
    ensures r.Some? ==> r.value == v.fields[key].items
  {
    match Get(v, key)
    case Some(f) => AsArray(f)
    case None => None
  }

  function StrFieldOr(v: Json, key: string, default: string): string {
    match StrField(v, key)
    case Some(s) => s
    case None => default
  }

  /** A sub-assertion; a missing or non-string field reads as "". */
  function SubAssertionOf(v: Json): SubAssertion {
    SubAssertion(StrFieldOr(v, DescriptionField, ""), StrFieldOr(v, CheckField, ""))
  }

  /** The string elements of an array, in order; others are skipped. */
  function StringItems(items: seq<Json>): (r: seq<string>)
    ensures |r| <= |items|
    ensures forall k :: 0 <= k < |r| ==> JStr(r[k]) in items
    ensures forall j :: 0 <= j < |items| && items[j].JStr? ==> items[j].s in r
  {
    FilterMap(items, AsStr)
  }

  /** `parse_classification_response` after the text is parsed. */
  function ParseClassification(value: Json): (r: Result<ClassificationResult>)
    ensures StrField(value, TypeField).None? ==> r == Err(MissingType)
    ensures r.Ok? ==> StrField(value, TypeField).Some?
    ensures StrField(value, TypeField).Some? ==>
              var t := StrField(value, TypeField).value;
              && (t == ClearTag ==>
                    r == (match ArrayField(value, ChecksField)
                          case Some(items) => Ok(Classified(Clear, DirectAssertion(StringItems(items))))
                          case None => Err(MissingChecks)))
              && (t == FuzzyTag ==>
                    (r.Ok? <==> ArrayField(value, SubAssertionsField).Some?)
                    && (r.Err? ==> r.msg == MissingSubAssertions)
                    && (r.Ok? ==> r.value.Classified? && r.value.signalType == FuzzyButConstrainable
                                  && r.value.strategy.StructuralDecomposition?
                                  && var items := ArrayField(value, SubAssertionsField).value;
                                     |r.value.strategy.subAssertions| == |items|
                                     && forall i :: 0 <= i < |items| ==>
                                          r.value.strategy.subAssertions[i] == SubAssertionOf(items[i])))
              && (t == InternalTag ==>
                    r.Ok? && r.value.Classified? && r.value.signalType == InternalLogic
                    && (r.value.strategy.TraceAssertion? <==> StrField(value, ApproachField) == Some(TraceApproach))
                    && (r.value.strategy.TraceAssertion? || r.value.strategy.RefactorToExpose?)
                    && r.value.strategy.description == StrFieldOr(value, DescriptionField, ""))
              && (t == PushbackTag ==> r == Ok(PushbackRequired(StrFieldOr(value, ReasonField, DefaultReason))))
              && (t != ClearTag && t != FuzzyTag && t != InternalTag && t != PushbackTag ==>
                    r == Err(UnknownType + t))
  {
    match StrField(value, TypeField)
    case None => Err(MissingType)
    case Some(t) =>
      if t == ClearTag then
        match ArrayField(value, ChecksField)
        case None => Err(MissingChecks)
        case Some(items) => Ok(Classified(Clear, DirectAssertion(StringItems(items))))
      else if t == FuzzyTag then
        match ArrayField(value, SubAssertionsField)
        case None => Err(MissingSubAssertions)
        case Some(items) =>
          Ok(Classified(FuzzyButConstrainable,
                        StructuralDecomposition(seq(|items|, i requires 0 <= i < |items| => SubAssertionOf(items[i])))))
      else if t == InternalTag then
        var description := StrFieldOr(value, DescriptionField, "");
        var approach := StrFieldOr(value, ApproachField, RefactorApproach);
        Ok(Classified(InternalLogic,
                      if approach == TraceApproach then TraceAssertion(description) else RefactorToExpose(description)))
      else if t == PushbackTag then
        Ok(PushbackRequired(StrFieldOr(value, ReasonField, DefaultReason)))
      else Err(UnknownType + t)
  }

  // ----- the inverse: writing a classification as JSON -----

  /** A classification whose strategy is the one its signal type calls for;
      these are the ones the response format can express. */
  predicate Canonical(c: ClassificationResult) {
    match c
    case PushbackRequired(_) => true
    case Classified(t, s) =>
      (t == Clear && s.DirectAssertion?)
      || (t == FuzzyButConstrainable && s.StructuralDecomposition?)
      || (t == InternalLogic && (s.RefactorToExpose? || s.TraceAssertion?))
  }

  function SubAssertionJson(s: SubAssertion): Json {
    JObj(map[DescriptionField := JStr(s.description), CheckField := JStr(s.check)])
  }

  /** The response a model would write for a classification. */
  function EncodeClassification(c: ClassificationResult): Json {
    match c
    case PushbackRequired(reason) => JObj(map[TypeField := JStr(PushbackTag), ReasonField := JStr(reason)])
    case Classified(_, DirectAssertion(checks)) =>
      JObj(map[TypeField := JStr(ClearTag), ChecksField := StringsJson(checks)])
    case Classified(_, StructuralDecomposition(subs)) =>
      JObj(map[TypeField := JStr(FuzzyTag),
               SubAssertionsField := JArr(seq(|subs|, i requires 0 <= i < |subs| => SubAssertionJson(subs[i])))])
    case Classified(_, RefactorToExpose(d)) =>
      JObj(map[TypeField := JStr(InternalTag), ApproachField := JStr(RefactorApproach), DescriptionField := JStr(d)])
    case Classified(_, TraceAssertion(d)) =>
      JObj(map[TypeField := JStr(InternalTag), ApproachField := JStr(TraceApproach), DescriptionField := JStr(d)])
  }

  /** Every successful reading is canonical. */
  lemma ParsedIsCanonical(value: Json)
    ensures ParseClassification(value).Ok? ==> Canonical(ParseClassification(value).value)
  {
  }

  /** An array of strings keeps every element. */
  lemma {:induction false} StringItemsOfStrings(xs: seq<string>)
    ensures StringItems(StringsJson(xs).items) == xs
  {
    var items := StringsJson(xs).items;
    if |xs| > 0 {
      assert items[1..] == StringsJson(xs[1..]).items;
      StringItemsOfStrings(xs[1..]);
      assert AsStr(items[0]) == Some(xs[0]);
      assert xs == [xs[0]] + xs[1..];
    }
  }

  lemma SubAssertionRoundTrip(s: SubAssertion)
    ensures SubAssertionOf(SubAssertionJson(s)) == s
  {
    assert DescriptionField[0] != CheckField[0];
  }

  /** Round trip: a canonical classification, written out, reads back as
      itself. */
  lemma ClassificationRoundTrip(c: ClassificationResult)
    requires Canonical(c)
    ensures ParseClassification(EncodeClassification(c)) == Ok(c)
  {
    match c
    case PushbackRequired(reason) => PushbackRoundTrip(reason);
    case Classified(_, DirectAssertion(checks)) => ClearRoundTrip(checks);
    case Classified(_, StructuralDecomposition(subs)) => FuzzyRoundTrip(subs);
    case Classified(_, RefactorToExpose(d)) => InternalRoundTrip(RefactorToExpose(d));
    case Classified(_, TraceAssertion(d)) => InternalRoundTrip(TraceAssertion(d));
  }

  lemma PushbackRoundTrip(reason: string)
    ensures ParseClassification(EncodeClassification(PushbackRequired(reason))) == Ok(PushbackRequired(reason))
  {
    assert TypeField[0] != ReasonField[0];
    assert PushbackTag[0] != ClearTag[0] && PushbackTag[0] != FuzzyTag[0] && PushbackTag[0] != InternalTag[0];
  }

  lemma ClearRoundTrip(checks: seq<string>)
    ensures var c := Classified(Clear, DirectAssertion(checks));
            ParseClassification(EncodeClassification(c)) == Ok(c)
  {
    assert TypeField[0] != ChecksField[0];
    StringItemsOfStrings(checks);
  }

  lemma FuzzyRoundTrip(subs: seq<SubAssertion>)
    ensures var c := Classified(FuzzyButConstrainable, StructuralDecomposition(subs));
            ParseClassification(EncodeClassification(c)) == Ok(c)
  {
    assert TypeField[0] != SubAssertionsField[0];
    assert FuzzyTag[0] != ClearTag[0];
    var c := Classified(FuzzyButConstrainable, StructuralDecomposition(subs));
    var items := seq(|subs|, i requires 0 <= i < |subs| => SubAssertionJson(subs[i]));
    assert ArrayField(EncodeClassification(c), SubAssertionsField) == Some(items);
    forall i | 0 <= i < |subs| ensures SubAssertionOf(items[i]) == subs[i] {
      SubAssertionRoundTrip(subs[i]);
    }
    assert seq(|items|, i requires 0 <= i < |items| => SubAssertionOf(items[i])) == subs;
  }

  lemma InternalRoundTrip(strategy: Strategy)
    requires strategy.RefactorToExpose? || strategy.TraceAssertion?
    ensures var c := Classified(InternalLogic, strategy);
            ParseClassification(EncodeClassification(c)) == Ok(c)
  {
    assert TypeField[0] != ApproachField[0] && TypeField[0] != DescriptionField[0]
        && ApproachField[0] != DescriptionField[0];
    assert InternalTag[0] != ClearTag[0] && InternalTag[0] != FuzzyTag[0];
    assert RefactorApproach[0] != TraceApproach[0];
  }
}

=== FILE: spec.dfy ===
/** Task specifications: the records `spec plan` produces and the other
    commands consume (src/spec). */
module Spec {
  import opened Base
  import opened Json

  /** How observable a requirement's correctness signal is. */
  datatype SignalType = Clear | Fuzzy | InternalLogic

  /** One check of a direct-assertion strategy. */
  datatype VerificationCheck =
    | TestSuite(command: string, expected: string)
    | SqlAssertion(query: string, expected: string)
    | CommandOutput(command: string, expected: string)
    | MigrationRollback(description: string)
    | Custom(description: string)

  /** How a task's acceptance criteria are verified. The YAML test cases and
      trace entries are kept as opaque values. */
  datatype VerificationStrategy =
    | DirectAssertion(checks: seq<VerificationCheck>)
    | RefactorToExpose(decisionPoint: string, requiredStructure: string, cases: seq<Json>)
    | TraceAssertion(tracePoint: string, testInput: string, expectedTrace: seq<Json>)

  /** The codebase area a task touches. */
  datatype TaskContext = TaskContext(modules: seq<string>, patterns: Option<string>, dependencies: seq<string>)

  datatype TaskSpec = TaskSpec(
    id: string,
    title: string,
    requirement: Option<string>,
    context: Option<TaskContext>,
    acceptanceCriteria: seq<string>,
    signalType: SignalType,
    verification: VerificationStrategy)
}

=== FILE: split.dfy ===
/** The cassette splitter (src/bin/cassette_split.rs): one recorded session
    cut into one cassette per port, each renumbered from zero and linked back
    to the session it came from. Reading and writing the YAML files is left
    to the caller; `Split` says which files would be written and with what. */
module CassetteSplit {
  import opened Text
  import opened Order
  import opened Cassette

  /** A per-port cassette: the original's metadata plus the name of the
      session it was cut from. */
  datatype PerPortCassette = PerPortCassette(
    name: string, recordedAt: Timestamp, commit: string,
    sourceSession: string, interactions: seq<Interaction>)

  /** One file to write: where, and what. */
  datatype SplitFile = SplitFile(path: string, cassette: PerPortCassette)

  /** The ports of a list of interactions, in order of appearance. */
  function PortsOf(xs: seq<Interaction>): (r: seq<string>)
    ensures |r| == |xs|
    ensures forall i :: 0 <= i < |xs| ==> r[i] == xs[i].port
  {
    if |xs| == 0 then [] else PortsOf(xs[..|xs| - 1]) + [xs[|xs| - 1].port]
  }

  /** The keys of the `BTreeMap` the interactions are grouped into: every
      port that occurs, once, in increasing order. */
  function Ports(xs: seq<Interaction>): (r: seq<string>)
    ensures StrictlySorted(r)
    ensures forall p :: p in r <==> exists i :: 0 <= i < |xs| && xs[i].port == p
  {
    var ps := PortsOf(xs);
    assert forall p :: p in ps <==> exists i :: 0 <= i < |xs| && xs[i].port == p by {
      forall p | p in ps ensures exists i :: 0 <= i < |xs| && xs[i].port == p {
        var i :| 0 <= i < |ps| && ps[i] == p;
      }
    }
    SortDedup(ps)
  }

  /** The group of one port: its interactions, in recording order. */
  function OnPort(xs: seq<Interaction>, port: string): (r: seq<Interaction>)
    ensures |r| <= |xs|
    ensures forall k :: 0 <= k < |r| ==> r[k].port == port
    ensures forall x :: x in r <==> x in xs && x.port == port
  {
    if |xs| == 0 then []
    else
      var x := xs[|xs| - 1];
      OnPort(xs[..|xs| - 1], port) + (if x.port == port then [x] else [])
  }

  /** Grouping keeps recording order: the group of a concatenation is the
      group of the first part followed by the group of the second. */
  lemma {:induction false} OnPortAppend(a: seq<Interaction>, b: seq<Interaction>, port: string)
    ensures OnPort(a + b, port) == OnPort(a, port) + OnPort(b, port)
    decreases |b|
  {
    if |b| == 0 {
      assert a + b == a;
    } else {
      var init := b[..|b| - 1];
      assert (a + b)[..|a + b| - 1] == a + init;
      OnPortAppend(a, init, port);
    }
  }

  /** A single interaction forms its own port's group. */
  lemma OnPortSingle(x: Interaction, port: string)
    ensures OnPort([x], port) == if x.port == port then [x] else []
  {
    assert [x][..0] == [];
  }

  /** Sequence numbers rewritten to 0, 1, 2, ... and nothing else changed. */
  function Renumber(xs: seq<Interaction>): (r: seq<Interaction>)
    ensures Numbered(r)
    ensures SameCalls(r, xs)
  {
    seq(|xs|, i requires 0 <= i < |xs| => xs[i].(seqNo := i))
  }

  /** The path a per-port cassette is written to: `<out>/<port>/<session>.yaml`. */
  function FilePath(outDir: string, port: string, session: string): string {
    JoinPath(JoinPath(outDir, port), session + ".yaml")
  }

  const NameSeparator := "-"

  /** The files written for the given ports, in the given order; a port
      with no interactions is skipped. */
  function SplitPorts(c: Cassette, outDir: string, ports: seq<string>): (r: seq<SplitFile>)
    ensures |r| <= |ports|
    ensures forall k :: 0 <= k < |r| ==> |r[k].cassette.interactions| > 0
  {
    if |ports| == 0 then []
    else
      var rest := SplitPorts(c, outDir, ports[1..]);
      if |OnPort(c.interactions, ports[0])| == 0 then rest
      else [PortFile(c, outDir, ports[0])] + rest
  }

  /** The file for one port: named `<session>-<port>`, pointing back at its
      session, keeping the recording time and commit, holding the port's
      calls in recording order numbered from zero, written to
      `<session>.yaml` in the port's directory. */
  function PortFile(c: Cassette, outDir: string, port: string): (r: SplitFile)
    ensures r.cassette.name == c.name + NameSeparator + port
    ensures r.cassette.sourceSession == c.name
    ensures r.cassette.recordedAt == c.recordedAt && r.cassette.commit == c.commit
    ensures Numbered(r.cassette.interactions)
    ensures SameCalls(r.cassette.interactions, OnPort(c.interactions, port))
    ensures EndsWith(r.path, c.name + ".yaml")
  {
    SplitFile(FilePath(outDir, port, c.name),
              PerPortCassette(c.name + NameSeparator + port, c.recordedAt, c.commit, c.name,
                              Renumber(OnPort(c.interactions, port))))
  }

  /** `split_cassette`, file contents only. */
  function Split(c: Cassette, outDir: string): (r: seq<SplitFile>)
    ensures |r| <= |Ports(c.interactions)|
  {
    SplitPorts(c, outDir, Ports(c.interactions))
  }

  // ----- properties -----

  /** Every port that occurs has a non-empty group, so no port is skipped:
      exactly one file per distinct port, in port order. */
  lemma {:induction false} NoPortSkipped(c: Cassette, outDir: string, ports: seq<string>)
    requires forall j :: 0 <= j < |ports| ==> |OnPort(c.interactions, ports[j])| > 0
    ensures |SplitPorts(c, outDir, ports)| == |ports|
    ensures forall j :: 0 <= j < |ports| ==> SplitPorts(c, outDir, ports)[j] == PortFile(c, outDir, ports[j])
  {
    if |ports| > 0 {
      var tail := ports[1..];
      TailHasCalls(c, ports);
      NoPortSkipped(c, outDir, tail);
      var rest := SplitPorts(c, outDir, tail);
      var head := PortFile(c, outDir, ports[0]);
      SplitPortsCons(c, outDir, ports);
      forall j | 1 <= j < |ports| ensures ([head] + rest)[j] == PortFile(c, outDir, ports[j]) {
        assert tail[j - 1] == ports[j];
        ConsAt(head, rest, j);
      }
    }
  }

  lemma TailHasCalls(c: Cassette, ports: seq<string>)
    requires |ports| > 0
    requires forall j :: 0 <= j < |ports| ==> |OnPort(c.interactions, ports[j])| > 0
    ensures forall j :: 0 <= j < |ports[1..]| ==> |OnPort(c.interactions, ports[1..][j])| > 0
  {
    forall j | 0 <= j < |ports[1..]| ensures |OnPort(c.interactions, ports[1..][j])| > 0 {
      assert ports[1..][j] == ports[j + 1];
    }
  }

  /** A port with calls puts its file in front of the rest. */
  lemma SplitPortsCons(c: Cassette, outDir: string, ports: seq<string>)
    requires |ports| > 0 && |OnPort(c.interactions, ports[0])| > 0
    ensures SplitPorts(c, outDir, ports) == [PortFile(c, outDir, ports[0])] + SplitPorts(c, outDir, ports[1..])
  {
  }

  lemma ConsAt<T>(h: T, t: seq<T>, j: int)
    requires 1 <= j <= |t|
    ensures ([h] + t)[j] == t[j - 1]
  {
  }

  /** `Split` writes one file per distinct port, sorted by port, and each
      holds exactly that port's interactions in recording order, renumbered
      from zero. */
  lemma SplitShape(c: Cassette, outDir: string)
    ensures |Split(c, outDir)| == |Ports(c.interactions)|
    ensures forall j :: 0 <= j < |Split(c, outDir)| ==>
              Split(c, outDir)[j] == PortFile(c, outDir, Ports(c.interactions)[j])
  {
    var ps := Ports(c.interactions);
    forall j | 0 <= j < |ps| ensures |OnPort(c.interactions, ps[j])| > 0 {
      assert ps[j] in ps;
      var i :| 0 <= i < |c.interactions| && c.interactions[i].port == ps[j];
      assert c.interactions[i] in OnPort(c.interactions, ps[j]);
    }
    NoPortSkipped(c, outDir, ps);
  }

  /** The total size of the groups of the given ports. */
  function GroupSizes(xs: seq<Interaction>, ports: seq<string>): nat {
    if |ports| == 0 then 0 else |OnPort(xs, ports[0])| + GroupSizes(xs, ports[1..])
  }

  /** How often `p` occurs in `ports`. */
  function Occurrences(ports: seq<string>, p: string): nat {
    if |ports| == 0 then 0 else (if ports[0] == p then 1 else 0) + Occurrences(ports[1..], p)
  }

  lemma {:induction false} OccursOnce(ports: seq<string>, p: string)
    requires StrictlySorted(ports) && p in ports
    ensures Occurrences(ports, p) == 1
  {
    if ports[0] == p {
      assert p !in ports[1..] by {
        forall k | 1 <= k < |ports| ensures ports[k] != p { SortedDistinct(ports, 0, k); }
      }
      OccursNot(ports[1..], p);
    } else {
      OccursOnce(ports[1..], p);
    }
  }

  lemma {:induction false} OccursNot(ports: seq<string>, p: string)
    requires p !in ports
    ensures Occurrences(ports, p) == 0
  {
    if |ports| > 0 { OccursNot(ports[1..], p); }
  }

  /** One more interaction adds one to the group of each occurrence of its
      port. */
  lemma {:induction false} GroupSizesSnoc(xs: seq<Interaction>, x: Interaction, ports: seq<string>)
    ensures GroupSizes(xs + [x], ports) == GroupSizes(xs, ports) + Occurrences(ports, x.port)
  {
    assert (xs + [x])[..|xs + [x]| - 1] == xs;
    if |ports| > 0 { GroupSizesSnoc(xs, x, ports[1..]); }
  }

  /** The groups of a list of distinct ports covering every interaction
      share the interactions out between them: their sizes add up to the
      whole. */
  lemma {:induction false} GroupsPartition(xs: seq<Interaction>, ports: seq<string>)
    requires StrictlySorted(ports)
    requires forall i :: 0 <= i < |xs| ==> xs[i].port in ports
    ensures GroupSizes(xs, ports) == |xs|
  {
    if |xs| == 0 {
      EmptyGroups(ports);
    } else {
      var init := xs[..|xs| - 1];
      var x := xs[|xs| - 1];
      assert xs == init + [x];
      GroupsPartition(init, ports);
      GroupSizesSnoc(init, x, ports);
      OccursOnce(ports, x.port);
    }
  }

  lemma {:induction false} EmptyGroups(ports: seq<string>)
    ensures GroupSizes([], ports) == 0
  {
    if |ports| > 0 { EmptyGroups(ports[1..]); }
  }

  /** Nothing is lost or duplicated: the per-port cassettes hold, between
      them, exactly as many interactions as the session. */
  lemma SplitKeepsEveryInteraction(c: Cassette, outDir: string)
    ensures GroupSizes(c.interactions, Ports(c.interactions)) == |c.interactions|
  {
    var xs := c.interactions;
    forall i | 0 <= i < |xs| ensures xs[i].port in Ports(xs) { }
    GroupsPartition(xs, Ports(xs));
  }
}

=== FILE: text.dfy ===
/** String helpers behind Rust's `str` methods as the modelled code uses them.
    Strings are `seq<char>`. Lower-casing and whitespace follow ASCII; Rust's
    Unicode tables are not modelled. */
module Text {
  import opened Base

  // ----- case -----

  function LowerChar(c: char): char {
    if 'A' <= c <= 'Z' then (c as int + 32) as char else c
  }

  /** ASCII lower-casing (Rust's `to_lowercase` restricted to ASCII letters). */
  function Lower(s: string): (r: string)
    ensures |r| == |s|
    ensures forall i :: 0 <= i < |s| ==> r[i] == LowerChar(s[i])
  {
    seq(|s|, i requires 0 <= i < |s| => LowerChar(s[i]))
  }

  predicate IsLower(s: string) {
    forall i :: 0 <= i < |s| ==> !('A' <= s[i] <= 'Z')
  }

  /** Lower-casing leaves no upper-case letter and is idempotent. */
  lemma LowerIsLower(s: string)
    ensures IsLower(Lower(s))
    ensures Lower(Lower(s)) == Lower(s)
  {
  }

  lemma LowerAppend(a: string, b: string)
    ensures Lower(a + b) == Lower(a) + Lower(b)
  {
  }

  // ----- prefixes, suffixes, substrings -----

  predicate StartsWith(s: string, prefix: string) {
    prefix <= s
  }

  predicate EndsWith(s: string, suffix: string) {
    |suffix| <= |s| && s[|s| - |suffix|..] == suffix
  }

  /** `needle` occurs in `s` at position `i`. */
  predicate OccursAt(s: string, needle: string, i: int) {
    0 <= i && i + |needle| <= |s| && s[i..i + |needle|] == needle
  }

  /** Rust's `str::contains` with a string pattern. */
  predicate Contains(s: string, needle: string) {
    exists i :: 0 <= i <= |s| - |needle| && OccursAt(s, needle, i)
  }

  lemma ContainsAt(s: string, needle: string, i: int)
    requires OccursAt(s, needle, i)
    ensures Contains(s, needle)
  {
  }

  lemma ContainsAfterPrefix(a: string, needle: string, b: string)
    ensures Contains(a + needle + b, needle)
  {
    assert OccursAt(a + needle + b, needle, |a|);
  }

  /** An occurrence survives adding text on either side. */
  lemma ContainsExtend(a: string, needle: string, pre: string, post: string)
    requires Contains(a, needle)
    ensures Contains(pre + a + post, needle)
  {
    var i :| 0 <= i <= |a| - |needle| && OccursAt(a, needle, i);
    assert (pre + a + post)[|pre| + i..|pre| + i + |needle|] == a[i..i + |needle|];
    assert OccursAt(pre + a + post, needle, |pre| + i);
  }

  /** A pattern with a character the text lacks is not its prefix, not its
      suffix and does not occur in it. */
  lemma NotContainsMissingChar(s: string, needle: string, j: int)
    requires 0 <= j < |needle| && needle[j] !in s
    ensures !StartsWith(s, needle) && !EndsWith(s, needle) && !Contains(s, needle)
  {
    forall i | 0 <= i <= |s| - |needle| ensures !OccursAt(s, needle, i) {
      assert s[i + j] in s;
      assert s[i..i + |needle|][j] == s[i + j];
    }
    assert !OccursAt(s, needle, 0);
    assert !OccursAt(s, needle, |s| - |needle|);
  }

  lemma ContainsSelf(s: string)
    ensures Contains(s, s)
  {
    assert OccursAt(s, s, 0);
  }

  // ----- whitespace -----

  /** The whitespace `trim` removes (ASCII part of Rust's `char::is_whitespace`). */
  predicate IsSpace(c: char) {
    c == ' ' || c == '\t' || c == '\n' || c == '\r' || c == '\U{000B}' || c == '\U{000C}'
  }

  function TrimStart(s: string): (r: string)
    ensures |r| <= |s| && r == s[|s| - |r|..]
    ensures forall i :: 0 <= i < |s| - |r| ==> IsSpace(s[i])
    ensures |r| > 0 ==> !IsSpace(r[0])
  {
    if |s| > 0 && IsSpace(s[0]) then TrimStart(s[1..]) else s
  }

  function TrimEnd(s: string): (r: string)
    ensures |r| <= |s| && r == s[..|r|]
    ensures forall i :: |r| <= i < |s| ==> IsSpace(s[i])
    ensures |r| > 0 ==> !IsSpace(r[|r| - 1])
  {
    if |s| > 0 && IsSpace(s[|s| - 1]) then TrimEnd(s[..|s| - 1]) else s
  }

  /** Rust's `str::trim`. */
  function Trim(s: string): (r: string)
    ensures |r| <= |s|
    ensures |r| > 0 ==> !IsSpace(r[0]) && !IsSpace(r[|r| - 1])
  {
    TrimEnd(TrimStart(s))
  }

  /** Lower-casing does not touch whitespace, so it commutes with trimming. */
  lemma {:induction false} TrimStartLower(s: string)
    ensures TrimStart(Lower(s)) == Lower(TrimStart(s))
  {
    var l := Lower(s);
    if |s| > 0 {
      assert IsSpace(l[0]) == IsSpace(s[0]);
      if IsSpace(s[0]) {
        assert l[1..] == Lower(s[1..]);
        TrimStartLower(s[1..]);
      }
    }
  }

  lemma {:induction false} TrimEndLower(s: string)
    ensures TrimEnd(Lower(s)) == Lower(TrimEnd(s))
  {
    var l := Lower(s);
    if |s| > 0 {
      assert IsSpace(l[|s| - 1]) == IsSpace(s[|s| - 1]);
      if IsSpace(s[|s| - 1]) {
        assert l[..|s| - 1] == Lower(s[..|s| - 1]);
        TrimEndLower(s[..|s| - 1]);
      }
    }
  }

  lemma TrimLower(s: string)
    ensures Trim(Lower(s)) == Lower(Trim(s))
  {
    TrimStartLower(s);
    TrimEndLower(TrimStart(s));
  }

  /** Rust's `trim_start_matches(pat)`: strips `pat` as often as it prefixes. */
  function TrimStartMatches(s: string, pat: string): (r: string)
    requires |pat| > 0
    ensures |r| <= |s| && r == s[|s| - |r|..]
    ensures !StartsWith(r, pat)
    decreases |s|
  {
    if StartsWith(s, pat) then TrimStartMatches(s[|pat|..], pat) else s
  }

  /** Rust's `trim_end_matches(c)` for one character. */
  function TrimEndChar(s: string, c: char): (r: string)
    ensures |r| <= |s| && r == s[..|r|]
    ensures forall i :: |r| <= i < |s| ==> s[i] == c
    ensures |r| > 0 ==> r[|r| - 1] != c
  {
    if |s| > 0 && s[|s| - 1] == c then TrimEndChar(s[..|s| - 1], c) else s
  }

  // ----- splitting -----

  /** The text before the first character from `stops`
      (the first piece of Rust's `split([..])`). */
  function TakeUntilAny(s: string, stops: set<char>): (r: string)
    ensures |r| <= |s| && r == s[..|r|]
    ensures forall i :: 0 <= i < |r| ==> r[i] !in stops
    ensures |r| < |s| ==> s[|r|] in stops
  {
    if |s| == 0 || s[0] in stops then "" else [s[0]] + TakeUntilAny(s[1..], stops)
  }

  /** The first piece of `a + [c] + b` is `a` when `c` stops it and nothing in `a` does. */
  lemma {:induction false} TakeUntilAnyOf(a: string, c: char, b: string, stops: set<char>)
    requires c in stops && forall i :: 0 <= i < |a| ==> a[i] !in stops
    ensures TakeUntilAny(a + [c] + b, stops) == a
  {
    if |a| > 0 {
      assert (a + [c] + b)[1..] == a[1..] + [c] + b;
      TakeUntilAnyOf(a[1..], c, b, stops);
    }
  }

  /** The text before the first occurrence of `sep`
      (the first piece of Rust's `split(sep)`). */
  function BeforeFirst(s: string, sep: string): (r: string)
    requires |sep| > 0
    ensures |r| <= |s| && r == s[..|r|]
  {
    if |s| == 0 || StartsWith(s, sep) then "" else [s[0]] + BeforeFirst(s[1..], sep)
  }

  /** `BeforeFirst` stops at the first occurrence of `sep`, or at the end. */
  lemma {:induction false} BeforeFirstStops(s: string, sep: string)
    requires |sep| > 0
    ensures var r := BeforeFirst(s, sep);
            (|r| < |s| ==> StartsWith(s[|r|..], sep))
            && forall i :: 0 <= i < |r| ==> !StartsWith(s[i..], sep)
  {
    if |s| > 0 && !StartsWith(s, sep) {
      BeforeFirstStops(s[1..], sep);
      assert forall i :: 1 <= i <= |s| ==> s[i..] == s[1..][i - 1..];
    }
  }

  /** The first piece of `a + sep + b` is `a` when `a` holds no character
      of `sep`'s first kind; without `sep` the whole text is the first piece. */
  lemma {:induction false} BeforeFirstOf(a: string, sep: string, b: string)
    requires |sep| > 0 && sep[0] !in a
    ensures BeforeFirst(a + sep + b, sep) == a
    ensures BeforeFirst(a, sep) == a
  {
    if |a| > 0 {
      assert a[0] != sep[0];
      assert (a + sep + b)[1..] == a[1..] + sep + b;
      BeforeFirstOf(a[1..], sep, b);
    } else {
      assert a + sep + b == sep + b;
    }
  }

  /** Index of the last `c` in `s`, if any. */
  function LastIndexOf(s: string, c: char): (r: Option<nat>)
    ensures r.Some? ==> r.value < |s| && s[r.value] == c
                        && forall i :: r.value < i < |s| ==> s[i] != c
    ensures r.None? ==> forall i :: 0 <= i < |s| ==> s[i] != c
  {
    if |s| == 0 then None
    else if s[|s| - 1] == c then Some(|s| - 1)
    else LastIndexOf(s[..|s| - 1], c)
  }

  /** The text after the last `c` (Rust's `rsplit(c).next()`), the whole
      string when `c` does not occur. */
  function AfterLast(s: string, c: char): (r: string)
    ensures |r| <= |s| && r == s[|s| - |r|..]
    ensures c !in r
    ensures |r| < |s| ==> s[|s| - |r| - 1] == c
  {
    match LastIndexOf(s, c)
    case None => s
    case Some(k) => s[k + 1..]
  }

  /** The text before the last `c` (the first half of Rust's `rsplit_once(c)`),
      or `None` when `c` does not occur. */
  function BeforeLast(s: string, c: char): (r: Option<string>)
    ensures r.None? <==> c !in s
    ensures r.Some? ==> |r.value| < |s| && s == r.value + [c] + AfterLast(s, c)
  {
    match LastIndexOf(s, c)
    case None => None
    case Some(k) =>
      assert s == s[..k] + [c] + s[k + 1..];
      Some(s[..k])
  }

  /** A path split at its last separator: the part after it is the name,
      the part before it the directory. */
  lemma SplitAtLast(dir: string, name: string, c: char)
    requires c !in name
    ensures LastIndexOf(dir + [c] + name, c) == Some(|dir|)
    ensures AfterLast(dir + [c] + name, c) == name
    ensures BeforeLast(dir + [c] + name, c) == Some(dir)
  {
    var s := dir + [c] + name;
    assert s[|dir|] == c;
    assert forall i :: |dir| < i < |s| ==> s[i] == name[i - |dir| - 1];
    assert s[|dir| + 1..] == name;
    assert s[..|dir|] == dir;
  }

  /** Without the separator, the name is the whole string. */
  lemma AfterLastAbsent(s: string, c: char)
    requires c !in s
    ensures AfterLast(s, c) == s
    ensures BeforeLast(s, c) == None
  {
  }

  /** Rust's `str::lines`: split at `\n`, drop a `\r` just before it, and
      produce no empty last line for a trailing line break. */
  function Lines(s: string): seq<string>
  {
    if |s| == 0 then []
    else
      var line := TakeUntilAny(s, {'\n'});
      if |line| == |s| then [s]
      else
        var head := if |line| > 0 && line[|line| - 1] == '\r' then line[..|line| - 1] else line;
        [head] + Lines(s[|line| + 1..])
  }

  /** Each of `xs` behind `prefix` (one formatted line per element). */
  function Prefixed(prefix: string, xs: seq<string>): (r: seq<string>)
    ensures |r| == |xs|
    ensures forall i :: 0 <= i < |xs| ==> r[i] == prefix + xs[i]
  {
    seq(|xs|, i requires 0 <= i < |xs| => prefix + xs[i])
  }

  /** Rust's `join(sep)`. */
  function Join(parts: seq<string>, sep: string): string
  {
    if |parts| == 0 then ""
    else if |parts| == 1 then parts[0]
    else Join(parts[..|parts| - 1], sep) + sep + parts[|parts| - 1]
  }

  /** A joined text begins with its first part and ends with its last. */
  lemma {:induction false} JoinEnds(parts: seq<string>, sep: string)
    requires |parts| > 0
    ensures StartsWith(Join(parts, sep), parts[0])
    ensures EndsWith(Join(parts, sep), parts[|parts| - 1])
  {
    if |parts| > 1 {
      JoinEnds(parts[..|parts| - 1], sep);
    }
  }

  /** Every part occurs in the joined text. */
  lemma {:induction false} JoinContainsPart(parts: seq<string>, sep: string, k: int)
    requires 0 <= k < |parts|
    ensures Contains(Join(parts, sep), parts[k])
  {
    var n := |parts|;
    if n == 1 {
      ContainsSelf(parts[0]);
    } else {
      var init := Join(parts[..n - 1], sep);
      assert Join(parts, sep) == init + sep + parts[n - 1];
      if k == n - 1 {
        ContainsSelf(parts[k]);
        ContainsExtend(parts[k], parts[k], init + sep, "");
        assert init + sep + parts[k] + "" == Join(parts, sep);
      } else {
        JoinContainsPart(parts[..n - 1], sep, k);
        assert parts[..n - 1][k] == parts[k];
        ContainsExtend(init, parts[k], "", sep + parts[n - 1]);
        assert "" + init + (sep + parts[n - 1]) == Join(parts, sep);
      }
    }
  }

  /** Joining a part in front of a non-empty list adds one separator. */
  lemma {:induction false} JoinCons(a: string, parts: seq<string>, sep: string)
    requires |parts| > 0
    ensures Join([a] + parts, sep) == a + sep + Join(parts, sep)
  {
    var all := [a] + parts;
    if |parts| > 1 {
      assert all[..|all| - 1] == [a] + parts[..|parts| - 1];
      JoinCons(a, parts[..|parts| - 1], sep);
    } else {
      assert all[..|all| - 1] == [a];
    }
  }

  /** Joining two non-empty lists puts one separator between their joins. */
  lemma {:induction false} JoinConcat(parts1: seq<string>, parts2: seq<string>, sep: string)
    requires |parts1| > 0 && |parts2| > 0
    ensures Join(parts1 + parts2, sep) == Join(parts1, sep) + sep + Join(parts2, sep)
    decreases |parts1|
  {
    var a := parts1[0];
    if |parts1| == 1 {
      assert parts1 + parts2 == [a] + parts2;
      JoinCons(a, parts2, sep);
    } else {
      var rest := parts1[1..];
      assert parts1 + parts2 == [a] + (rest + parts2);
      assert parts1 == [a] + rest;
      JoinCons(a, rest + parts2, sep);
      JoinConcat(rest, parts2, sep);
      JoinCons(a, rest, sep);
    }
  }

  /** Every line is free of line breaks. */
  lemma {:induction false} LinesHaveNoBreaks(s: string)
    ensures forall k :: 0 <= k < |Lines(s)| ==> '\n' !in Lines(s)[k]
    decreases |s|
  {
    if |s| > 0 {
      var line := TakeUntilAny(s, {'\n'});
      if |line| < |s| {
        LinesHaveNoBreaks(s[|line| + 1..]);
      }
    }
  }

  /** One step of `Lines` on a text with a line break and no carriage
      return: the first line, then the lines of the rest. */
  lemma LinesStep(s: string)
    requires '\r' !in s
    requires |TakeUntilAny(s, {'\n'})| < |s|
    ensures var line := TakeUntilAny(s, {'\n'});
            s == line + "\n" + s[|line| + 1..]
            && Lines(s) == [line] + Lines(s[|line| + 1..])
  {
    var line := TakeUntilAny(s, {'\n'});
    NoReturnAtEnd(s, line);
    LinesUnfold(s, line);
    SplitAtBreak(s, line);
  }

  /** `Lines` on a text whose first line has no carriage return to drop. */
  lemma LinesUnfold(s: string, line: string)
    requires line == TakeUntilAny(s, {'\n'}) && |line| < |s|
    requires !(|line| > 0 && line[|line| - 1] == '\r')
    ensures Lines(s) == [line] + Lines(s[|line| + 1..])
  {
  }

  /** A text is its first line, the break, and the rest. */
  lemma SplitAtBreak(s: string, line: string)
    requires |line| < |s| && line == s[..|line|] && s[|line|] == '\n'
    ensures s == line + "\n" + s[|line| + 1..]
  {
    assert s == s[..|line|] + [s[|line|]] + s[|line| + 1..];
  }

  /** A first line of a text without carriage returns does not end in one. */
  lemma NoReturnAtEnd(s: string, line: string)
    requires '\r' !in s
    requires |line| < |s| && line == s[..|line|]
    ensures !(|line| > 0 && line[|line| - 1] == '\r')
  {
    if |line| > 0 {
      assert line[|line| - 1] == s[|line| - 1];
    }
  }

  /** Without carriage returns and a final line break, joining the lines
      with `\n` gives back the text. */
  lemma {:induction false} LinesJoin(s: string)
    requires '\r' !in s
    requires |s| == 0 || s[|s| - 1] != '\n'
    ensures Join(Lines(s), "\n") == s
    decreases |s|
  {
    if |s| > 0 {
      var line := TakeUntilAny(s, {'\n'});
      if |line| < |s| {
        LinesStep(s);
        var rest := s[|line| + 1..];
        assert rest[|rest| - 1] == s[|s| - 1];
        assert forall i :: 0 <= i < |rest| ==> rest[i] == s[|line| + 1 + i];
        assert '\r' !in rest;
        LinesJoin(rest);
        JoinCons(line, Lines(rest), "\n");
      }
    }
  }

  /** Rust's `Path::join`: an absolute `rel` replaces `base`; otherwise the
      two are joined with one `/`. */
  function JoinPath(base: string, rel: string): (r: string)
    ensures EndsWith(r, rel)
    ensures |rel| > 0 && rel[0] != '/' && |base| > 0 && base[|base| - 1] != '/' ==> r == base + "/" + rel
  {
    if |rel| > 0 && rel[0] == '/' then rel
    else if |base| == 0 || base[|base| - 1] == '/' then base + rel
    else base + "/" + rel
  }

  // ----- numbers -----

  function DigitChar(d: nat): char
    requires d < 10
  {
    "0123456789"[d]
  }

  /** Decimal rendering of a natural number (Rust's `Display` for unsigned). */
  function NatToString(n: nat): (r: string)
    ensures |r| > 0
    ensures forall i :: 0 <= i < |r| ==> '0' <= r[i] <= '9'
  {
    if n < 10 then [DigitChar(n)] else NatToString(n / 10) + [DigitChar(n % 10)]
  }

  /** A single digit is rendered as itself. */
  lemma NatToStringDigit(n: nat)
    requires n < 10
    ensures NatToString(n) == [DigitChar(n)]
  {
  }

  /** Decimal rendering of an integer (Rust's `Display` for signed). */
  function IntToString(n: int): (r: string)
    ensures |r| > 0
  {
    if n < 0 then "-" + NatToString(-n) else NatToString(n)
  }

  /** Value of a string of decimal digits. */
  function DigitsValue(s: string): nat
    requires forall i :: 0 <= i < |s| ==> '0' <= s[i] <= '9'
  {
    if |s| == 0 then 0 else 10 * DigitsValue(s[..|s| - 1]) + (s[|s| - 1] as int - '0' as int)
  }

  /** Reading back a rendered number gives the number. */
  lemma {:induction false} NatToStringRoundTrip(n: nat)
    ensures DigitsValue(NatToString(n)) == n
  {
    if n >= 10 {
      NatToStringRoundTrip(n / 10);
      var s := NatToString(n);
      assert s[..|s| - 1] == NatToString(n / 10);
    }
  }
}

=== FILE: validate.dfy ===
/** Validation of a task spec (src/validate/mod.rs): each verification check
    becomes a check result, shell checks pass on exit code 0, drift between
    two codebase maps adds failing warnings in front, and the results are
    rendered as a report. The shell is a parameter: the outcome of running a
    command. */
module Validate {
  import opened Base
  import opened Text
  import opened Spec
  import opened Ports
  import opened CodeMap
  import opened Drift

  /** How a failing check should be treated: by fixing the code, or by
      revising the spec. */
  datatype CheckCategory = Executable | Drift | ManualReview

  /** The result of one check. The category, expected and actual fields are
      the ones the feedback classifier reads. */
  datatype CheckResult = CheckResult(name: string, passed: bool, detail: string,
                                     category: CheckCategory, expected: string, actual: string)

  datatype ValidationResult = ValidationResult(specId: string, checks: seq<CheckResult>)

  /** The shell's answer to a command: its output, or the error that kept it
      from running. */
  type Shell = string -> Result<ShellOutput>

  /** `ValidationResult::passed`: every check passed (so, vacuously, a result
      without checks passes). */
  predicate Passed(r: ValidationResult) {
    forall k :: 0 <= k < |r.checks| ==> r.checks[k].passed
  }

  predicate IsFailed(c: CheckResult) { !c.passed }

  /** The failing checks, in order. */
  function FailedChecks(r: ValidationResult): (f: seq<CheckResult>)
    ensures forall k :: 0 <= k < |f| ==> !f[k].passed && f[k] in r.checks
    ensures forall k :: 0 <= k < |r.checks| && !r.checks[k].passed ==> r.checks[k] in f
  {
    Filter(r.checks, IsFailed)
  }

  /** `FailedChecks` works check by check, keeping the checks' order: a
      single check is kept iff it failed, and the checks of two runs are
      kept run after run. */
  lemma FailedChecksInOrder(id: string, xs: seq<CheckResult>, ys: seq<CheckResult>, x: CheckResult)
    ensures FailedChecks(ValidationResult(id, xs + ys))
            == FailedChecks(ValidationResult(id, xs)) + FailedChecks(ValidationResult(id, ys))
    ensures FailedChecks(ValidationResult(id, [x])) == if x.passed then [] else [x]
  {
    FilterConcat(xs, ys, IsFailed);
    assert [x][1..] == [];
  }

  /** A result passes exactly when no check failed. */
  lemma PassedIffNoFailures(r: ValidationResult)
    ensures Passed(r) <==> |FailedChecks(r)| == 0
  {
    FilterEmpty(r.checks, IsFailed);
  }

  // ----- running checks -----

  const ExitCodeTag: string := "exit code "
  const ExpectedOpen: string := " (expected: "
  const StderrTag: string := "\nstderr: "
  const RunFailure: string := "failed to run command: "

  /** What a command's exit code is reported as. */
  function ExitReport(code: int): (s: string)
    ensures StartsWith(s, ExitCodeTag)
  {
    ExitCodeTag + IntToString(code)
  }

  /** The exit code of a command together with what the check expected. */
  function ExitDetail(code: int, expected: string): (s: string)
    ensures StartsWith(s, ExitReport(code))
  {
    ExitReport(code) + (ExpectedOpen + expected + ")")
  }

  /** `run_shell_check`: the check passes when the command ran and exited
      with 0; the detail reports the exit code and what was expected, with
      the error output after it on failure, or why the command did not run. */
  function RunShellCheck(name: string, command: string, expected: string, shell: Shell): (r: CheckResult)
    ensures r.name == name && r.category == Executable && r.expected == expected
    ensures r.passed <==> shell(command).Ok? && shell(command).value.exitCode == 0
    ensures shell(command).Ok? ==>
              StartsWith(r.detail, ExitReport(shell(command).value.exitCode))
              && r.actual == ExitReport(shell(command).value.exitCode)
    ensures shell(command).Ok? && !r.passed ==> EndsWith(r.detail, StderrTag + shell(command).value.stderr)
    ensures shell(command).Err? ==> StartsWith(r.detail, RunFailure) && EndsWith(r.detail, shell(command).msg)
  {
    match shell(command)
    case Ok(out) =>
      if out.exitCode == 0 then
        CheckResult(name, true, ExitDetail(0, expected), Executable, expected, ExitReport(0))
      else
        var head := ExitDetail(out.exitCode, expected);
        var detail := head + (StderrTag + out.stderr);
        assert detail[..|head|] == head;
        assert detail[|head|..] == StderrTag + out.stderr;
        CheckResult(name, false, detail, Executable, expected, ExitReport(out.exitCode))
    case Err(e) =>
      var detail := RunFailure + e;
      assert detail[|RunFailure|..] == e;
      CheckResult(name, false, detail, Executable, expected, detail)
  }

  /** Checks that run a command. */
  predicate Executes(check: VerificationCheck) {
    check.TestSuite? || check.CommandOutput?
  }

  const SqlUnsupported: string := "SQL assertion checks not yet supported (expected: "
  const RollbackManual: string := "Migration rollback checks require manual review"
  const CustomManual: string := "Custom checks require manual review"
  const RefactorManual: string := "RefactorToExpose checks require manual review"
  const TraceManual: string := "TraceAssertion checks require manual review"

  /** The name of a check's result: its kind, then what it runs or describes. */
  function CheckLabel(check: VerificationCheck): string {
    match check
    case TestSuite(command, _) => "test-suite: " + command
    case CommandOutput(command, _) => "command-output: " + command
    case SqlAssertion(query, _) => "sql-assertion: " + query
    case MigrationRollback(description) => "migration-rollback: " + description
    case Custom(description) => "custom: " + description
  }

  /** The single failing result of a check that needs a person to look at it. */
  function ManualResult(name: string, detail: string, expected: string): (r: CheckResult)
    ensures !r.passed && r.category == ManualReview && r.name == name && r.detail == detail
  {
    CheckResult(name, false, detail, ManualReview, expected, "")
  }

  /** `run_check`: test suites and command checks run in the shell; SQL
      assertions, migration rollbacks and custom checks fail without it and
      need a person to look at them. */
  function RunCheck(check: VerificationCheck, shell: Shell): (r: CheckResult)
    ensures Executes(check) ==> r == RunShellCheck(CheckLabel(check), check.command, check.expected, shell)
    ensures !Executes(check) ==> !r.passed && r.category == ManualReview && r.name == CheckLabel(check)
    ensures check.SqlAssertion? ==> StartsWith(r.detail, SqlUnsupported) && r.expected == check.expected
  {
    match check
    case TestSuite(command, expected) => RunShellCheck(CheckLabel(check), command, expected, shell)
    case CommandOutput(command, expected) => RunShellCheck(CheckLabel(check), command, expected, shell)
    case SqlAssertion(_, expected) => ManualResult(CheckLabel(check), SqlUnsupported + (expected + ")"), expected)
    case MigrationRollback(_) => ManualResult(CheckLabel(check), RollbackManual, "")
    case Custom(_) => ManualResult(CheckLabel(check), CustomManual, "")
  }

  /** A check that runs nothing gives the same result whatever the shell does. */
  lemma NonExecutingIgnoresShell(check: VerificationCheck, a: Shell, b: Shell)
    requires !Executes(check)
    ensures RunCheck(check, a) == RunCheck(check, b)
  {
  }

  /** The result of every check of a direct assertion, in order. */
  function RunChecks(checks: seq<VerificationCheck>, shell: Shell): (r: seq<CheckResult>)
    ensures |r| == |checks|
    ensures forall k :: 0 <= k < |r| ==> r[k] == RunCheck(checks[k], shell)
  {
    seq(|checks|, k requires 0 <= k < |checks| => RunCheck(checks[k], shell))
  }

  /** `validate`: a direct assertion yields one result per check, in order;
      the other strategies yield a single failing result. */
  function Validate(spec: TaskSpec, shell: Shell): (r: ValidationResult)
    ensures r.specId == spec.id
    ensures spec.verification.DirectAssertion? ==> r.checks == RunChecks(spec.verification.checks, shell)
    ensures !spec.verification.DirectAssertion? ==>
              |r.checks| == 1 && !r.checks[0].passed && r.checks[0].category == ManualReview
  {
    var checks :=
      match spec.verification
      case DirectAssertion(cs) => RunChecks(cs, shell)
      case RefactorToExpose(decisionPoint, _, _) =>
        [ManualResult("refactor-to-expose: " + decisionPoint, RefactorManual, "")]
      case TraceAssertion(tracePoint, _, _) =>
        [ManualResult("trace-assertion: " + tracePoint, TraceManual, "")];
    ValidationResult(spec.id, checks)
  }

  /** A check passes exactly when it is a command that runs and exits with 0. */
  predicate RunsClean(c: VerificationCheck, shell: Shell) {
    Executes(c) && shell(c.command).Ok? && shell(c.command).value.exitCode == 0
  }

  /** A spec validates exactly when it asserts directly and every check is a
      command that runs and exits with 0. */
  lemma ValidatePassedIff(spec: TaskSpec, shell: Shell)
    ensures Passed(Validate(spec, shell)) <==>
              spec.verification.DirectAssertion?
              && forall k :: 0 <= k < |spec.verification.checks| ==> RunsClean(spec.verification.checks[k], shell)
  {
    var r := Validate(spec, shell);
    if spec.verification.DirectAssertion? {
      forall k | 0 <= k < |spec.verification.checks|
        ensures r.checks[k].passed <==> RunsClean(spec.verification.checks[k], shell)
      {
      }
    } else {
      assert !r.checks[0].passed;
    }
  }

  // ----- drift warnings -----

  const DriftTag: string := "drift-warning: "
  const ChangedDetail: string := "Module has changed since spec was written"
  const RemovedDetail: string := "Module has been removed from the codebase"
  const ReplanName: string := DriftTag + "re-plan recommended"
  const ReplanDetail: string := "Significant drift detected; re-planning is recommended"

  /** A failing drift warning about one module. */
  function DriftWarning(path: string, detail: string): (r: CheckResult)
    ensures !r.passed && r.category == Drift && StartsWith(r.name, DriftTag)
  {
    CheckResult(DriftTag + path, false, detail, Drift, "", "")
  }

  /** One warning per module, in order. */
  function ModuleWarnings(paths: seq<string>, detail: string): (r: seq<CheckResult>)
    ensures |r| == |paths|
    ensures forall k :: 0 <= k < |r| ==> !r[k].passed && r[k].category == Drift
    ensures forall k :: 0 <= k < |r| ==> r[k].name == DriftTag + paths[k] && r[k].detail == detail
  {
    seq(|paths|, k requires 0 <= k < |paths| => DriftWarning(paths[k], detail))
  }

  /** The warnings one drift entry inserts, in the order they are inserted:
      one per changed module, one per removed module, and one more when
      re-planning is advised. */
  function EntryWarnings(e: DriftEntry): (r: seq<CheckResult>)
    ensures |r| == EntryWarningCount(e)
    ensures forall k :: 0 <= k < |r| ==> !r[k].passed && r[k].category == Drift && StartsWith(r[k].name, DriftTag)
    ensures r[..|e.changedModules|] == ModuleWarnings(e.changedModules, ChangedDetail)
    ensures r[|e.changedModules|..|e.changedModules| + |e.removedModules|] == ModuleWarnings(e.removedModules, RemovedDetail)
  {
    var changed := ModuleWarnings(e.changedModules, ChangedDetail);
    var removed := ModuleWarnings(e.removedModules, RemovedDetail);
    var replan := if e.replanRecommended then [CheckResult(ReplanName, false, ReplanDetail, Drift, "", "")] else [];
    var r := changed + removed + replan;
    assert r[..|changed|] == changed;
    assert r[|changed|..|changed| + |removed|] == removed;
    r
  }

  /** How many warnings a drift entry is worth. */
  function EntryWarningCount(e: DriftEntry): nat {
    |e.changedModules| + |e.removedModules| + (if e.replanRecommended then 1 else 0)
  }

  /** How many warnings a report is worth. */
  function WarningCount(es: seq<DriftEntry>): nat {
    if |es| == 0 then 0 else EntryWarningCount(es[0]) + WarningCount(es[1..])
  }

  /** The warnings of all entries, in insertion order. */
  function Warnings(es: seq<DriftEntry>): (r: seq<CheckResult>)
    ensures |r| == WarningCount(es)
    ensures forall k :: 0 <= k < |r| ==> !r[k].passed && r[k].category == Drift && StartsWith(r[k].name, DriftTag)
  {
    if |es| == 0 then [] else EntryWarnings(es[0]) + Warnings(es[1..])
  }

  /** The warnings of a report are those of its entries, one entry after
      the other. */
  lemma {:induction false} WarningsConcat(es1: seq<DriftEntry>, es2: seq<DriftEntry>)
    ensures Warnings(es1 + es2) == Warnings(es1) + Warnings(es2)
    ensures |es1| == 1 ==> Warnings(es1) == EntryWarnings(es1[0])
    decreases |es1|
  {
    if |es1| == 0 {
      assert es1 + es2 == es2;
    } else {
      assert (es1 + es2)[1..] == es1[1..] + es2;
      WarningsConcat(es1[1..], es2);
      if |es1| == 1 {
        assert Warnings(es1[1..]) == [];
      }
    }
  }

  /** Inserting each of `xs` at the front, one after the other: the last
      inserted ends up first, and `checks` follows unchanged. */
  function InsertEachAtFront(xs: seq<CheckResult>, checks: seq<CheckResult>): (r: seq<CheckResult>)
    ensures |r| == |xs| + |checks|
    ensures r[|xs|..] == checks
    ensures forall k :: 0 <= k < |xs| ==> r[k] == xs[|xs| - 1 - k]
    decreases |xs|
  {
    if |xs| == 0 then checks
    else
      var r := InsertEachAtFront(xs[1..], [xs[0]] + checks);
      assert r[|xs| - 1..] == [xs[0]] + checks;
      assert r[|xs|..] == ([xs[0]] + checks)[1..];
      r
  }

  /** `validate_with_drift`: the plain validation, unless both maps are
      given and the spec drifted between them; then the drift warnings are
      inserted in front of the checks. */
  function ValidateWithDrift(spec: TaskSpec, shell: Shell, before: Option<CodebaseMap>,
                             after: Option<CodebaseMap>): (r: ValidationResult)
    ensures before.None? || after.None? ==> r == Validate(spec, shell)
    ensures r.specId == spec.id
    ensures before.Some? && after.Some? ==>
              |r.checks| == WarningCount(DetectDrift([spec], before.value, after.value).entries)
                            + |Validate(spec, shell).checks|
    ensures |Validate(spec, shell).checks| <= |r.checks|
    ensures r.checks[|r.checks| - |Validate(spec, shell).checks|..] == Validate(spec, shell).checks
    ensures forall k :: 0 <= k < |r.checks| - |Validate(spec, shell).checks| ==>
              !r.checks[k].passed && r.checks[k].category == Drift && StartsWith(r.checks[k].name, DriftTag)
    ensures before.Some? && after.Some? ==>
              var w := Warnings(DetectDrift([spec], before.value, after.value).entries);
              forall k :: 0 <= k < |w| ==> r.checks[k] == w[|w| - 1 - k]
  {
    var result := Validate(spec, shell);
    if before.Some? && after.Some? then
      var report := DetectDrift([spec], before.value, after.value);
      if IsClean(report) then result
      else
        var warnings := Warnings(report.entries);
        ValidationResult(result.specId, InsertEachAtFront(warnings, result.checks))
    else result
  }

  /** The drift warnings added for the spec: one per changed and per removed
      module, plus one when re-planning is advised. */
  lemma DriftWarningCount(spec: TaskSpec, shell: Shell, before: CodebaseMap, after: CodebaseMap)
    ensures var e := SpecDrift(spec, before, after);
            |ValidateWithDrift(spec, shell, Some(before), Some(after)).checks| - |Validate(spec, shell).checks| ==
              if e.None? then 0
              else |e.value.changedModules| + |e.value.removedModules| + (if e.value.replanRecommended then 1 else 0)
  {
    DetectDriftOne(spec, before, after);
  }

  /** The warnings inserted for a drifted spec are its entry's warnings,
      last inserted first: the first check is the last warning. */
  lemma DriftWarningsOfSpec(spec: TaskSpec, shell: Shell, before: CodebaseMap, after: CodebaseMap)
    requires SpecDrift(spec, before, after).Some?
    ensures var w := EntryWarnings(SpecDrift(spec, before, after).value);
            var r := ValidateWithDrift(spec, shell, Some(before), Some(after));
            forall k :: 0 <= k < |w| ==> r.checks[k] == w[|w| - 1 - k]
  {
    var e := SpecDrift(spec, before, after).value;
    DetectDriftOne(spec, before, after);
    WarningsSingle(e);
  }

  /** A report with one entry warns exactly as that entry does. */
  lemma WarningsSingle(e: DriftEntry)
    ensures Warnings([e]) == EntryWarnings(e)
  {
    assert [e][1..] == [];
  }

  /** Every check of a passing list that ends with `tail` passes, so each
      check of `tail` does. */
  lemma PassingSuffix(xs: seq<CheckResult>, tail: seq<CheckResult>)
    requires |tail| <= |xs| && xs[|xs| - |tail|..] == tail
    requires forall k :: 0 <= k < |xs| ==> xs[k].passed
    ensures forall k :: 0 <= k < |tail| ==> tail[k].passed
  {
    forall k | 0 <= k < |tail| ensures tail[k].passed {
      assert tail[k] == xs[|xs| - |tail| + k];
    }
  }

  /** Drift makes validation fail, and a result with drift passes only if the
      plain one does. */
  lemma DriftNeverPasses(spec: TaskSpec, shell: Shell, before: CodebaseMap, after: CodebaseMap)
    ensures SpecDrift(spec, before, after).Some? ==> !Passed(ValidateWithDrift(spec, shell, Some(before), Some(after)))
    ensures Passed(ValidateWithDrift(spec, shell, Some(before), Some(after))) ==> Passed(Validate(spec, shell))
  {
    var r := ValidateWithDrift(spec, shell, Some(before), Some(after));
    var plain := Validate(spec, shell);
    if Passed(r) {
      PassingSuffix(r.checks, plain.checks);
    }
    if SpecDrift(spec, before, after).Some? {
      DriftWarningCount(spec, shell, before, after);
      assert !r.checks[0].passed;
    }
  }

  // ----- the report -----

  const PassTag: string := "  [PASS] "
  const FailTag: string := "  [FAIL] "
  const DetailIndent: string := "         "
  const PassedLine: string := "Result: PASSED"
  const FailedLine: string := "Result: FAILED"

  /** The lines of one check: its status and name, then, for a failed
      check only, every line of its detail, indented. */
  function CheckBlock(c: CheckResult): (r: seq<string>)
    ensures |r| > 0
    ensures c.passed ==> r == [PassTag + c.name]
    ensures !c.passed ==> r[0] == FailTag + c.name && r[1..] == Prefixed(DetailIndent, Lines(c.detail))
  {
    if c.passed then [PassTag + c.name] else [FailTag + c.name] + Prefixed(DetailIndent, Lines(c.detail))
  }

  function ReportLines(r: ValidationResult): (lines: seq<string>)
    ensures |lines| >= 4
    ensures lines[0] == "Spec: " + r.specId
    ensures lines[|lines| - 1] == if Passed(r) then PassedLine else FailedLine
  {
    ["Spec: " + r.specId, ""] + FlatMap(r.checks, CheckBlock) + ["", if Passed(r) then PassedLine else FailedLine]
  }

  /** `format_report`: the spec line, a blank line, the block of every check,
      a blank line and the verdict, joined by line breaks. */
  function FormatReport(r: ValidationResult): (s: string)
    ensures StartsWith(s, "Spec: " + r.specId)
    ensures EndsWith(s, PassedLine) <==> Passed(r)
    ensures EndsWith(s, FailedLine) <==> !Passed(r)
  {
    var lines := ReportLines(r);
    JoinEnds(lines, "\n");
    Join(lines, "\n")
  }

  /** The report has the status line of every check. */
  lemma FormatReportListsChecks(r: ValidationResult, k: int)
    requires 0 <= k < |r.checks|
    ensures Contains(FormatReport(r), (if r.checks[k].passed then PassTag else FailTag) + r.checks[k].name)
  {
    var lines := ReportLines(r);
    var line := CheckBlock(r.checks[k])[0];
    assert line in FlatMap(r.checks, CheckBlock);
    assert line in lines;
    var i :| 0 <= i < |lines| && lines[i] == line;
    JoinContainsPart(lines, "\n", i);
  }
}
